=== FILE: README.md ===
# Marketplace front end: a Dafny model of its client-side logic

This project models the client-side core of a second-hand marketplace web
front end (a Next.js/React application written in TypeScript). It covers:

- the HTTP resource clients, and the status codes each one lets through;
- the authenticated services that wrap those clients, and their
  "Not authenticated" guard;
- the image upload service: the storage path, the file extension and the
  public download URL;
- the listings feed projection;
- the create-listing hook and form: field validation, the upload-slot
  bookkeeping, the payload and the submit flow;
- the listing-suggestions hook, with its latest-request-wins rule;
- the orders list: filter, tabs, row contents, badge colour;
- the sign-in and sign-up forms: the email pattern, the password rules, the
  sign-up state;
- the chat thread input, the user menu, the auth redirect path, and the
  request locale.

Everything the browser or the network decides is a parameter:

- the HTTP exchange (`Http.Exchange`: a status and a body, or no response);
- the signed-in user and their identity token (`Session.User`);
- whether storage is configured, the random UUID, the storage bucket, and
  whether the byte upload succeeded;
- what each upload in a batch returned;
- the request ids of the suggestions hook (the source uses `Date.now()`);
- the cookie and the `Accept-Language` header.

The JavaScript runtime pieces the code relies on are written out in `Text`
and `NumberParse`:

- `trim`, using ECMAScript white space;
- `split` on one character;
- `indexOf` and `lastIndexOf`;
- `length` in UTF-16 code units;
- `parseInt` in radix 10;
- `parseFloat`;
- `encodeURIComponent`, as UTF-8 percent-encoding (in `Storage`).

Each module follows one source file:

| module | source file |
|---|---|
| `Http` | the shared axios instance of `src/lib/api/client.ts`, with the `validateStatus` each call passes |
| `Session` | the "Not authenticated" preamble shared by `src/lib/services/*.ts` |
| `ListingsApi`, `MessagesApi`, `OrdersApi`, `SuggestionsApi`, `TranslationApi` | `src/lib/api/*.ts` |
| `UserApi`, `UsersApi` | `src/lib/api/user.ts` and `src/lib/api/users.ts` |
| `OrderService`, `MessageService`, `ListingService`, `SuggestionService`, `TranslationService` | `src/lib/services/*.ts` |
| `Storage` | `src/lib/services/storage.ts` |
| `Feed` | `src/lib/services/feed.ts` |
| `UploadSlots`, `CreateListing` | `src/app/market/listings/new/_hooks/use-create-listing.ts` |
| `ListingForm` | `src/app/market/listings/new/_components/create-listing-form.tsx` |
| `Suggestions` | `src/app/market/listings/new/_hooks/use-listing-suggestions.ts` |
| `OrdersList` | `src/app/market/orders/_components/orders-list.tsx` |
| `AuthForms` | `src/app/auth/_components/sign-up-form.tsx` and `sign-in-form.tsx` |
| `AuthRedirect` | `src/app/auth/page.tsx` |
| `Locale` | `i18n/request.ts` |
| `ChatThread` | `src/components/chat/chat-thread.tsx` |
| `UserMenu` | `src/app/market/_components/user-menu.tsx` |

In three places the code does not line up with itself; the model follows the
code as written:

- `src/lib/services/listings.ts` calls `listingsApi.createListing`, and
  `src/lib/services/orders.ts` calls `ordersApi.getMyOrders`. Neither client
  defines that function. Both services therefore take the client's result as
  a parameter.
- The auth page computes a redirect path and passes it to the two forms.
  Neither form takes it, so it decides nothing at present.
  `AuthRedirect` models the computation only.
- The sign-up form imports `createUser` from `users.ts`, not from `user.ts`.
  The status filter of `users.ts` differs from that of `user.ts` (see
  Findings).

## Model

| member | source | states |
|---|---|---|
| `Text.Trim` | src/app/market/listings/new/_hooks/use-create-listing.ts:126 | `trim` removes white space from both ends: the result is empty exactly for a blank string, and otherwise begins and ends with a non-space |
| `Text.TrimIsMiddle` | src/app/market/listings/new/_hooks/use-create-listing.ts:126 | what `trim` leaves is the slice of the string right after its leading white space, followed only by white space; with the non-space ends this fixes the result for every string |
| `Text.TrimIdempotent` | src/app/market/listings/new/_hooks/use-create-listing.ts:180 | trimming a trimmed string changes nothing |
| `Text.IndexOf` | src/lib/services/storage.ts:44 | the first occurrence of a character, or none exactly when it does not occur |
| `Text.LastIndexOf` | src/lib/services/storage.ts:50 | the last occurrence of a character, or none exactly when it does not occur |
| `Text.Split` | src/lib/services/storage.ts:44 | `split` on one character yields one more piece than there are separators, and no piece holds the separator |
| `Text.JoinSplit` | src/lib/services/storage.ts:44 | joining the pieces of a split with the separator gives back the string |
| `Text.SplitJoin` | src/lib/services/storage.ts:44 | splitting a join of separator-free pieces gives back the pieces |
| `Text.SplitLast` | src/lib/services/storage.ts:50 | the last piece of a split is the text after the last separator |
| `Text.CodeUnits` | src/app/market/listings/new/_hooks/use-create-listing.ts:128 | `length` counts UTF-16 code units: between one and two per character, exactly one each inside the Basic Multilingual Plane |
| `Text.CodeUnitsOfChar` | src/app/market/listings/new/_hooks/use-create-listing.ts:128 | one character is two code units outside the Basic Multilingual Plane and one inside |
| `Text.CodeUnitsConcat` | src/app/market/listings/new/_hooks/use-create-listing.ts:128 | the code-unit count adds up over concatenation, so with the one-character count it is exact for every string |
| `Text.UpperIdempotent` | src/app/market/_components/user-menu.tsx:42 | upper-casing an upper-cased string changes nothing |
| `Text.UpperConcat` | src/app/market/_components/user-menu.tsx:42 | upper-casing works character by character: the upper-casing of a concatenation is the concatenation of the upper-casings |
| `NumberParse.ParseInt` | src/app/market/listings/new/_hooks/use-create-listing.ts:144 | `parseInt(s, 10)` is NaN exactly when no digit follows the leading white space and optional sign |
| `NumberParse.ParseFloat` | src/app/market/listings/new/_hooks/use-create-listing.ts:136 | `parseFloat` is NaN only when no digit follows the leading white space and sign (the Infinity literal aside) |
| `NumberParse.ParseIntOfDecimal` | src/app/market/listings/new/_hooks/use-create-listing.ts:144 | parsing the decimal rendering of n gives n back |
| `NumberParse.UnsignedFloat` | src/app/market/listings/new/_hooks/use-create-listing.ts:136 | after the sign, the parse is NaN only when no digit leads, and an infinity read there is positive |
| `NumberParse.ParseFloatOfDigits` | src/app/market/listings/new/_hooks/use-create-listing.ts:136 | a string of digits alone parses to the number those digits denote |
| `NumberParse.ParseFloatOfDecimal` | src/app/market/listings/new/_hooks/use-create-listing.ts:136 | `parseFloat` of the decimal rendering of n gives n back |
| `NumberParse.ParseIntOfBlank` | src/app/market/listings/new/_hooks/use-create-listing.ts:144 | `parseInt` of white space only is NaN |
| `NumberParse.ParseIntSkipsSpace` | src/app/market/listings/new/_hooks/use-create-listing.ts:144 | leading white space does not change what `parseInt` reads |
| `Http.Send` | src/lib/api/orders.ts:40-45 | a response resolves exactly when the client's status predicate accepts its status, carrying that status and body; a missing response is a network error; any other status is a rejection |
| `Http.BearerInjective` | src/lib/api/orders.ts:42 | distinct tokens give distinct Authorization headers, so the header identifies the token |
| `ListingsApi.GetListingsFeed` | src/lib/api/listings.ts:34-43 | GET /listings/feed with no Authorization header and the defaulted page; only 200 resolves, with the body |
| `ListingsApi.GetListing` | src/lib/api/listings.ts:46-56 | GET /listings/{id} with no Authorization header: 404 gives null, 200 gives the listing, anything else rejects |
| `MessagesApi.GetMessagesWithUser` | src/lib/api/messages.ts:31-44 | GET /messages/with/{userId} with the bearer token; only 200 resolves; a non-array body becomes [] |
| `MessagesApi.CreateMessage` | src/lib/api/messages.ts:50-62 | POST /messages with the bearer token and the payload unchanged; only 201 resolves |
| `MessagesApi.GetConversations` | src/lib/api/messages.ts:67-81 | GET /messages/conversations with the bearer token; only 200 resolves; a non-array body becomes [] |
| `OrdersApi.GetOrder` | src/lib/api/orders.ts:39-52 | GET /orders/{id} with the bearer token: 404 gives null, 200 gives the order, anything else rejects |
| `OrdersApi.CreateOrder` | src/lib/api/orders.ts:58-70 | POST /orders with the bearer token and the payload unchanged; only 201 resolves |
| `SuggestionsApi.GenerateNewListingSuggestions` | src/lib/api/suggestions.ts:18-38 | POST /suggestions/newListing with the bearer token; only 200 resolves; the `suggestions` array, or [] when the body has none |
| `TranslationApi.TranslateContent` | src/lib/api/translation.ts:19-25 | POST /translate with no Authorization header; only 200 resolves |
| `UserApi.CreateUser` | src/lib/api/user.ts:16-21 | POST /users with no Authorization header and the payload unchanged; only 201 resolves |
| `UserApi.GetMe` | src/lib/api/user.ts:24-32 | GET /me with the bearer token; only 200 resolves |
| `UsersApi.CreateUser` | src/lib/api/users.ts:16-22 | POST /users as written: 201 and every status of 400 or more resolve with the body |
| `UsersApi.ConflictResolves` | src/lib/api/users.ts:19 | a 409 answer resolves as if the user had been created |
| `UsersApi.CreateUserCreatedOnly` | src/lib/api/users.ts:18 | the intended client: only 201 resolves, and every other status is a rejection |
| `UsersApi.AsWrittenAcceptsMore` | src/lib/api/users.ts:16-22 | the client as written sends the same request and agrees with the intended one wherever that one resolves; the two differ exactly on responses with a status of 400 or more |
| `Session.Guard` | src/lib/services/orders.ts:6-14 | with no signed-in user the service fails with "Not authenticated" and calls no client; otherwise the client gets the user's token and its outcome is the service's |
| `Session.GuardSeesOnlyToken` | src/lib/services/orders.ts:12-14 | only the token reaches the client: two users with the same token get the same outcome |
| `OrderService.FetchOrder` | src/lib/services/orders.ts:5-15 | the guard, then GetOrder with the user's token, whose outcome it returns: a 404 reaches the caller as null, a 200 as the order, no response as a network error, and any other status as a rejection |
| `OrderService.CreateOrderAs` | src/lib/services/orders.ts:18-30 | the guard, then CreateOrder with the user's token and the parameters unchanged, whose outcome it returns; only 201 resolves |
| `OrderService.FetchMyOrders` | src/lib/services/orders.ts:32-41 | the guard; a signed-in user's result is the client's |
| `MessageService.SendMessage` | src/lib/services/messages.ts:7-17 | the guard, then CreateMessage with the user's token and the parameters unchanged, whose outcome it returns; only 201 resolves |
| `MessageService.FetchMessagesWithUser` | src/lib/services/messages.ts:20-30 | the guard, then GetMessagesWithUser with the user's token, whose outcome it returns; a non-array body reaches the caller as [] |
| `ListingService.CreateListing` | src/lib/services/listings.ts:10-22 | the guard; a signed-in user's parameters are forwarded with their token unchanged |
| `SuggestionService.GenerateSuggestions` | src/lib/services/suggestions.ts:6-17 | the guard, then the suggestions client with the user's token and the parameters unchanged, whose outcome it returns; only 200 resolves, and a body without a `suggestions` array reaches the caller as [] |
| `TranslationService.TranslateListing` | src/lib/services/translation.ts:9-23 | null when the detected language is the target or on any failure; otherwise exactly the translated title and description |
| `TranslationService.TranslateListingFiltersClient` | src/lib/services/translation.ts:9-23 | the service sends the client's request, turns a client failure into null, and otherwise passes the client's translation on unless it is already in the target language |
| `Storage.FileExtension` | src/lib/services/storage.ts:43-51 | the extension never holds a dot, and a name with no dot has none |
| `Storage.HiddenFileHasNoExtension` | src/lib/services/storage.ts:46-48 | a name made of one leading dot and a dot-free rest (".hidden") has no extension |
| `Storage.ExtensionIsAfterLastDot` | src/lib/services/storage.ts:44-50 | otherwise, for a name with a dot, the extension is exactly the text after its last dot |
| `Storage.EncodeURIComponent` | src/lib/services/storage.ts:55 | the output holds only unreserved characters, '%' and upper-case hexadecimal digits, is empty only for the empty string, and leaves an all-unreserved string unchanged |
| `Storage.Utf8Decodes` | src/lib/services/storage.ts:55 | the UTF-8 bytes of a character decode back to its code point |
| `Storage.EncodeCharPrefixFree` | src/lib/services/storage.ts:55 | the encodings of two characters are never one a proper prefix of the other, and are equal only for equal characters |
| `Storage.EncodeInjective` | src/lib/services/storage.ts:55 | distinct strings have distinct encodings |
| `Storage.EncodedHasNoDelimiters` | src/lib/services/storage.ts:55-56 | the encoded path holds no '/', '?' or '#', so it stays one segment of the URL |
| `Storage.PublicUrlInjective` | src/lib/services/storage.ts:53-57 | within one bucket, distinct object paths have distinct public URLs |
| `Storage.StoragePath` | src/lib/services/storage.ts:23-24 | the object path lies under users/{uid}/ and continues with {uuid}.{ext} |
| `Storage.StoragePathInjective` | src/lib/services/storage.ts:23-24 | for one owner and one extension, distinct uuids give distinct object paths |
| `Storage.DistinctUuidsDistinctUrls` | src/lib/services/storage.ts:23-37 | two successful uploads of the same image by the same user under distinct uuids return distinct URLs |
| `Storage.UploadImage` | src/lib/services/storage.ts:5-41 | a non-image type, no storage or no user gives null with nothing uploaded; otherwise the upload goes to users/{uid}/{uuid}.{ext}, and a URL is returned exactly when the upload succeeded |
| `Feed.PickMainImage` | src/lib/services/feed.ts:11-17 | the main image is the trimmed URL of the first image when that is not blank; no images, or a missing or blank first URL, gives none |
| `Feed.BlankFirstImageNotRescued` | src/lib/services/feed.ts:12-16 | a blank first image hides the listing even if later images are usable |
| `Feed.ProjectFeed` | src/lib/services/feed.ts:24-36 | every listing with a main image gives a card with its own fields, every card comes from such a listing, and there are no more cards than listings |
| `Feed.ProjectFeedConcat` | src/lib/services/feed.ts:24-36 | the projection distributes over concatenation, so the feed order is kept |
| `Feed.ProjectFeedSingle` | src/lib/services/feed.ts:25-34 | one listing gives one card exactly when it has a main image |
| `Feed.FetchListingsFeed` | src/lib/services/feed.ts:20-37 | the feed request, then the projection of a 200 array body; anything else rejects |
| `UploadSlots.SpliceOne` | src/app/market/listings/new/_hooks/use-create-listing.ts:100 | `splice(k, 1)` drops index k when it is in range, counts a negative k from the end (clamped to 0), and ignores a k past the end |
| `UploadSlots.UploadStep` | src/app/market/listings/new/_hooks/use-create-listing.ts:91-103 | one returned upload: a truthy URL fills the slot at `prev.length - files.length + i` and keeps the length; a null URL splices that index out |
| `UploadSlots.Completed` | src/app/market/listings/new/_hooks/use-create-listing.ts:96-101 | the slots a run of returned uploads leaves behind: at most one per file |
| `UploadSlots.CompletedFinished` | src/app/market/listings/new/_hooks/use-create-listing.ts:96-101 | every slot left behind is finished and has a URL |
| `UploadSlots.CompletedKeepsSuccess` | src/app/market/listings/new/_hooks/use-create-listing.ts:96-97 | every upload that returned a URL leaves its own filled slot |
| `UploadSlots.CompletedFromSuccess` | src/app/market/listings/new/_hooks/use-create-listing.ts:96-101 | every slot left behind belongs to a file whose upload returned that URL |
| `UploadSlots.CompletedConcat` | src/app/market/listings/new/_hooks/use-create-listing.ts:87-104 | the slots of two runs in a row are the first run's followed by the second's, so the files' order is kept |
| `UploadSlots.SlotIndexHitsFile` | src/app/market/listings/new/_hooks/use-create-listing.ts:93-94 | while the batch's pending placeholders are the tail of the list, the computed index is in range and is file i's placeholder |
| `UploadSlots.StepOnPendingTail` | src/app/market/listings/new/_hooks/use-create-listing.ts:91-103 | a step on a pending tail replaces exactly that placeholder, and the rest of the tail still lines up for file i+1 |
| `UploadSlots.StepAdvances` | src/app/market/listings/new/_hooks/use-create-listing.ts:87-104 | one loop iteration turns file i's placeholder into its outcome |
| `UploadSlots.RunUploads` | src/app/market/listings/new/_hooks/use-create-listing.ts:84-107 | the upload loop: the earlier slots are untouched, the files whose uploads returned are resolved in order, and the rest stay loading when an upload throws |
| `UploadSlots.AllReturned` | src/app/market/listings/new/_hooks/use-create-listing.ts:87-104 | when every upload returns, no slot of the batch is left loading |
| `UploadSlots.RemoveImage` | src/app/market/listings/new/_hooks/use-create-listing.ts:111 | `removeImage` keeps exactly the slots with another id |
| `UploadSlots.RemoveImageConcat` | src/app/market/listings/new/_hooks/use-create-listing.ts:111 | removal works slot by slot, so the order is kept |
| `UploadSlots.RemoveAbsent` | src/app/market/listings/new/_hooks/use-create-listing.ts:111 | removing an id no slot has changes nothing |
| `UploadSlots.RemoveUnique` | src/app/market/listings/new/_hooks/use-create-listing.ts:111 | removing a unique id drops exactly its slot |
| `UploadSlots.RemoveViaControlKeepsPendingTail` | src/app/market/listings/new/_components/create-listing-form.tsx:72-74 | removing a finished slot through its control leaves the pending placeholders at the tail, so the index stays correct |
| `UploadSlots.ConcurrentBatchMisroutes` | src/app/market/listings/new/_hooks/use-create-listing.ts:93-97 | with a second batch appended during the first, the first file's URL fills the second file's slot |
| `UploadSlots.FillById` | src/app/market/listings/new/_hooks/use-create-listing.ts:97 | filling by id touches exactly the slots with that id |
| `UploadSlots.UploadStepById` | src/app/market/listings/new/_hooks/use-create-listing.ts:91-103 | the intended step: the slot created for this file is filled, or removed, and every other slot stays |
| `UploadSlots.ByIdAgreesWithIndex` | src/app/market/listings/new/_hooks/use-create-listing.ts:93-101 | on a pending tail with distinct ids, the step by id equals the step by index |
| `UploadSlots.ByIdRoutesConcurrentBatch` | src/app/market/listings/new/_hooks/use-create-listing.ts:93-97 | the step by id sends the URL to the first file's own slot in the concurrent case |
| `CreateListing.UpdateField` | src/app/market/listings/new/_hooks/use-create-listing.ts:62-72 | only the edited field changes, and only that field's error is cleared; description has no error to clear |
| `CreateListing.TitleRule` | src/app/market/listings/new/_hooks/use-create-listing.ts:126-130 | a blank title is required; a trimmed title of fewer than 3 code units is too short; otherwise no error |
| `CreateListing.PriceRule` | src/app/market/listings/new/_hooks/use-create-listing.ts:133-140 | a blank price is required; a price `parseFloat` reads as NaN or below 100 is too low; otherwise no error |
| `CreateListing.QuantityRule` | src/app/market/listings/new/_hooks/use-create-listing.ts:143-148 | a blank quantity passes; otherwise `parseInt` must give a number of at least 1 |
| `CreateListing.ConditionRule` | src/app/market/listings/new/_hooks/use-create-listing.ts:151-153 | an empty condition is required |
| `CreateListing.UsableUrls` | src/app/market/listings/new/_hooks/use-create-listing.ts:156-158 | the URLs of the finished slots: at most one per slot |
| `CreateListing.UsableUrlsEmpty` | src/app/market/listings/new/_hooks/use-create-listing.ts:156-158 | no URL is sent exactly when no slot is finished |
| `CreateListing.UsableUrlsFromUsable` | src/app/market/listings/new/_hooks/use-create-listing.ts:156-158 | each URL sent is the URL of a finished slot |
| `CreateListing.UsableUrlsConcat` | src/app/market/listings/new/_hooks/use-create-listing.ts:175-182 | the usable URLs of two stretches of slots are the first's followed by the second's |
| `CreateListing.ImagesRule` | src/app/market/listings/new/_hooks/use-create-listing.ts:156-161 | images are required exactly when no slot is finished |
| `CreateListing.ErrorsOf` | src/app/market/listings/new/_hooks/use-create-listing.ts:123-163 | the error map holds a key exactly for each failing rule, with that rule's message, and is empty exactly when every rule passes |
| `CreateListing.NoErrors` | src/app/market/listings/new/_hooks/use-create-listing.ts:164 | an error map is empty exactly when none of the five keys is in it |
| `CreateListing.Validate` | src/app/market/listings/new/_hooks/use-create-listing.ts:122-165 | `validate` replaces the errors with those of the current form and slots, and reports true exactly when none was found |
| `CreateListing.Reset` | src/app/market/listings/new/_hooks/use-create-listing.ts:201-212 | the form returns to its initial values (quantity "1"), with no slots, no errors and no submit in progress |
| `CreateListing.ValidateAccepts` | src/app/market/listings/new/_hooks/use-create-listing.ts:122-165 | the form is accepted exactly when the title, price, quantity and condition pass and some image is finished |
| `CreateListing.ResetThenValidate` | src/app/market/listings/new/_hooks/use-create-listing.ts:51-57 | validating a fresh form reports exactly title, price, condition and images as missing (the default quantity "1" passes) |
| `CreateListing.RemoveSlot` | src/app/market/listings/new/_hooks/use-create-listing.ts:110-120 | removing an image keeps the other slots and clears only the images error |
| `CreateListing.HandleImageUpload` | src/app/market/listings/new/_hooks/use-create-listing.ts:74-108 | no file list changes nothing; otherwise the slots are those of the upload loop, and the form and errors are untouched |
| `CreateListing.Payload` | src/app/market/listings/new/_hooks/use-create-listing.ts:179-187 | the trimmed title, the trimmed description or none when it is blank, the finished images' URLs, `parseFloat` of the price, `parseInt` of the quantity unless it is empty, the condition unless it is empty, and the active flag |
| `CreateListing.BlankQuantitySendsNaN` | src/app/market/listings/new/_hooks/use-create-listing.ts:143-148 | any non-empty quantity of white space only passes validation and is sent as NaN |
| `CreateListing.Submit` | src/app/market/listings/new/_hooks/use-create-listing.ts:167-199 | an invalid form shows its errors and sends nothing; a valid one sends its payload, and then either resets and navigates to the new listing with a success toast, or shows an error toast; once a request was made, no submit stays in progress |
| `CreateListing.SubmitSendsFinishedImages` | src/app/market/listings/new/_hooks/use-create-listing.ts:175-182 | adding still-loading slots to a valid form changes neither the outcome of validation nor the images sent |
| `ListingForm.HandleImageUpload` | src/app/market/listings/new/_components/create-listing-form.tsx:33-70 | the component's loop: no file list changes nothing and leaves the input alone; otherwise the input is cleared even when an upload throws, and the handler rejects exactly when one threw |
| `ListingForm.RemoveImageFromForm` | src/app/market/listings/new/_components/create-listing-form.tsx:72-74 | the component's removal keeps exactly the slots with another id |
| `ListingForm.CompleteBatchSettles` | src/app/market/listings/new/_components/create-listing-form.tsx:48-65 | when every upload returns, the earlier slots are intact and every new slot is finished with its remove control shown |
| `Suggestions.HasInput` | src/app/market/listings/new/_hooks/use-listing-suggestions.ts:74 | there is input exactly when the description is not blank |
| `Suggestions.HasMinimumInput` | src/app/market/listings/new/_hooks/use-listing-suggestions.ts:75-77 | enough input (ten UTF-16 code units once trimmed) is in particular some input and at least five characters; ten trimmed characters always suffice, and inside the Basic Multilingual Plane it holds exactly from ten trimmed characters on |
| `Suggestions.FetchThreshold` | src/app/market/listings/new/_hooks/use-listing-suggestions.ts:30-37 | fewer than five trimmed characters never send a request and ten always do; inside the Basic Multilingual Plane a request goes out exactly from ten trimmed characters on |
| `Suggestions.SevenLettersTooShort` | src/app/market/listings/new/_hooks/use-listing-suggestions.ts:75-77 | seven plain letters ("abcdefg") are not enough input |
| `Suggestions.TenLettersEnough` | src/app/market/listings/new/_hooks/use-listing-suggestions.ts:75-77 | ten plain letters ("abcdefghij") are enough input |
| `Suggestions.Fetch` | src/app/market/listings/new/_hooks/use-listing-suggestions.ts:29-49 | a short trimmed description clears the suggestions and the error and stops loading without a request; otherwise the new id becomes the latest, loading starts and the trimmed title and description are sent |
| `Suggestions.Settle` | src/app/market/listings/new/_hooks/use-listing-suggestions.ts:51-63 | a response for a request that is no longer the latest changes nothing; the latest one's success replaces the suggestions and clears the error, its failure sets the error "suggestions"; either ends loading |
| `Suggestions.ApplyConcat` | src/app/market/listings/new/_hooks/use-listing-suggestions.ts:29-64 | running two stretches of events is running one after the other |
| `Suggestions.StaleResponseIgnored` | src/app/market/listings/new/_hooks/use-listing-suggestions.ts:51-62 | a stale response has no effect on any later run |
| `Suggestions.LatestWins` | src/app/market/listings/new/_hooks/use-listing-suggestions.ts:39-63 | after two requests, the state is what the second's response makes it, in either arrival order |
| `Suggestions.ShortInputKeepsPendingRequest` | src/app/market/listings/new/_hooks/use-listing-suggestions.ts:32-40 | shortening the description does not retire a pending request, whose suggestions still arrive afterwards |
| `OrdersList.MenuCoversEveryStatus` | src/app/market/orders/_components/orders-list.tsx:22 | the filter menu lists each of the six statuses exactly once |
| `OrdersList.Filter` | src/app/market/orders/_components/orders-list.tsx:25 | `filter` keeps exactly the orders that pass |
| `OrdersList.FilterConcat` | src/app/market/orders/_components/orders-list.tsx:25 | filtering distributes over concatenation, so the list order is kept |
| `OrdersList.FilterAll` | src/app/market/orders/_components/orders-list.tsx:25 | filtering orders that all pass changes nothing |
| `OrdersList.FilterOrders` | src/app/market/orders/_components/orders-list.tsx:24-26 | 'all' shows every order; a status shows exactly the orders with that status |
| `OrdersList.FilterOrdersIdempotent` | src/app/market/orders/_components/orders-list.tsx:24-26 | filtering twice by the same status is filtering once |
| `OrdersList.Partition` | src/app/market/orders/_components/orders-list.tsx:28-32 | "bought" holds exactly the shown orders the user bought, and "sold" exactly those they sold |
| `OrdersList.TabsAreIndependent` | src/app/market/orders/_components/orders-list.tsx:28-32 | an order the user both bought and sold is in both tabs, and one they are not party to is in neither |
| `OrdersList.BadgeColour` | src/app/market/orders/_components/orders-list.tsx:76-84 | completed is green; cancelled or disputed is red; shipped or delivered is blue; paid is yellow |
| `OrdersList.RenderRow` | src/app/market/orders/_components/orders-list.tsx:43-88 | a row links to /market/orders/{id}, shows the listing title, shows the seller the quantity and net payout and the buyer the quantity and total price, and shows the status badge |
| `OrdersList.RenderList` | src/app/market/orders/_components/orders-list.tsx:34-95 | an empty tab shows its empty message; otherwise one row per order, in order |
| `OrdersList.SoldTabShowsPayout` | src/app/market/orders/_components/orders-list.tsx:30-74 | every row in the "sold" tab is a seller row with the net payout |
| `AuthRedirect.RedirectPath` | src/app/auth/page.tsx:22-25 | the value when it starts with "/", otherwise "/market"; the result always starts with "/" |
| `AuthRedirect.RedirectPathStable` | src/app/auth/page.tsx:22-25 | feeding the chosen path back in chooses it again |
| `AuthRedirect.RepeatedUsesFirst` | src/app/auth/page.tsx:21 | only the first of several values matters |
| `AuthRedirect.ProtocolRelativeKept` | src/app/auth/page.tsx:23-24 | a value such as "//host" passes the check unchanged |
| `Locale.HeaderCandidate` | i18n/request.ts:28 | the header's candidate language is a prefix of the header |
| `Locale.HeaderCandidateIsPrefixBeforeDelimiter` | i18n/request.ts:28 | the candidate is the longest prefix holding neither ',' nor '-' |
| `Locale.GetLocale` | i18n/request.ts:15-35 | a supported cookie wins; then a supported header candidate; otherwise "ja"; the result is always "en" or "ja" |
| `Locale.UnsupportedHeaderIgnored` | i18n/request.ts:29-34 | a header whose candidate is unsupported makes no difference |
| `Locale.LeadingLanguageSelected` | i18n/request.ts:24-31 | a header beginning "en-" or "ja," (and so on) selects that language when no supported cookie is set |
| `Locale.NoCaseFolding` | i18n/request.ts:28-29 | a header starting "EN" is not recognised and gives the default |
| `Locale.NoTrimming` | i18n/request.ts:28-29 | a header starting " en" is not recognised and gives the default |
| `AuthForms.IsEmail` | src/app/auth/_components/sign-up-form.tsx:65 | a recogniser for the email pattern; it accepts no empty string |
| `AuthForms.IsEmailMatchesPattern` | src/app/auth/_components/sign-up-form.tsx:65 | the recogniser accepts exactly the strings of the form local@domain.tld that the pattern describes |
| `AuthForms.PatternWitnessIsFound` | src/app/auth/_components/sign-up-form.tsx:65 | in any such reading the '@' is the first one and the final dot is the last one after it |
| `AuthForms.PatternWitnessIsEmail` | src/app/auth/_components/sign-up-form.tsx:65 | every reading of a string as local@domain.tld makes the recogniser accept it |
| `AuthForms.EmailHasOneAt` | src/app/auth/_components/sign-up-form.tsx:65 | an accepted email holds exactly one '@' |
| `AuthForms.EmailRule` | src/app/auth/_components/sign-up-form.tsx:62-67 | the empty email is required; a non-empty one that does not match the pattern is invalid; any other gives no error |
| `AuthForms.PasswordRule` | src/app/auth/_components/sign-up-form.tsx:87-92 | the empty password is required; a non-empty one shorter than 6 code units gets the minimum-length message; any other gives no error |
| `AuthForms.ConfirmRule` | src/app/auth/_components/sign-up-form.tsx:112-116 | the empty confirmation is required (with the password's message); a non-empty one that differs from the password gets the mismatch message; an equal one gives no error |
| `AuthForms.SignUpValidMeans` | src/app/auth/_components/sign-up-form.tsx:59-131 | the sign-up form submits exactly when the email matches, the password is long enough and the confirmation equals it; its email then has one '@' |
| `AuthForms.SignInRulesAreSignUpRules` | src/app/auth/_components/sign-in-form.tsx:51-82 | sign-in applies the same email and password rules as sign-up, without the confirmation |
| `AuthForms.SubmitSignIn` | src/app/auth/_components/sign-in-form.tsx:33-43 | a valid sign-in sets loading, sends nothing, and clears loading; an invalid one changes nothing |
| `AuthForms.SettleSignUp` | src/app/auth/_components/sign-up-form.tsx:38-54 | messages cleared and loading set while the request runs; on success the success message and a form keeping the email with both passwords empty; on failure only the error message; loading ends |
| `AuthForms.SubmitSignUp` | src/app/auth/_components/sign-up-form.tsx:38-54 | with the 201-only client: the success message shows exactly on a 201, the error message otherwise |
| `AuthForms.SubmitSignUpAsWritten` | src/app/auth/_components/sign-up-form.tsx:43 | with the client the form imports, the success message shows on a 201 and on every status of 400 or more |
| `AuthForms.SignUpSettles` | src/app/auth/_components/sign-up-form.tsx:39-53 | after a submit loading is off and exactly one of the two messages shows |
| `AuthForms.ConflictShowsSuccess` | src/app/auth/_components/sign-up-form.tsx:43-46 | as written, a 409 shows the success message and clears the passwords |
| `AuthForms.ConflictShowsError` | src/app/auth/_components/sign-up-form.tsx:47-50 | with the 201-only client a 409 shows the error message and keeps what was typed |
| `ChatThread.SendDraft` | src/components/chat/chat-thread.tsx:41-47 | a blank draft, or any draft while sending, stays and nothing is sent; otherwise the trimmed text is sent (given a handler) and the draft is emptied |
| `ChatThread.NoDoubleSend` | src/components/chat/chat-thread.tsx:41-47 | a second send straight after a successful one sends nothing |
| `ChatThread.SendDisabled` | src/components/chat/chat-thread.tsx:163 | the send button is disabled exactly while sending or when the draft is blank |
| `ChatThread.SendEnabledIffSends` | src/components/chat/chat-thread.tsx:163 | the button is enabled exactly when pressing it would send |
| `ChatThread.OnKeyDown` | src/components/chat/chat-thread.tsx:54-59 | any key press other than Enter with Ctrl or Meta leaves the draft alone and sends nothing; the shortcut acts like the send button |
| `ChatThread.AvatarFallback` | src/components/chat/chat-thread.tsx:102 | one character: the upper-cased first letter of the sender, or "?" for a missing or empty sender |
| `ChatThread.AvatarFallbackIgnoresCase` | src/components/chat/chat-thread.tsx:102 | senders whose first letters differ only in case share a fallback |
| `UserMenu.FirstChars` | src/app/market/_components/user-menu.tsx:40-41 | at most one character per piece |
| `UserMenu.WordStarts` | src/app/market/_components/user-menu.tsx:38-42 | the characters that begin a word, never a space |
| `UserMenu.FirstCharsOfSplit` | src/app/market/_components/user-menu.tsx:39-41 | splitting on " " and taking each piece's first character gives exactly the word starts |
| `UserMenu.Initials` | src/app/market/_components/user-menu.tsx:38-42 | an empty name gives "U"; otherwise there is at most one initial per space-separated piece |
| `UserMenu.InitialsAreWordStarts` | src/app/market/_components/user-menu.tsx:38-42 | the initials are the upper-cased first letters of the name's words, and hold no space |
| `UserMenu.BlankNameHasNoInitials` | src/app/market/_components/user-menu.tsx:38 | a name of spaces only is truthy, so it gives no initials at all |
| `UserMenu.View` | src/app/market/_components/user-menu.tsx:24-42 | a skeleton while loading, whoever is signed in; the sign-in link with no profile; otherwise the menu with the initials, the name, and the email or "" |

## Left out

- Rendering, styling, translation lookups, toasts' wording, scrolling and the
  debounce timer: messages appear as their translation keys, and the
  suggestions model begins where a debounced fetch fires.
- The identity provider (sign-in, sign-out, ID tokens, `useAuth`), the
  storage SDK's byte upload, cookies and the update-auth-token route: foreign
  calls, so they are parameters or absent.
- The axios instance (`src/lib/api/client.ts`): only its `validateStatus`
  filters are modelled. Headers it adds itself, such as Content-Type, are not.
- Browser constraint validation of `type="email"` inputs, which runs before the
  form library sees the values.
- `Text.Upper`, `ChatThread.AvatarFallback` and `UserMenu.Initials`:
  `toUpperCase` is modelled for ASCII letters only. Letters outside ASCII keep
  their case here.
- `ChatThread.AvatarFallback`, `UserMenu.Initials`: `slice(0, 1)` and `n[0]`
  take one UTF-16 code unit. The model takes one character, so an emoji or
  other character outside the Basic Multilingual Plane yields half a
  surrogate pair in the source but a whole character here.
- `NumberParse.ParseInt`: the value is an unbounded integer, where `parseInt`
  returns a double. Values above 2^53 are not rounded, and a digit string of
  more than about 309 digits does not become Infinity, so the quantity that
  `CreateListing.Payload` sends (JSON `null` for Infinity in the source) is
  exact here. Validation is unaffected: rounding keeps the sign and the
  comparison with 1.
- `NumberParse.ParseFloat`: real numbers stand for binary floating point.
  Overflow to Infinity for long digit strings, and rounding, are not
  modelled. Only the literal "Infinity" gives an infinite value.
- `UploadSlots.RunUploads`: file ids are abstract strings. The source builds
  them from the file name, `Date.now()` and `Math.random()`, and the model
  assumes them distinct where a lemma needs it (`DistinctIds`).
- `UploadSlots.RunUploads`: the loop runs over one batch. Interleaving of
  several batches is modelled only by the counterexample in Findings.
- `Suggestions.Fetch`: request ids are parameters, and distinct requests are
  assumed to have distinct ids. Two `Date.now()` values within the same
  millisecond would collide in the source.
- `Storage.UploadImage`: the metadata sent with the upload (content type and
  original name) is not modelled.
- `OrdersList.RenderRow`: number formatting by `toLocaleString` and the
  listing image are not modelled.
- `Locale.GetLocale`: loading the message catalogue for the chosen locale is
  I/O and is left out.
- Listing pages, order detail pages, the purchase dialog, the threads list and
  the theme and language toggles are outside this model.

## Findings

| source | as written | input that shows it | evidently intended | confidence | as-written member | corrected member |
|---|---|---|---|---|---|---|
| src/lib/api/users.ts:19 | `validateStatus` accepts 201 and also every status of 400 or more, so error answers resolve as a created user; the sign-up form then shows its success message | POST /users answered with 409 (address taken) or 500 | only 201 resolves, as the comment on the line before and the sibling client in `user.ts` say | high; not executed | `UsersApi.ConflictResolves` | `UsersApi.CreateUserCreatedOnly` |
| src/app/market/listings/new/_hooks/use-create-listing.ts:93-97 | the slot of file i is found as `prev.length - files.length + i`, which assumes this batch's placeholders are the last slots | choose file "a"; before its upload returns, choose file "b": the list is [a, b], and a's URL lands in b's slot, while a's slot keeps loading | each upload fills the slot created for its own file | medium; not executed | `UploadSlots.ConcurrentBatchMisroutes` | `UploadSlots.UploadStepById` |

For the first row, the form-level consequences are `AuthForms.ConflictShowsSuccess`
(as written) and `AuthForms.ConflictShowsError` (with the corrected client,
which `AuthForms.SubmitSignUp` uses).

For the second row, `UploadSlots.ByIdAgreesWithIndex` proves the corrected
step equal to the written one whenever the batch's placeholders are the tail
of the list. `UploadSlots.RemoveViaControlKeepsPendingTail` shows that
removing a finished image keeps that condition. So every result about
`UploadSlots.RunUploads`, a single batch, holds for both. The same index
appears in `create-listing-form.tsx:54-58`.

=== FILE: api_listings.dfy ===
/** The listings resource client (`src/lib/api/listings.ts`). */
module ListingsApi {
  import opened Wrappers
  import opened Http

  datatype ListingStatus = Draft | Active | Sold
  datatype ItemCondition = New | Excellent | Good | NotGood | Bad

  /** A listing image arrives either as a bare URL string or as `{url, alt?}`. */
  datatype ListingImage = PlainUrl(url: string) | ImageObject(objectUrl: Option<string>, alt: Option<string>)

  datatype Listing = Listing(
    id: string,
    sellerId: string,
    title: string,
    description: string,
    images: Option<seq<ListingImage>>,
    price: int,
    quantity: int,
    status: ListingStatus,
    condition: ItemCondition,
    createdAt: string,
    updatedAt: string)

  /** The optional `{limit?, offset?}` argument of the feed call. */
  datatype FeedParams = FeedParams(limit: Option<int>, offset: Option<int>)

  /** The query string actually sent. */
  datatype Page = Page(limit: int, offset: int)

  const DefaultLimit: int := 20
  const DefaultOffset: int := 0

  /** Default-filling of the feed parameters: absent values become 20 and 0. */
  function FeedPage(params: Option<FeedParams>): (p: Page)
    ensures params.None? ==> p == Page(20, 0)
    ensures params.Some? ==> p.limit == params.value.limit.GetOr(20)
    ensures params.Some? ==> p.offset == params.value.offset.GetOr(0)
  {
    var ps := params.GetOr(FeedParams(None, None));
    Page(ps.limit.GetOr(DefaultLimit), ps.offset.GetOr(DefaultOffset))
  }

  /** GET /listings/feed: only 200 resolves, and the body comes back as it is. */
  function GetListingsFeed(params: Option<FeedParams>, ex: Exchange<ListBody<Listing>>): (c: Call<Page, ListBody<Listing>>)
    ensures c.request == Request(Get, "/listings/feed", None, FeedPage(params))
    ensures c.result.Success? <==> ex.Responded? && ex.status == Some(200)
    ensures c.result.Success? ==> c.result.value == ex.body
  {
    var request := Request(Get, "/listings/feed", None, FeedPage(params));
    match Send(OneOf({200}), ex)
    case Success(response) => Call(request, Success(response.body))
    case Failure(e) => Call(request, Failure(e))
  }

  /** GET /listings/{id}: 200 yields the listing, 404 yields null, anything else rejects. */
  function GetListing(id: string, ex: Exchange<Listing>): (c: Call<(), Option<Listing>>)
    ensures c.request == Request(Get, "/listings/" + id, None, ())
    ensures c.result == Success(None) <==> ex.Responded? && ex.status == Some(404)
    ensures c.result.Success? && c.result.value.Some? <==> ex.Responded? && ex.status == Some(200)
    ensures c.result.Success? && c.result.value.Some? ==> c.result.value.value == ex.body
    ensures ex.NoResponse? ==> c.result == Failure(NetworkError)
    ensures ex.Responded? && ex.status != Some(200) && ex.status != Some(404) ==> c.result == Failure(Rejected(ex.status))
  {
    var request := Request(Get, "/listings/" + id, None, ());
    match Send(OneOf({200, 404}), ex)
    case Success(response) =>
      if response.status == 404 then Call(request, Success(None))
      else Call(request, Success(Some(response.body)))
    case Failure(e) => Call(request, Failure(e))
  }
}

=== FILE: api_messages.dfy ===
/** The messages resource client (`src/lib/api/messages.ts`). */
module MessagesApi {
  import opened Wrappers
  import opened Http

  datatype Message = Message(
    id: string,
    senderId: string,
    receiverId: string,
    content: string,
    createdAt: string,
    updatedAt: Option<string>)

  datatype UserProfile = UserProfile(id: string, name: string, avatarUrl: string)

  /** The latest message exchanged with one counterpart. */
  datatype Conversation = Conversation(message: Message, user: UserProfile)

  datatype CreateMessageRequest = CreateMessageRequest(receiverId: string, content: string)

  /** GET /messages/with/{userId}: 200 only; a body that is not an array reads as no messages. */
  function GetMessagesWithUser(idToken: string, userId: string, ex: Exchange<ListBody<Message>>): (c: Call<(), seq<Message>>)
    ensures c.request == Request(Get, "/messages/with/" + userId, Some(Bearer(idToken)), ())
    ensures c.result.Success? <==> ex.Responded? && ex.status == Some(200)
    ensures c.result.Success? && ex.body.Array? ==> c.result.value == ex.body.items
    ensures c.result.Success? && ex.body.NotArray? ==> c.result.value == []
  {
    var request := Request(Get, "/messages/with/" + userId, Some(Bearer(idToken)), ());
    match Send(OneOf({200}), ex)
    case Success(response) => Call(request, Success(ItemsOrEmpty(response.body)))
    case Failure(e) => Call(request, Failure(e))
  }

  /** POST /messages: only 201 resolves, with the created message. */
  function CreateMessage(idToken: string, payload: CreateMessageRequest, ex: Exchange<Message>): (c: Call<CreateMessageRequest, Message>)
    ensures c.request == Request(Post, "/messages", Some(Bearer(idToken)), payload)
    ensures c.result.Success? <==> ex.Responded? && ex.status == Some(201)
    ensures c.result.Success? ==> c.result.value == ex.body
  {
    var request := Request(Post, "/messages", Some(Bearer(idToken)), payload);
    match Send(OneOf({201}), ex)
    case Success(response) => Call(request, Success(response.body))
    case Failure(e) => Call(request, Failure(e))
  }

  /** GET /messages/conversations: 200 only; a body that is not an array reads as no conversations. */
  function GetConversations(idToken: string, ex: Exchange<ListBody<Conversation>>): (c: Call<(), seq<Conversation>>)
    ensures c.request == Request(Get, "/messages/conversations", Some(Bearer(idToken)), ())
    ensures c.result.Success? <==> ex.Responded? && ex.status == Some(200)
    ensures c.result.Success? && ex.body.Array? ==> c.result.value == ex.body.items
    ensures c.result.Success? && ex.body.NotArray? ==> c.result.value == []
  {
    var request := Request(Get, "/messages/conversations", Some(Bearer(idToken)), ());
    match Send(OneOf({200}), ex)
    case Success(response) => Call(request, Success(ItemsOrEmpty(response.body)))
    case Failure(e) => Call(request, Failure(e))
  }
}

=== FILE: api_orders.dfy ===
/** The orders resource client (`src/lib/api/orders.ts`). */
module OrdersApi {
  import opened Wrappers
  import opened Http

  datatype OrderStatus = Paid | Shipped | Delivered | Completed | Cancelled | Disputed

  datatype Order = Order(
    id: string,
    buyerId: string,
    sellerId: string,
    listingId: string,
    listingTitle: string,
    listingMainImage: string,
    listingPrice: int,
    quantity: int,
    totalPrice: int,
    platformFee: int,
    netPayout: int,
    status: OrderStatus,
    createdAt: string,
    updatedAt: string)

  datatype CreateOrderRequest = CreateOrderRequest(listingId: string, quantity: int)

  /** GET /orders/{id} with the bearer token: 200 yields the order, 404 yields null, anything else rejects. */
  function GetOrder(orderId: string, idToken: string, ex: Exchange<Order>): (c: Call<(), Option<Order>>)
    ensures c.request == Request(Get, "/orders/" + orderId, Some(Bearer(idToken)), ())
    ensures c.result == Success(None) <==> ex.Responded? && ex.status == Some(404)
    ensures c.result.Success? && c.result.value.Some? <==> ex.Responded? && ex.status == Some(200)
    ensures c.result.Success? && c.result.value.Some? ==> c.result.value.value == ex.body
    ensures ex.NoResponse? ==> c.result == Failure(NetworkError)
    ensures ex.Responded? && ex.status != Some(200) && ex.status != Some(404) ==> c.result == Failure(Rejected(ex.status))
  {
    var request := Request(Get, "/orders/" + orderId, Some(Bearer(idToken)), ());
    match Send(OneOf({200, 404}), ex)
    case Success(response) =>
      if response.status == 404 then Call(request, Success(None))
      else Call(request, Success(Some(response.body)))
    case Failure(e) => Call(request, Failure(e))
  }

  /** POST /orders with the bearer token: only 201 resolves, with the created order. */
  function CreateOrder(idToken: string, payload: CreateOrderRequest, ex: Exchange<Order>): (c: Call<CreateOrderRequest, Order>)
    ensures c.request == Request(Post, "/orders", Some(Bearer(idToken)), payload)
    ensures c.result.Success? <==> ex.Responded? && ex.status == Some(201)
    ensures c.result.Success? ==> c.result.value == ex.body
  {
    var request := Request(Post, "/orders", Some(Bearer(idToken)), payload);
    match Send(OneOf({201}), ex)
    case Success(response) => Call(request, Success(response.body))
    case Failure(e) => Call(request, Failure(e))
  }
}

=== FILE: api_suggestions.dfy ===
/** The suggestions resource client (`src/lib/api/suggestions.ts`). */
module SuggestionsApi {
  import opened Wrappers
  import opened Http

  datatype Language = Ja | En

  datatype SuggestionRequest = SuggestionRequest(title: string, description: string, condition: string, language: Language)

  /**
   * The response body: an object whose `suggestions` field is an array or
   * something else (missing, null, a non-array), or not an object at all (null).
   */
  datatype SuggestionsBody = Object(suggestions: ListBody<string>) | NotObject

  /** POST /suggestions/newListing: 200 only; anything but an array under `suggestions` reads as []. */
  function GenerateNewListingSuggestions(idToken: string, payload: SuggestionRequest, ex: Exchange<SuggestionsBody>): (c: Call<SuggestionRequest, seq<string>>)
    ensures c.request == Request(Post, "/suggestions/newListing", Some(Bearer(idToken)), payload)
    ensures c.result.Success? <==> ex.Responded? && ex.status == Some(200)
    ensures c.result.Success? && ex.body.Object? && ex.body.suggestions.Array? ==> c.result.value == ex.body.suggestions.items
    ensures c.result.Success? && (ex.body.NotObject? || ex.body.suggestions.NotArray?) ==> c.result.value == []
  {
    var request := Request(Post, "/suggestions/newListing", Some(Bearer(idToken)), payload);
    match Send(OneOf({200}), ex)
    case Success(response) =>
      var items := match response.body
        case Object(list) => ItemsOrEmpty(list)
        case NotObject => [];
      Call(request, Success(items))
    case Failure(e) => Call(request, Failure(e))
  }
}

=== FILE: api_translation.dfy ===
/** The translation resource client (`src/lib/api/translation.ts`). */
module TranslationApi {
  import opened Wrappers
  import opened Http

  datatype TranslateRequest = TranslateRequest(title: Option<string>, description: Option<string>, targetLanguage: string)

  datatype TranslateResponse = TranslateResponse(translatedTitle: string, translatedDescription: string, detectedSourceLanguage: string)

  /** POST /translate, unauthenticated: only 200 resolves, with the body. */
  function TranslateContent(payload: TranslateRequest, ex: Exchange<TranslateResponse>): (c: Call<TranslateRequest, TranslateResponse>)
    ensures c.request == Request(Post, "/translate", None, payload)
    ensures c.result.Success? <==> ex.Responded? && ex.status == Some(200)
    ensures c.result.Success? ==> c.result.value == ex.body
  {
    var request := Request(Post, "/translate", None, payload);
    match Send(OneOf({200}), ex)
    case Success(response) => Call(request, Success(response.body))
    case Failure(e) => Call(request, Failure(e))
  }
}

=== FILE: api_user.dfy ===
/** The user resource client (`src/lib/api/user.ts`). */
module UserApi {
  import opened Wrappers
  import opened Http

  datatype CreateUserRequest = CreateUserRequest(name: Option<string>, email: string, password: string)

  /** The backend's own user record; `id` is the identity provider's uid. */
  datatype CreatedUser = CreatedUser(id: string, name: string, email: string)

  /** POST /users, unauthenticated: only 201 resolves; the payload is sent unchanged. */
  function CreateUser(payload: CreateUserRequest, ex: Exchange<CreatedUser>): (c: Call<CreateUserRequest, CreatedUser>)
    ensures c.request == Request(Post, "/users", None, payload)
    ensures c.result.Success? <==> ex.Responded? && ex.status == Some(201)
    ensures c.result.Success? ==> c.result.value == ex.body
  {
    var request := Request(Post, "/users", None, payload);
    match Send(OneOf({201}), ex)
    case Success(response) => Call(request, Success(response.body))
    case Failure(e) => Call(request, Failure(e))
  }

  /** GET /me with the bearer token: only 200 resolves. */
  function GetMe(idToken: string, ex: Exchange<CreatedUser>): (c: Call<(), CreatedUser>)
    ensures c.request == Request(Get, "/me", Some(Bearer(idToken)), ())
    ensures c.result.Success? <==> ex.Responded? && ex.status == Some(200)
    ensures c.result.Success? ==> c.result.value == ex.body
  {
    var request := Request(Get, "/me", Some(Bearer(idToken)), ());
    match Send(OneOf({200}), ex)
    case Success(response) => Call(request, Success(response.body))
    case Failure(e) => Call(request, Failure(e))
  }
}

/**
 * The second users client (`src/lib/api/users.ts`), the one the sign-up form
 * calls. Its status predicate lets every status of 400 or more through.
 */
module UsersApi {
  import opened Wrappers
  import opened Http
  import opened UserApi

  /** POST /users as written: 201 and every status >= 400 resolve with the body; an absent status counts as 0. */
  function CreateUser(payload: CreateUserRequest, ex: Exchange<CreatedUser>): (c: Call<CreateUserRequest, CreatedUser>)
    ensures c.request == Request(Post, "/users", None, payload)
    ensures c.result.Success? <==> ex.Responded? && (ex.status == Some(201) || (ex.status.Some? && ex.status.value >= 400))
    ensures c.result.Success? ==> c.result.value == ex.body
  {
    var request := Request(Post, "/users", None, payload);
    match Send(CreatedOrAtLeast400, ex)
    case Success(response) => Call(request, Success(response.body))
    case Failure(e) => Call(request, Failure(e))
  }

  /** A conflict answer (409) resolves as though the user had been created. */
  lemma ConflictResolves(payload: CreateUserRequest, body: CreatedUser)
    ensures CreateUser(payload, Responded(Some(409), body)).result == Success(body)
  {
  }

  /** The predicate the endpoint evidently intends: success is exactly a 201, as in `user.ts`. */
  function CreateUserCreatedOnly(payload: CreateUserRequest, ex: Exchange<CreatedUser>): (c: Call<CreateUserRequest, CreatedUser>)
    ensures c.request == Request(Post, "/users", None, payload)
    ensures c.result.Success? <==> ex.Responded? && ex.status == Some(201)
    ensures ex.Responded? && ex.status != Some(201) ==> c.result == Failure(Rejected(ex.status))
  {
    UserApi.CreateUser(payload, ex)
  }

  /**
   * The client as written accepts everything the corrected one does, with the
   * same value, and more: it differs only by letting error statuses through.
   */
  lemma AsWrittenAcceptsMore(payload: CreateUserRequest, ex: Exchange<CreatedUser>)
    ensures CreateUser(payload, ex).request == CreateUserCreatedOnly(payload, ex).request
    ensures CreateUserCreatedOnly(payload, ex).result.Success? ==> CreateUser(payload, ex).result == CreateUserCreatedOnly(payload, ex).result
    ensures CreateUser(payload, ex).result != CreateUserCreatedOnly(payload, ex).result <==>
              ex.Responded? && ex.status.Some? && ex.status.value >= 400
  {
  }
}

=== FILE: auth_forms.dfy ===
/**
 * The sign-in and sign-up forms (`sign-in-form.tsx`, `sign-up-form.tsx`): the
 * field rules they hand to the form library, and what a submit does to the
 * form's own state. Messages are their translation keys.
 */
module AuthForms {
  import opened Wrappers
  import opened Text
  import opened Http
  import opened UserApi
  import UsersApi

  predicate Letter(c: char) {
    ('A' <= c <= 'Z') || ('a' <= c <= 'z')
  }

  predicate DecimalDigit(c: char) {
    '0' <= c <= '9'
  }

  /** `[A-Z0-9._%+-]` under the case-insensitive flag. */
  predicate LocalChar(c: char) {
    Letter(c) || DecimalDigit(c) || c == '.' || c == '_' || c == '%' || c == '+' || c == '-'
  }

  /** `[A-Z0-9.-]` under the case-insensitive flag. */
  predicate DomainChar(c: char) {
    Letter(c) || DecimalDigit(c) || c == '.' || c == '-'
  }

  predicate AllLocal(s: string) {
    forall i :: 0 <= i < |s| ==> LocalChar(s[i])
  }

  predicate AllDomain(s: string) {
    forall i :: 0 <= i < |s| ==> DomainChar(s[i])
  }

  predicate AllLetters(s: string) {
    forall i :: 0 <= i < |s| ==> Letter(s[i])
  }

  /**
   * `s` reads as `local@domain.tld` with '@' at `at` and the final '.' at
   * `dot`: a non-empty local part, a non-empty domain, and at least two
   * letters after the dot.
   */
  predicate SplitsAsEmail(s: string, at: nat, dot: nat) {
    && 0 < at && at + 1 < dot && dot + 3 <= |s|
    && s[at] == '@' && s[dot] == '.'
    && AllLocal(s[..at]) && AllDomain(s[at + 1..dot]) && AllLetters(s[dot + 1..])
  }

  /** The language of `/^[A-Z0-9._%+-]+@[A-Z0-9.-]+\.[A-Z]{2,}$/i`. */
  ghost predicate MatchesEmailPattern(s: string) {
    exists at: nat, dot: nat :: SplitsAsEmail(s, at, dot)
  }

  /**
   * A recogniser for the pattern: neither character class admits '@', so the
   * '@' is the first one; the top-level domain admits no '.', so its dot is
   * the last one.
   */
  function IsEmail(s: string): (b: bool)
    ensures b ==> s != []
  {
    match IndexOf(s, '@')
    case None => false
    case Some(at) =>
      var domain := s[at + 1..];
      match LastIndexOf(domain, '.')
      case None => false
      case Some(d) =>
        && at > 0 && d > 0 && d + 3 <= |domain|
        && AllLocal(s[..at]) && AllDomain(domain[..d]) && AllLetters(domain[d + 1..])
  }

  /** The recogniser accepts exactly the strings of the pattern. */
  lemma IsEmailMatchesPattern(s: string)
    ensures IsEmail(s) <==> MatchesEmailPattern(s)
  {
    if IsEmail(s) {
      var at := IndexOf(s, '@').value;
      var domain := s[at + 1..];
      var d := LastIndexOf(domain, '.').value;
      assert s[at + 1..at + 1 + d] == domain[..d];
      assert s[at + 1 + d + 1..] == domain[d + 1..];
      assert SplitsAsEmail(s, at, at + 1 + d);
    }
    if MatchesEmailPattern(s) {
      var at: nat, dot: nat :| SplitsAsEmail(s, at, dot);
      PatternWitnessIsEmail(s, at, dot);
    }
  }

  /** Any split of an email has its '@' at the first '@' and its dot at the last '.' after it. */
  lemma PatternWitnessIsFound(s: string, at: nat, dot: nat)
    requires SplitsAsEmail(s, at, dot)
    ensures IndexOf(s, '@') == Some(at)
    ensures LastIndexOf(s[at + 1..], '.') == Some(dot - at - 1)
  {
    AtIsFirst(s, at);
    TldIsLast(s, at, dot);
  }

  lemma TldIsLast(s: string, at: nat, dot: nat)
    requires SplitsAsEmail(s, at, dot)
    ensures LastIndexOf(s[at + 1..], '.') == Some(dot - at - 1)
  {
    DropDrop(s, at + 1, dot - at);
    DotIsLast(s[at + 1..], dot - at - 1);
  }

  /** So the recogniser finds that very split, and accepts. */
  lemma PatternWitnessIsEmail(s: string, at: nat, dot: nat)
    requires SplitsAsEmail(s, at, dot)
    ensures IsEmail(s)
  {
    var d := dot - at - 1;
    PatternWitnessIsFound(s, at, dot);
    IsEmailAt(s, at, d);
    WitnessParts(s, at, dot);
  }

  /** The three parts of a split, as the recogniser reads them. */
  lemma WitnessParts(s: string, at: nat, dot: nat)
    requires SplitsAsEmail(s, at, dot)
    ensures var d := dot - at - 1;
            && at > 0 && d > 0 && d + 3 <= |s[at + 1..]|
            && AllLocal(s[..at]) && AllDomain(s[at + 1..][..d]) && AllLetters(s[at + 1..][d + 1..])
  {
    DomainPart(s, at, dot);
    TldPart(s, at, dot);
  }

  lemma DomainPart(s: string, at: nat, dot: nat)
    requires SplitsAsEmail(s, at, dot)
    ensures AllDomain(s[at + 1..][..dot - at - 1])
  {
    DropTake(s, at + 1, dot - at - 1);
  }

  lemma TldPart(s: string, at: nat, dot: nat)
    requires SplitsAsEmail(s, at, dot)
    ensures AllLetters(s[at + 1..][dot - at..])
  {
    DropDrop(s, at + 1, dot - at);
  }

  /** Once the '@' and the last dot after it are found, the recogniser checks the three parts. */
  lemma IsEmailAt(s: string, at: nat, d: nat)
    requires IndexOf(s, '@') == Some(at) && LastIndexOf(s[at + 1..], '.') == Some(d)
    ensures IsEmail(s) <==>
              && at > 0 && d > 0 && d + 3 <= |s[at + 1..]|
              && AllLocal(s[..at]) && AllDomain(s[at + 1..][..d]) && AllLetters(s[at + 1..][d + 1..])
  {
  }

  lemma DropTake<T>(s: seq<T>, a: nat, d: nat)
    requires a + d <= |s|
    ensures s[a..][..d] == s[a..a + d]
  {
  }

  lemma DropDrop<T>(s: seq<T>, a: nat, d: nat)
    requires a + d <= |s|
    ensures s[a..][d..] == s[a + d..]
  {
  }

  /** A local part admits no '@', so the '@' after it is the first. */
  lemma AtIsFirst(s: string, at: nat)
    requires at < |s| && s[at] == '@' && AllLocal(s[..at])
    ensures IndexOf(s, '@') == Some(at)
  {
    forall i | 0 <= i < at
      ensures s[..at][i] != '@'
    {
      assert LocalChar(s[..at][i]);
    }
    IndexOfIs(s, '@', at);
  }

  /** Letters admit no '.', so a dot followed only by letters is the last. */
  lemma DotIsLast(domain: string, d: nat)
    requires d < |domain| && domain[d] == '.' && AllLetters(domain[d + 1..])
    ensures LastIndexOf(domain, '.') == Some(d)
  {
    var tld := domain[d + 1..];
    forall i | 0 <= i < |tld|
      ensures tld[i] != '.'
    {
      assert Letter(tld[i]);
    }
    LastIndexOfIs(domain, '.', d);
  }

  /** Neither the domain's characters nor the letters after its dot admit '@'. */
  lemma DomainHasNoAt(domain: string, d: nat)
    requires d < |domain| && domain[d] == '.' && AllDomain(domain[..d]) && AllLetters(domain[d + 1..])
    ensures '@' !in domain
  {
    forall i | 0 <= i < |domain|
      ensures domain[i] != '@'
    {
      if i < d {
        assert domain[i] == domain[..d][i];
      } else if i > d {
        assert domain[i] == domain[d + 1..][i - d - 1];
      }
    }
  }

  /** An accepted email holds exactly one '@'. */
  lemma EmailHasOneAt(s: string)
    requires IsEmail(s)
    ensures Count(s, '@') == 1
  {
    match IndexOf(s, '@')
    case Some(at) =>
      var domain := s[at + 1..];
      match LastIndexOf(domain, '.')
      case Some(d) =>
        DomainHasNoAt(domain, d);
        CountAtFirst(s, '@', at);
        CountAbsent(domain, '@');
  }

  /** The messages a field rule can give. */
  datatype FieldError = EmailRequired | EmailInvalid | PasswordRequired | PasswordMinLength | PasswordsNotMatch

  const MinPasswordLength: nat := 6

  /** The email field: required, then the pattern. */
  function EmailRule(email: string): (e: Option<FieldError>)
    ensures e.None? <==> IsEmail(email)
    ensures e == Some(EmailRequired) <==> email == ""
    ensures e == Some(EmailInvalid) <==> email != "" && !IsEmail(email)
  {
    if email == "" then Some(EmailRequired)
    else if !IsEmail(email) then Some(EmailInvalid)
    else None
  }

  /** The password field: required, then at least six UTF-16 code units. */
  function PasswordRule(password: string): (e: Option<FieldError>)
    ensures e.None? <==> CodeUnits(password) >= MinPasswordLength
    ensures e == Some(PasswordRequired) <==> password == ""
    ensures e == Some(PasswordMinLength) <==> password != "" && CodeUnits(password) < MinPasswordLength
  {
    if password == "" then Some(PasswordRequired)
    else if CodeUnits(password) < MinPasswordLength then Some(PasswordMinLength)
    else None
  }

  /** The confirmation field: required (with the password's message), then equal to the password. */
  function ConfirmRule(confirm: string, password: string): (e: Option<FieldError>)
    ensures e.None? <==> confirm != "" && confirm == password
    ensures e == Some(PasswordRequired) <==> confirm == ""
    ensures e == Some(PasswordsNotMatch) <==> confirm != "" && confirm != password
  {
    if confirm == "" then Some(PasswordRequired)
    else if confirm != password then Some(PasswordsNotMatch)
    else None
  }

  datatype SignInData = SignInData(email: string, password: string)

  datatype SignUpData = SignUpData(email: string, password: string, confirmPassword: string)

  /** The form library calls the submit handler only when every rule passes. */
  predicate SignInValid(data: SignInData) {
    EmailRule(data.email).None? && PasswordRule(data.password).None?
  }

  predicate SignUpValid(data: SignUpData) {
    && EmailRule(data.email).None?
    && PasswordRule(data.password).None?
    && ConfirmRule(data.confirmPassword, data.password).None?
  }

  /** A sign-up the form lets through has one '@' in the email, a long enough password and a matching confirmation. */
  lemma SignUpValidMeans(data: SignUpData)
    ensures SignUpValid(data) <==>
              IsEmail(data.email) && CodeUnits(data.password) >= MinPasswordLength && data.confirmPassword == data.password
    ensures SignUpValid(data) ==> Count(data.email, '@') == 1
  {
    if SignUpValid(data) {
      EmailHasOneAt(data.email);
    }
  }

  /** The sign-in form applies the same email and password rules as sign-up. */
  lemma SignInRulesAreSignUpRules(data: SignUpData)
    ensures SignUpValid(data) <==> SignInValid(SignInData(data.email, data.password)) && data.confirmPassword == data.password
  {
  }

  datatype SignInState = SignInState(form: SignInData, loading: bool)

  /**
   * A sign-in submit: loading is set, nothing is sent anywhere (the handler
   * only logs), and loading is cleared again. The two states are the one
   * while the handler runs and the one after it.
   */
  function SubmitSignIn(s: SignInState): (r: (SignInState, SignInState))
    ensures SignInValid(s.form) ==> r.0 == s.(loading := true) && r.1 == s.(loading := false)
    ensures !SignInValid(s.form) ==> r.0 == s && r.1 == s
  {
    if SignInValid(s.form) then (s.(loading := true), s.(loading := false)) else (s, s)
  }

  /** The sign-up form's state: its fields, the loading flag and the two messages. */
  datatype SignUpState = SignUpState(form: SignUpData, loading: bool, success: Option<string>, error: Option<string>)

  const SuccessKey: string := "signUp.success"
  const ErrorKey: string := "signUp.errorGeneric"

  /** One sign-up submit: the state while the request is out, the request if any, and the state after. */
  datatype SignUpRun = SignUpRun(during: SignUpState, sent: Option<CreateUserRequest>, after: SignUpState)

  /**
   * `onSubmit` of the sign-up form given what the client returned: the
   * messages are cleared and loading set; a resolved call sets the success
   * message and resets the form to the same email with both password fields
   * empty; a rejected one sets only the error message; loading ends either way.
   */
  function SettleSignUp(s: SignUpState, result: Result<CreatedUser, Failure>): (r: SignUpRun)
    requires SignUpValid(s.form)
    ensures r.during == s.(loading := true, success := None, error := None)
    ensures r.sent == Some(CreateUserRequest(None, s.form.email, s.form.password))
    ensures !r.after.loading
    ensures result.Success? ==>
              r.after.success == Some(SuccessKey) && r.after.error.None? && r.after.form == SignUpData(s.form.email, "", "")
    ensures result.Failure? ==>
              r.after.error == Some(ErrorKey) && r.after.success.None? && r.after.form == s.form
  {
    var during := s.(loading := true, success := None, error := None);
    var request := CreateUserRequest(None, s.form.email, s.form.password);
    match result
    case Success(_) =>
      SignUpRun(during, Some(request), during.(loading := false, success := Some(SuccessKey), form := SignUpData(s.form.email, "", "")))
    case Failure(_) =>
      SignUpRun(during, Some(request), during.(loading := false, error := Some(ErrorKey)))
  }

  /**
   * A sign-up submit against a client that resolves only on 201, the status
   * the backend answers a creation with. A submit the rules reject changes
   * nothing and sends nothing.
   */
  function SubmitSignUp(s: SignUpState, ex: Exchange<CreatedUser>): (r: SignUpRun)
    ensures !SignUpValid(s.form) ==> r == SignUpRun(s, None, s)
    ensures SignUpValid(s.form) ==> r.sent == Some(CreateUserRequest(None, s.form.email, s.form.password))
    ensures SignUpValid(s.form) ==> (r.after.success.Some? <==> ex.Responded? && ex.status == Some(201))
    ensures SignUpValid(s.form) ==> (r.after.error.Some? <==> !(ex.Responded? && ex.status == Some(201)))
  {
    if !SignUpValid(s.form) then SignUpRun(s, None, s)
    else
      var request := CreateUserRequest(None, s.form.email, s.form.password);
      SettleSignUp(s, UsersApi.CreateUserCreatedOnly(request, ex).result)
  }

  /** The sign-up submit as written: the client it calls also resolves on every status of 400 or more. */
  function SubmitSignUpAsWritten(s: SignUpState, ex: Exchange<CreatedUser>): (r: SignUpRun)
    ensures !SignUpValid(s.form) ==> r == SignUpRun(s, None, s)
    ensures SignUpValid(s.form) ==>
              r.sent == Some(CreateUserRequest(None, s.form.email, s.form.password))
              && (r.after.success.Some? <==> ex.Responded? && (ex.status == Some(201) || (ex.status.Some? && ex.status.value >= 400)))
  {
    if !SignUpValid(s.form) then SignUpRun(s, None, s)
    else
      var request := CreateUserRequest(None, s.form.email, s.form.password);
      SettleSignUp(s, UsersApi.CreateUser(request, ex).result)
  }

  /** After a submit the form is not loading and shows exactly one of the two messages, with either client. */
  lemma SignUpSettles(s: SignUpState, ex: Exchange<CreatedUser>)
    requires SignUpValid(s.form)
    ensures !SubmitSignUp(s, ex).after.loading && !SubmitSignUpAsWritten(s, ex).after.loading
    ensures SubmitSignUp(s, ex).after.success.Some? != SubmitSignUp(s, ex).after.error.Some?
    ensures SubmitSignUpAsWritten(s, ex).after.success.Some? != SubmitSignUpAsWritten(s, ex).after.error.Some?
  {
  }

  /** As written: a 409 (the address is taken) shows the success message and clears the passwords. */
  lemma ConflictShowsSuccess(s: SignUpState, body: CreatedUser)
    requires SignUpValid(s.form)
    ensures SubmitSignUpAsWritten(s, Responded(Some(409), body)).after.success == Some(SuccessKey)
    ensures SubmitSignUpAsWritten(s, Responded(Some(409), body)).after.form.password == ""
  {
    UsersApi.ConflictResolves(CreateUserRequest(None, s.form.email, s.form.password), body);
  }

  /** With the 201-only client a conflict shows the error message and keeps what was typed. */
  lemma ConflictShowsError(s: SignUpState, body: CreatedUser)
    requires SignUpValid(s.form)
    ensures SubmitSignUp(s, Responded(Some(409), body)).after.error == Some(ErrorKey)
    ensures SubmitSignUp(s, Responded(Some(409), body)).after.form == s.form
  {
  }
}

=== FILE: auth_redirect.dfy ===
/**
 * Where the auth page sends the user afterwards (`src/app/auth/page.tsx`): the
 * `next` query parameter when it is a path, and the market otherwise.
 */
module AuthRedirect {
  import opened Wrappers
  import opened Text

  /** The `next` search parameter: absent, given once, or given several times. */
  datatype NextParam = Absent | Single(value: string) | Repeated(values: seq<string>)

  const Fallback: string := "/market"

  /** `Array.isArray(rawNext) ? rawNext[0] : rawNext`; the first of no values is undefined. */
  function NextValue(q: NextParam): (v: Option<string>)
    ensures q.Absent? ==> v.None?
    ensures q.Single? ==> v == Some(q.value)
    ensures q.Repeated? ==> (v.Some? <==> q.values != []) && (v.Some? ==> v.value == q.values[0])
  {
    match q
    case Absent => None
    case Single(s) => Some(s)
    case Repeated(vs) => if vs == [] then None else Some(vs[0])
  }

  /**
   * `redirectPath`: the chosen value when it starts with "/", otherwise the
   * market. Nothing else is checked, so "//host" is kept as it is.
   */
  function RedirectPath(q: NextParam): (r: string)
    ensures StartsWith(r, "/")
    ensures r == Fallback || NextValue(q) == Some(r)
    ensures NextValue(q).Some? && StartsWith(NextValue(q).value, "/") ==> r == NextValue(q).value
    ensures (NextValue(q).None? || !StartsWith(NextValue(q).value, "/")) ==> r == Fallback
  {
    var v := NextValue(q);
    if v.Some? && StartsWith(v.value, "/") then v.value else Fallback
  }

  /** Feeding the chosen path back in as `next` chooses it again. */
  lemma RedirectPathStable(q: NextParam)
    ensures RedirectPath(Single(RedirectPath(q))) == RedirectPath(q)
  {
  }

  /** Only the first of several values matters. */
  lemma RepeatedUsesFirst(v: string, rest: seq<string>)
    ensures RedirectPath(Repeated([v] + rest)) == RedirectPath(Single(v))
  {
  }

  /** A protocol-relative value such as "//host/path" passes the check unchanged. */
  lemma ProtocolRelativeKept(host: string)
    ensures RedirectPath(Single("//" + host)) == "//" + host
  {
    assert ("//" + host)[..1] == "/";
  }
}

=== FILE: chat_thread.dfy ===
/**
 * The chat thread's input (`src/components/chat/chat-thread.tsx`): sending the
 * draft, the keyboard shortcut, when the send button is disabled, and the
 * letter shown in a sender's avatar when there is no picture.
 */
module ChatThread {
  import opened Wrappers
  import opened Text

  /** What `sendDraft` did: the message handed to `onSendMessage`, if any, and the draft afterwards. */
  datatype SendResult = SendResult(sent: Option<string>, draft: string)

  /**
   * `sendDraft`: a blank draft, or one typed while a send is in progress,
   * stays where it is; otherwise the trimmed text goes to the handler (when
   * the thread was given one) and the draft is emptied.
   */
  function SendDraft(draft: string, isSending: bool, hasHandler: bool): (r: SendResult)
    ensures IsBlank(draft) || isSending ==> r == SendResult(None, draft)
    ensures !IsBlank(draft) && !isSending ==> r.draft == "" && (r.sent.Some? <==> hasHandler)
    ensures r.sent.Some? ==> r.sent.value == Trim(draft) && r.sent.value != "" && Trim(r.sent.value) == r.sent.value
  {
    var trimmed := Trim(draft);
    TrimIdempotent(draft);
    if trimmed == "" || isSending then SendResult(None, draft)
    else SendResult(if hasHandler then Some(trimmed) else None, "")
  }

  /** A second send straight after a successful one sends nothing: the draft is gone. */
  lemma NoDoubleSend(draft: string, isSending: bool, hasHandler: bool)
    requires SendDraft(draft, isSending, hasHandler).sent.Some?
    ensures SendDraft(SendDraft(draft, isSending, hasHandler).draft, isSending, hasHandler) == SendResult(None, "")
  {
  }

  /** The send button's `disabled`: while sending, or when the trimmed draft is empty. */
  function SendDisabled(isSending: bool, draft: string): (disabled: bool)
    ensures disabled <==> isSending || IsBlank(draft)
  {
    isSending || |Trim(draft)| == 0
  }

  /** The button is enabled exactly when pressing it would clear the draft (and send it, given a handler). */
  lemma SendEnabledIffSends(isSending: bool, draft: string)
    ensures !SendDisabled(isSending, draft) <==> SendDraft(draft, isSending, true).sent.Some?
    ensures !SendDisabled(isSending, draft) <==> SendDraft(draft, isSending, false).draft == "" && draft != ""
  {
  }

  /** A key press in the text area: the key's name and the two modifier flags. */
  datatype KeyPress = KeyPress(key: string, ctrl: bool, meta: bool)

  /** `handleKeyDown` sends (and suppresses the newline) only for Enter with Ctrl or Meta. */
  function KeySends(k: KeyPress): (sends: bool)
    ensures sends ==> k.key == "Enter"
    ensures k.key == "Enter" ==> (sends <==> k.ctrl || k.meta)
  {
    k.key == "Enter" && (k.ctrl || k.meta)
  }

  /** The draft after a key press that reached the handler; plain Enter leaves it to the text area. */
  function OnKeyDown(draft: string, isSending: bool, hasHandler: bool, k: KeyPress): (r: SendResult)
    ensures !KeySends(k) ==> r == SendResult(None, draft)
    ensures KeySends(k) ==> r == SendDraft(draft, isSending, hasHandler)
  {
    if KeySends(k) then SendDraft(draft, isSending, hasHandler) else SendResult(None, draft)
  }

  /**
   * The avatar fallback: `(sender ?? "?").slice(0, 1).toUpperCase() || "?"`,
   * one character, "?" for a missing or empty sender.
   */
  function AvatarFallback(sender: Option<string>): (r: string)
    ensures |r| == 1
    ensures sender.None? || sender.value == "" ==> r == "?"
    ensures sender.Some? && sender.value != "" ==> r[0] == AsciiUpper(sender.value[0])
  {
    var name := sender.GetOr("?");
    var first := Upper(name[..if |name| < 1 then |name| else 1]);
    if first == "" then "?" else first
  }

  /** Senders differing only in the case of their first ASCII letter share a fallback. */
  lemma AvatarFallbackIgnoresCase(a: string, b: string)
    requires a != [] && b != [] && AsciiUpper(a[0]) == AsciiUpper(b[0])
    ensures AvatarFallback(Some(a)) == AvatarFallback(Some(b))
  {
  }
}

=== FILE: create_listing.dfy ===
/**
 * The create-listing form state (`use-create-listing.ts`): the field values,
 * the upload slots, the per-field validation errors and the submitting flag;
 * the field rules, `validate`, `updateField`, `removeImage`, `reset`, the
 * upload handler and `submit` with the payload it builds.
 */
module CreateListing {
  import opened Wrappers
  import opened Text
  import opened NumberParse
  import opened UploadSlots
  import opened Session
  import opened Http
  import opened ListingService
  import ListingsApi

  const MinPrice: int := 100

  /** The five text fields of the form, as typed. */
  datatype FormData = FormData(title: string, description: string, price: string, condition: string, quantity: string)

  datatype Field = Title | Description | Price | Condition | Quantity

  /** The fields that can carry an error; the description has none. */
  datatype ErrorKey = TitleError | PriceError | QuantityError | ImagesError | ConditionError

  /** The message each rule reports (the translation key it looks up). */
  datatype ErrorKind = TitleRequired | TitleMinLength | PriceRequired | PriceMin | QuantityMin | ConditionRequired | ImagesRequired

  type Errors = map<ErrorKey, ErrorKind>

  datatype State = State(form: FormData, slots: seq<Slot>, errors: Errors, submitting: bool)

  /** The values the form starts from (and `reset` returns to): quantity "1", everything else empty. */
  const InitialForm: FormData := FormData("", "", "", "", "1")
  const Initial: State := State(InitialForm, [], map[], false)

  function Get(form: FormData, f: Field): string {
    match f
    case Title => form.title
    case Description => form.description
    case Price => form.price
    case Condition => form.condition
    case Quantity => form.quantity
  }

  /** The error entry a field's edits clear, if it has one. */
  function ErrorKeyOf(f: Field): Option<ErrorKey> {
    match f
    case Title => Some(TitleError)
    case Description => None
    case Price => Some(PriceError)
    case Condition => Some(ConditionError)
    case Quantity => Some(QuantityError)
  }

  /**
   * `updateField(field, value)`: sets that one field, and drops that field's
   * error entry (if any); nothing else changes.
   */
  function UpdateField(s: State, f: Field, value: string): (r: State)
    ensures Get(r.form, f) == value
    ensures forall g :: g != f ==> Get(r.form, g) == Get(s.form, g)
    ensures forall k :: k in r.errors <==> k in s.errors && ErrorKeyOf(f) != Some(k)
    ensures forall k :: k in r.errors ==> r.errors[k] == s.errors[k]
    ensures r.slots == s.slots && r.submitting == s.submitting
  {
    var form := match f
      case Title => s.form.(title := value)
      case Description => s.form.(description := value)
      case Price => s.form.(price := value)
      case Condition => s.form.(condition := value)
      case Quantity => s.form.(quantity := value);
    var errors := if ErrorKeyOf(f).Some? && ErrorKeyOf(f).value in s.errors then s.errors - {ErrorKeyOf(f).value} else s.errors;
    s.(form := form, errors := errors)
  }

  // ----- the field rules -----

  /** Title: required after trimming, and at least 3 UTF-16 code units once trimmed. */
  function TitleRule(title: string): (e: Option<ErrorKind>)
    ensures e == Some(TitleRequired) <==> IsBlank(title)
    ensures e == Some(TitleMinLength) <==> !IsBlank(title) && CodeUnits(Trim(title)) < 3
    ensures e.None? <==> CodeUnits(Trim(title)) >= 3
  {
    var t := Trim(title);
    if t == [] then Some(TitleRequired) else if CodeUnits(t) < 3 then Some(TitleMinLength) else None
  }

  /** `!(isNaN(p) || p < MIN_PRICE)`. */
  predicate PriceAtLeastMin(p: FloatParse) {
    match p
    case FloatNaN => false
    case Finite(v) => v >= MinPrice as real
    case Infinite(negative) => !negative
  }

  /** Price: required after trimming; then `parseFloat` must give a number of at least 100. */
  function PriceRule(price: string): (e: Option<ErrorKind>)
    ensures e == Some(PriceRequired) <==> IsBlank(price)
    ensures e == Some(PriceMin) <==> !IsBlank(price) && !PriceAtLeastMin(ParseFloat(price))
    ensures e.None? <==> !IsBlank(price) && PriceAtLeastMin(ParseFloat(price))
  {
    if Trim(price) == [] then Some(PriceRequired)
    else if !PriceAtLeastMin(ParseFloat(price)) then Some(PriceMin)
    else None
  }

  /** Quantity: optional; when it has non-blank text, `parseInt` must give at least 1. */
  function QuantityRule(quantity: string): (e: Option<ErrorKind>)
    ensures e.Some? ==> e.value == QuantityMin
    ensures e.None? <==> IsBlank(quantity) || (ParseInt(quantity).Int? && ParseInt(quantity).value >= 1)
  {
    if quantity != "" && Trim(quantity) != [] then
      match ParseInt(quantity)
      case IntNaN => Some(QuantityMin)
      case Int(v) => if v < 1 then Some(QuantityMin) else None
    else None
  }

  /** Condition: must be chosen. */
  function ConditionRule(condition: string): (e: Option<ErrorKind>)
    ensures e.Some? <==> condition == ""
    ensures e.Some? ==> e.value == ConditionRequired
  {
    if condition == "" then Some(ConditionRequired) else None
  }

  /** A slot that counts as an image: finished and with a URL. */
  predicate Usable(slot: Slot) {
    !slot.loading && slot.url.Some?
  }

  /** `validImages.map(slot => slot.imageUrl)`: the URLs of the usable slots, in slot order. */
  function UsableUrls(slots: seq<Slot>): (urls: seq<string>)
    ensures |urls| <= |slots|
  {
    if slots == [] then [] else UrlOf(slots[0]) + UsableUrls(slots[1..])
  }

  /** The URL one slot contributes, if it is usable. */
  function UrlOf(slot: Slot): seq<string> {
    if Usable(slot) then [slot.url.value] else []
  }

  lemma UsableUrlsCons(x: Slot, xs: seq<Slot>)
    ensures UsableUrls([x] + xs) == UrlOf(x) + UsableUrls(xs)
  {
    assert ([x] + xs)[1..] == xs;
  }

  /** No URL is sent exactly when no slot is usable. */
  lemma {:induction false} UsableUrlsEmpty(slots: seq<Slot>)
    ensures UsableUrls(slots) == [] <==> forall k :: 0 <= k < |slots| ==> !Usable(slots[k])
    decreases |slots|
  {
    if slots != [] {
      UsableUrlsEmpty(slots[1..]);
      if forall k :: 0 <= k < |slots[1..]| ==> !Usable(slots[1..][k]) {
        forall k | 1 <= k < |slots| ensures !Usable(slots[k]) {
          assert slots[k] == slots[1..][k - 1];
        }
      }
    }
  }

  /** Every URL sent comes from a usable slot. */
  lemma {:induction false} UsableUrlsFromUsable(slots: seq<Slot>)
    ensures forall u :: u in UsableUrls(slots) ==> exists k :: 0 <= k < |slots| && Usable(slots[k]) && slots[k].url.value == u
    decreases |slots|
  {
    if slots != [] {
      var rest := UsableUrls(slots[1..]);
      UsableUrlsFromUsable(slots[1..]);
      forall u | u in rest ensures exists k :: 0 <= k < |slots| && Usable(slots[k]) && slots[k].url.value == u {
        var j :| 0 <= j < |slots[1..]| && Usable(slots[1..][j]) && slots[1..][j].url.value == u;
        assert slots[j + 1] == slots[1..][j];
      }
    }
  }

  /** The usable URLs are taken slot by slot, so their order is the slots' order. */
  lemma {:induction false} UsableUrlsConcat(a: seq<Slot>, b: seq<Slot>)
    ensures UsableUrls(a + b) == UsableUrls(a) + UsableUrls(b)
    decreases |a|
  {
    if a == [] {
      assert a + b == b;
    } else {
      assert a + b == [a[0]] + (a[1..] + b);
      UsableUrlsCons(a[0], a[1..] + b);
      UsableUrlsConcat(a[1..], b);
    }
  }

  /** Images: at least one usable slot. */
  function ImagesRule(slots: seq<Slot>): (e: Option<ErrorKind>)
    ensures e.Some? <==> forall k :: 0 <= k < |slots| ==> !Usable(slots[k])
    ensures e.Some? ==> e.value == ImagesRequired
  {
    UsableUrlsEmpty(slots);
    if UsableUrls(slots) == [] then Some(ImagesRequired) else None
  }

  /** What each rule reported for one form. */
  datatype Verdicts = Verdicts(
    title: Option<ErrorKind>, price: Option<ErrorKind>, quantity: Option<ErrorKind>,
    condition: Option<ErrorKind>, images: Option<ErrorKind>)

  /** Runs the five rules. */
  function Check(form: FormData, slots: seq<Slot>): Verdicts {
    Verdicts(TitleRule(form.title), PriceRule(form.price), QuantityRule(form.quantity),
             ConditionRule(form.condition), ImagesRule(slots))
  }

  /** Files a reported message under its key when there is one. */
  function File(m: Errors, key: ErrorKey, e: Option<ErrorKind>): Errors {
    if e.Some? then m[key := e.value] else m
  }

  /** The error object `validate` builds: one entry per failing rule, holding that rule's message, and nothing else. */
  function ErrorsOf(v: Verdicts): (m: Errors)
    ensures TitleError in m <==> v.title.Some?
    ensures PriceError in m <==> v.price.Some?
    ensures QuantityError in m <==> v.quantity.Some?
    ensures ConditionError in m <==> v.condition.Some?
    ensures ImagesError in m <==> v.images.Some?
    ensures TitleError in m ==> m[TitleError] == v.title.value
    ensures PriceError in m ==> m[PriceError] == v.price.value
    ensures QuantityError in m ==> m[QuantityError] == v.quantity.value
    ensures ConditionError in m ==> m[ConditionError] == v.condition.value
    ensures ImagesError in m ==> m[ImagesError] == v.images.value
    ensures m == map[] <==> v == Verdicts(None, None, None, None, None)
  {
    var m := File(File(File(File(File(map[], TitleError, v.title), PriceError, v.price), QuantityError, v.quantity),
                       ConditionError, v.condition), ImagesError, v.images);
    NoErrors(m);
    m
  }

  /** An error object is empty exactly when none of the five keys is filed. */
  lemma NoErrors(m: Errors)
    ensures m == map[] <==> TitleError !in m && PriceError !in m && QuantityError !in m && ConditionError !in m && ImagesError !in m
  {
    if m != map[] {
      var k :| k in m;
      assert k == TitleError || k == PriceError || k == QuantityError || k == ConditionError || k == ImagesError;
    }
  }

  /** `validate()`: stores the new errors (replacing the old ones) and reports whether there are none. */
  function Validate(s: State): (r: (bool, State))
    ensures r.1 == s.(errors := ErrorsOf(Check(s.form, s.slots)))
    ensures r.0 <==> r.1.errors == map[]
  {
    var errors := ErrorsOf(Check(s.form, s.slots));
    (errors == map[], s.(errors := errors))
  }

  /** `reset()`: back to the initial values, no slots, no errors, not submitting. */
  function Reset(s: State): (r: State)
    ensures r.form == FormData("", "", "", "", "1") && r.slots == [] && r.errors == map[] && !r.submitting
  {
    Initial
  }

  /** The form passes exactly when every rule holds, stated field by field. */
  lemma ValidateAccepts(s: State)
    ensures Validate(s).0 <==>
              && CodeUnits(Trim(s.form.title)) >= 3
              && !IsBlank(s.form.price) && PriceAtLeastMin(ParseFloat(s.form.price))
              && (IsBlank(s.form.quantity) || (ParseInt(s.form.quantity).Int? && ParseInt(s.form.quantity).value >= 1))
              && s.form.condition != ""
              && exists k :: 0 <= k < |s.slots| && Usable(s.slots[k])
  {
  }

  /** A reset form fails validation on title, price, condition and images, and not on quantity. */
  lemma ResetThenValidate(s: State)
    ensures var e := Validate(Reset(s)).1.errors;
            e == map[TitleError := TitleRequired, PriceError := PriceRequired,
                     ConditionError := ConditionRequired, ImagesError := ImagesRequired]
  {
    var e := ErrorsOf(Check(InitialForm, []));
    assert Check(InitialForm, []) == Verdicts(Some(TitleRequired), Some(PriceRequired), None, Some(ConditionRequired), Some(ImagesRequired)) by {
      assert IsBlank("");
      assert ParseInt("1") == Int(1) by {
        ParseIntOfDecimal(1);
        assert DecimalString(1) == "1";
      }
    }
    var expected := map[TitleError := TitleRequired, PriceError := PriceRequired,
                        ConditionError := ConditionRequired, ImagesError := ImagesRequired];
    NoErrors(e - expected.Keys);
    assert e.Keys == expected.Keys;
  }

  /** `removeImage(id)`: filters the slots by id and clears the images error; nothing else changes. */
  function RemoveSlot(s: State, id: string): (r: State)
    ensures forall slot :: slot in r.slots <==> slot in s.slots && slot.id != id
    ensures forall k :: k in r.errors <==> k in s.errors && k != ImagesError
    ensures forall k :: k in r.errors ==> r.errors[k] == s.errors[k]
    ensures r.form == s.form && r.submitting == s.submitting
  {
    var errors := if ImagesError in s.errors then s.errors - {ImagesError} else s.errors;
    s.(slots := RemoveImage(s.slots, id), errors := errors)
  }

  /**
   * `handleImageUpload(files)` with no other edit while it runs: nothing when
   * no file list is given; otherwise the batch's placeholders are appended and
   * processed in order until an upload throws (the hook catches and logs it).
   */
  method HandleImageUpload(s: State, batch: Option<seq<string>>, results: seq<UploadResult>) returns (r: State, processed: nat)
    requires batch.Some? ==> |results| == |batch.value|
    ensures batch.None? ==> r == s && processed == 0
    ensures r.form == s.form && r.errors == s.errors && r.submitting == s.submitting
    ensures batch.Some? ==>
              && processed <= |batch.value|
              && (processed < |batch.value| ==> results[processed].Threw?)
              && r.slots == s.slots + Completed(batch.value[..processed], results[..processed]) + Placeholders(batch.value[processed..])
  {
    match batch {
      case None =>
        r, processed := s, 0;
      case Some(ids) =>
        var slots;
        slots, processed := RunUploads(s.slots, ids, results);
        r := s.(slots := slots);
    }
  }

  // ----- submit -----

  /** `listingData`: the payload `submit` sends once validation has passed. */
  function Payload(form: FormData, slots: seq<Slot>, isActive: bool): (p: CreateListingRequest)
    ensures p.title == Trim(form.title)
    ensures p.description.None? <==> IsBlank(form.description)
    ensures p.description.Some? ==> p.description.value == Trim(form.description)
    ensures p.imageUrls == UsableUrls(slots)
    ensures p.price == ParseFloat(form.price)
    ensures p.quantity.None? <==> form.quantity == ""
    ensures p.quantity.Some? ==> p.quantity.value == ParseInt(form.quantity)
    ensures p.itemCondition.None? <==> form.condition == ""
    ensures p.itemCondition.Some? ==> p.itemCondition.value == form.condition
    ensures p.isActive == isActive
  {
    var description := Trim(form.description);
    CreateListingRequest(
      Trim(form.title),
      if description == [] then None else Some(description),
      UsableUrls(slots),
      ParseFloat(form.price),
      if form.quantity != "" then Some(ParseInt(form.quantity)) else None,
      if form.condition == "" then None else Some(form.condition),
      isActive)
  }

  /** A quantity of only white space passes validation, yet the payload carries `parseInt` of it: NaN. */
  lemma BlankQuantitySendsNaN(form: FormData, slots: seq<Slot>, isActive: bool)
    requires IsBlank(form.quantity) && form.quantity != ""
    ensures QuantityRule(form.quantity).None?
    ensures Payload(form, slots, isActive).quantity == Some(IntNaN)
  {
    ParseIntOfBlank(form.quantity);
  }

  datatype Toast = ToastSuccess | ToastError

  /** What one `submit` call did. */
  datatype Submission = Submission(
    state: State,                          // the hook state afterwards
    sent: Option<CreateListingRequest>,    // the payload handed to `createListing`, if it was called
    toast: Option<Toast>,                  // the notification shown
    navigateTo: Option<string>)            // where the router was sent

  /**
   * `submit(isActive)`: validation first (a failing form sends nothing and
   * only shows its errors); then the payload goes to `createListing` with the
   * current user, and on success the form resets and the router opens the new
   * listing's page. The submitting flag ends false once a request was made.
   */
  function Submit(s: State, isActive: bool, user: Option<User>, clientResult: Result<ListingsApi.Listing, Failure>): (r: Submission)
    ensures r.sent.Some? <==> Validate(s).0
    ensures r.sent.None? ==> r.state == Validate(s).1 && r.toast.None? && r.navigateTo.None?
    ensures r.sent.Some? ==> r.sent.value == Payload(s.form, s.slots, isActive) && !r.state.submitting
    ensures r.navigateTo.Some? <==> r.sent.Some? && user.Some? && clientResult.Success?
    ensures r.navigateTo.Some? ==>
              r.navigateTo.value == "/market/listings/" + clientResult.value.id && r.state == Initial && r.toast == Some(ToastSuccess)
    ensures r.sent.Some? && r.navigateTo.None? ==>
              r.toast == Some(ToastError) && r.state == s.(errors := map[], submitting := false)
  {
    var (ok, validated) := Validate(s);
    if !ok then Submission(validated, None, None, None)
    else
      var payload := Payload(s.form, s.slots, isActive);
      var g := CreateListing(user, payload, clientResult);
      match g.result
      case Success(listing) => Submission(Reset(validated), Some(payload), Some(ToastSuccess), Some("/market/listings/" + listing.id))
      case Failure(_) => Submission(validated.(submitting := false), Some(payload), Some(ToastError), None)
  }

  /** Only the finished slots' URLs are sent, in slot order; placeholders still uploading are left out. */
  lemma SubmitSendsFinishedImages(s: State, isActive: bool, user: Option<User>, clientResult: Result<ListingsApi.Listing, Failure>, extra: seq<string>)
    requires Validate(s).0
    ensures var t := s.(slots := s.slots + Placeholders(extra));
            Validate(t).0 && Submit(t, isActive, user, clientResult).sent.value.imageUrls == UsableUrls(s.slots)
  {
    var t := s.(slots := s.slots + Placeholders(extra));
    UsableUrlsConcat(s.slots, Placeholders(extra));
    PlaceholdersSendNothing(extra);
    assert Check(t.form, t.slots) == Check(s.form, s.slots);
  }

  /** Slots still uploading contribute no URL. */
  lemma PlaceholdersSendNothing(ids: seq<string>)
    ensures UsableUrls(Placeholders(ids)) == []
  {
    var ps := Placeholders(ids);
    assert forall k :: 0 <= k < |ps| ==> !Usable(ps[k]);
    UsableUrlsEmpty(ps);
  }
}

=== FILE: feed.dfy ===
/**
 * The listings feed projection (`src/lib/services/feed.ts`): each listing
 * becomes a card with its id, title, price and main image, and a listing with
 * no usable main image is dropped.
 */
module Feed {
  import opened Wrappers
  import opened Text
  import opened Http
  import opened ListingsApi

  datatype FeedItem = FeedItem(id: string, title: string, price: int, mainImage: string)

  /** `typeof first === 'string' ? first : first.url` (the object form may lack its url). */
  function ImageUrl(image: ListingImage): Option<string> {
    match image
    case PlainUrl(url) => Some(url)
    case ImageObject(url, _) => url
  }

  /** The URL of the first image, if there is a first image and it has one. */
  function FirstUrl(images: Option<seq<ListingImage>>): Option<string> {
    if images.Some? && images.value != [] then ImageUrl(images.value[0]) else None
  }

  /**
   * The main image: the trimmed URL of the first image, when that is not blank.
   * Later images are never consulted.
   */
  function PickMainImage(images: Option<seq<ListingImage>>): (r: Option<string>)
    ensures r.Some? <==> FirstUrl(images).Some? && !IsBlank(FirstUrl(images).value)
    ensures r.Some? ==> r.value == Trim(FirstUrl(images).value)
  {
    match FirstUrl(images)
    case None => None
    case Some(url) =>
      var trimmed := Trim(url);
      if trimmed != [] then Some(trimmed) else None
  }

  /** A blank first image hides the listing even when later images are usable. */
  lemma BlankFirstImageNotRescued(first: ListingImage, rest: seq<ListingImage>)
    requires ImageUrl(first).None? || IsBlank(ImageUrl(first).value)
    ensures PickMainImage(Some([first] + rest)) == None
  {
  }

  /** The card for one listing, if it has a main image. */
  function Card(l: Listing): Option<FeedItem> {
    match PickMainImage(l.images)
    case None => None
    case Some(main) => Some(FeedItem(l.id, l.title, l.price, main))
  }

  /** `listings.map(...).filter(item => item !== null)`. */
  function ProjectFeed(listings: seq<Listing>): (r: seq<FeedItem>)
    ensures |r| <= |listings|
    ensures forall l :: l in listings && PickMainImage(l.images).Some? ==>
              FeedItem(l.id, l.title, l.price, PickMainImage(l.images).value) in r
    ensures forall item :: item in r ==>
              exists l :: l in listings && Card(l) == Some(item)
  {
    if listings == [] then []
    else
      var rest := ProjectFeed(listings[1..]);
      match Card(listings[0])
      case None => rest
      case Some(item) => [item] + rest
  }

  /** The projection works listing by listing: it distributes over concatenation, so order is kept. */
  lemma {:induction false} ProjectFeedConcat(a: seq<Listing>, b: seq<Listing>)
    ensures ProjectFeed(a + b) == ProjectFeed(a) + ProjectFeed(b)
    decreases |a|
  {
    if a == [] {
      assert a + b == b;
    } else {
      assert (a + b)[0] == a[0];
      assert (a + b)[1..] == a[1..] + b;
      ProjectFeedConcat(a[1..], b);
    }
  }

  /** A single listing appears exactly when it has a main image, with its own id, title and price. */
  lemma ProjectFeedSingle(l: Listing)
    ensures PickMainImage(l.images).None? ==> ProjectFeed([l]) == []
    ensures PickMainImage(l.images).Some? ==>
              ProjectFeed([l]) == [FeedItem(l.id, l.title, l.price, PickMainImage(l.images).value)]
  {
    assert [l][1..] == [];
  }

  /**
   * `fetchListingsFeed`: the feed request with defaults filled in, then the
   * projection. A body that is not an array makes `.map` throw, so the call rejects.
   */
  function FetchListingsFeed(params: Option<FeedParams>, ex: Exchange<ListBody<Listing>>): (r: (Request<Page>, Result<seq<FeedItem>, Failure>))
    ensures r.0 == Request(Get, "/listings/feed", None, FeedPage(params))
    ensures r.1.Success? <==> ex.Responded? && ex.status == Some(200) && ex.body.Array?
    ensures r.1.Success? ==> r.1.value == ProjectFeed(ex.body.items)
  {
    var c := GetListingsFeed(params, ex);
    match c.result
    case Failure(e) => (c.request, Failure(e))
    case Success(body) =>
      match body
      case NotArray => (c.request, Failure(MalformedBody))
      case Array(listings) => (c.request, Success(ProjectFeed(listings)))
  }
}

=== FILE: http.dfy ===
/**
 * The shared HTTP client (`src/lib/api/client.ts`) reduced to what callers can
 * observe: every call names the statuses it accepts; an accepted response
 * resolves with its body and anything else rejects. Base URL, timeout and the
 * server-error logging interceptor are not modelled.
 */
module Http {
  import opened Wrappers

  datatype Method = Get | Post

  /**
   * A request as the resource clients build it: method, path, the
   * Authorization header if one is sent, and the query or JSON payload.
   */
  datatype Request<P> = Request(verb: Method, path: string, authorization: Option<string>, payload: P)

  /**
   * What the network gave back for one request: a response (whose status may
   * be absent) or nothing at all (timeout, connection failure).
   */
  datatype Exchange<B> = Responded(status: Option<int>, body: B) | NoResponse

  /** Why an operation rejected. */
  datatype Failure =
    | NotAuthenticated          // a service found no signed-in user
    | Rejected(status: Option<int>)  // the status was outside the accepted set
    | NetworkError              // no response arrived
    | MalformedBody             // the body could not be used (e.g. `.map` on a non-array)

  /** A `validateStatus` predicate. */
  datatype StatusPolicy =
    | OneOf(codes: set<int>)
    | CreatedOrAtLeast400       // `status === 201 || (status ?? 0) >= 400`

  predicate Accepts(policy: StatusPolicy, status: Option<int>) {
    match policy
    case OneOf(codes) => status.Some? && status.value in codes
    case CreatedOrAtLeast400 => status == Some(201) || status.GetOr(0) >= 400
  }

  /** One resource-client call: the request it sent and what it resolved or rejected with. */
  datatype Call<P, T> = Call(request: Request<P>, result: Result<T, Failure>)

  /** A response the client let through: its status and body. */
  datatype Response<B> = Response(status: int, body: B)

  /** Sending a request: an accepted response resolves, everything else rejects. */
  function Send<B>(policy: StatusPolicy, ex: Exchange<B>): (r: Result<Response<B>, Failure>)
    ensures r.Success? <==> ex.Responded? && Accepts(policy, ex.status)
    ensures r.Success? ==> Some(r.value.status) == ex.status && r.value.body == ex.body
    ensures ex.NoResponse? ==> r == Failure(NetworkError)
    ensures ex.Responded? && !Accepts(policy, ex.status) ==> r == Failure(Rejected(ex.status))
  {
    match ex
    case NoResponse => Failure(NetworkError)
    case Responded(status, body) =>
      if Accepts(policy, status) then Success(Response(status.value, body))
      else Failure(Rejected(status))
  }

  /** The Authorization header value for an identity token. */
  function Bearer(idToken: string): (h: string)
    ensures |h| == 7 + |idToken| && h[..7] == "Bearer " && h[7..] == idToken
  {
    "Bearer " + idToken
  }

  /** Distinct tokens give distinct headers, so the header identifies the token. */
  lemma BearerInjective(a: string, b: string)
    requires Bearer(a) == Bearer(b)
    ensures a == b
  {
  }

  /** A JSON body that should be an array: either it is one, or it is something else (null, an object). */
  datatype ListBody<T> = Array(items: seq<T>) | NotArray

  /** `Array.isArray(data) ? data : []`. */
  function ItemsOrEmpty<T>(body: ListBody<T>): (r: seq<T>)
    ensures body.Array? ==> r == body.items
    ensures body.NotArray? ==> r == []
  {
    match body
    case Array(items) => items
    case NotArray => []
  }
}

=== FILE: listing_form.dfy ===
/**
 * The create-listing form component (`create-listing-form.tsx`), which keeps
 * its own copy of the upload slots and the same upload loop as the hook. It
 * differs in two ways: an upload that throws is not caught (the handler
 * rejects), and the file input is cleared afterwards whenever a file list was
 * given. Its `removeImage` touches only the slots.
 */
module ListingForm {
  import opened Wrappers
  import opened UploadSlots

  /** What the change handler left behind. */
  datatype UploadRun = UploadRun(
    slots: seq<Slot>,       // the component's slots afterwards
    processed: nat,         // files whose upload returned
    inputCleared: bool,     // whether `inputElement.value = ''` ran
    rejected: bool)         // whether the handler ended with an exception

  /**
   * The input's change handler: with no file list it returns at once (the
   * input is not cleared); otherwise placeholders are appended and the files
   * uploaded in order, and the `finally` clears the input whether or not an
   * upload threw.
   */
  method HandleImageUpload(prev: seq<Slot>, files: Option<seq<string>>, results: seq<UploadResult>) returns (r: UploadRun)
    requires files.Some? ==> |results| == |files.value|
    ensures files.None? ==> r == UploadRun(prev, 0, false, false)
    ensures files.Some? ==> r.inputCleared
    ensures files.Some? ==>
              && r.processed <= |files.value|
              && (r.rejected <==> r.processed < |files.value|)
              && (r.rejected ==> results[r.processed].Threw?)
              && (forall j :: 0 <= j < r.processed ==> results[j].Returned?)
              && r.slots == prev + Completed(files.value[..r.processed], results[..r.processed]) + Placeholders(files.value[r.processed..])
  {
    match files {
      case None =>
        r := UploadRun(prev, 0, false, false);
      case Some(ids) =>
        var slots, processed := RunUploads(prev, ids, results);
        r := UploadRun(slots, processed, true, processed < |ids|);
    }
  }

  /** `removeImage(id)` of the component: the same filter by id as the hook, with no error state to clear. */
  function RemoveImageFromForm(slots: seq<Slot>, id: string): (r: seq<Slot>)
    ensures forall s :: s in r <==> s in slots && s.id != id
    ensures |r| <= |slots|
  {
    RemoveImage(slots, id)
  }

  /** A batch in which every upload returns leaves no spinner behind and clears the input. */
  lemma CompleteBatchSettles(prev: seq<Slot>, files: seq<string>, results: seq<UploadResult>, r: UploadRun)
    requires |results| == |files|
    requires forall j :: 0 <= j < |results| ==> results[j].Returned?
    requires r.processed == |files| && r.inputCleared
    requires r.slots == prev + Completed(files[..r.processed], results[..r.processed]) + Placeholders(files[r.processed..])
    ensures r.slots[..|prev|] == prev
    ensures forall k :: |prev| <= k < |r.slots| ==> !r.slots[k].loading && RemoveControlShown(r.slots[k])
  {
    AllReturned(prev, files, results, r.slots, r.processed);
    forall k | |prev| <= k < |r.slots| ensures !r.slots[k].loading && RemoveControlShown(r.slots[k]) {
      assert r.slots[k] in r.slots[|prev|..] by {
        assert r.slots[k] == r.slots[|prev|..][k - |prev|];
      }
    }
  }
}

=== FILE: locale.dfy ===
/**
 * Locale selection for a request (`i18n/request.ts`): a supported `locale`
 * cookie wins; otherwise the first language tag of the Accept-Language
 * header, cut at its first '-', if it is supported; otherwise Japanese. The
 * header is read far more simply than section 5.3.5 of RFC 7231 describes:
 * no q-values, no trimming and no case folding.
 */
module Locale {
  import opened Wrappers
  import opened Text

  const Supported: seq<string> := ["en", "ja"]
  const Default: string := "ja"

  /** A string value is truthy when it is present and not empty. */
  predicate Truthy(v: Option<string>) {
    v.Some? && v.value != ""
  }

  /** `acceptLanguage.split(',')[0].split('-')[0]`. */
  function HeaderCandidate(header: string): (r: string)
    ensures |r| <= |header| && r == header[..|r|]
  {
    var entry := Split(header, ',')[0];
    SplitFirst(header, ',');
    var tag := Split(entry, '-')[0];
    SplitFirst(entry, '-');
    tag
  }

  /**
   * The candidate is the longest prefix of the header holding neither ',' nor
   * '-': what follows it is nothing, or one of those two characters.
   */
  lemma HeaderCandidateIsPrefixBeforeDelimiter(header: string)
    ensures var r := HeaderCandidate(header);
            && ',' !in r && '-' !in r
            && (|r| == |header| || header[|r|] == ',' || header[|r|] == '-')
  {
    var entry := Split(header, ',')[0];
    SplitFirst(header, ',');
    SplitFirst(entry, '-');
    var r := HeaderCandidate(header);
    assert ',' !in entry;
    assert r == entry[..|r|];
    assert |entry| == |header| || header[|entry|] == ',';
    if |r| < |entry| {
      assert entry[|r|] == '-';
      assert header[|r|] == entry[|r|];
    }
  }

  /** `getLocale`, with the cookie and the header as parameters. */
  function GetLocale(cookie: Option<string>, header: Option<string>): (r: string)
    ensures r in Supported
    ensures Truthy(cookie) && cookie.value in Supported ==> r == cookie.value
    ensures !(Truthy(cookie) && cookie.value in Supported) ==>
              (if Truthy(header) && HeaderCandidate(header.value) in Supported
               then r == HeaderCandidate(header.value) else r == Default)
  {
    if Truthy(cookie) && cookie.value in Supported then cookie.value
    else if Truthy(header) && HeaderCandidate(header.value) in Supported then HeaderCandidate(header.value)
    else Default
  }

  /** A header whose candidate is not supported leaves the cookie's choice, or the default, in place. */
  lemma UnsupportedHeaderIgnored(cookie: Option<string>, header: string)
    requires HeaderCandidate(header) !in Supported
    ensures GetLocale(cookie, Some(header)) == GetLocale(cookie, None)
  {
  }

  /**
   * A header that starts with a supported language followed by a region
   * ("en-US,en;q=0.9") or by the next entry selects that language, unless a
   * supported cookie says otherwise.
   */
  lemma LeadingLanguageSelected(cookie: Option<string>, lang: string, delimiter: char, rest: string)
    requires lang in Supported && (delimiter == '-' || delimiter == ',')
    requires !(Truthy(cookie) && cookie.value in Supported)
    ensures GetLocale(cookie, Some(lang + [delimiter] + rest)) == lang
  {
    var h := lang + [delimiter] + rest;
    HeaderCandidateIsPrefixBeforeDelimiter(h);
    var r := HeaderCandidate(h);
    assert h[..2] == lang;
    assert h[2] == delimiter;
    assert h[0] != ',' && h[0] != '-' && h[1] != ',' && h[1] != '-';
    assert |r| == 2;
  }

  /** An upper-case tag is not recognised: only the exact "en" or "ja" is. */
  lemma NoCaseFolding(rest: string)
    ensures GetLocale(None, Some("EN" + rest)) == Default
  {
    var r := HeaderCandidate("EN" + rest);
    assert r != "en" && r != "ja" by {
      assert |r| >= 1 ==> r[0] == 'E';
    }
  }

  /** A tag led by a space is not recognised: the header is not trimmed. */
  lemma NoTrimming(rest: string)
    ensures GetLocale(None, Some(" en" + rest)) == Default
  {
    var r := HeaderCandidate(" en" + rest);
    assert r != "en" && r != "ja" by {
      assert |r| >= 1 ==> r[0] == ' ';
    }
  }
}

=== FILE: number_parse.dfy ===
/**
 * The two numeric parsers the listing form calls: `parseInt(s, 10)` and
 * `parseFloat(s)`. Both skip leading white space, accept an optional sign and
 * read the longest numeric prefix; text after it is ignored, and a string with
 * no digits where digits are needed parses to NaN.
 */
module NumberParse {
  import opened Text

  predicate IsDigit(c: char) {
    '0' <= c <= '9'
  }

  predicate AllDigits(s: string) {
    forall i :: 0 <= i < |s| ==> IsDigit(s[i])
  }

  function DigitValue(c: char): nat
    requires IsDigit(c)
  {
    c as int - '0' as int
  }

  function Digit(d: nat): (c: char)
    requires d < 10
    ensures IsDigit(c) && DigitValue(c) == d
  {
    ('0' as int + d) as char
  }

  /** The value of a run of decimal digits, most significant first. */
  function DigitsValue(ds: string): nat
    requires AllDigits(ds)
  {
    if ds == [] then 0 else DigitsValue(ds[..|ds| - 1]) * 10 + DigitValue(ds[|ds| - 1])
  }

  /** The longest prefix of `s` made of decimal digits. */
  function LeadingDigits(s: string): (r: string)
    ensures |r| <= |s| && r == s[..|r|]
    ensures AllDigits(r)
    ensures |r| < |s| ==> !IsDigit(s[|r|])
  {
    if s != [] && IsDigit(s[0]) then [s[0]] + LeadingDigits(s[1..]) else []
  }

  function Pow10(n: nat): (r: nat)
    ensures r >= 1
  {
    if n == 0 then 1 else 10 * Pow10(n - 1)
  }

  /** The canonical decimal rendering of a natural number (what `String(n)` prints). */
  function DecimalString(n: nat): (r: string)
    ensures r != [] && AllDigits(r)
  {
    if n < 10 then [Digit(n)] else DecimalString(n / 10) + [Digit(n % 10)]
  }

  /** Result of `parseInt(s, 10)`: NaN or an integer. */
  datatype IntParse = IntNaN | Int(value: int)

  /** Result of `parseFloat(s)`: NaN, a finite number or an infinity. */
  datatype FloatParse = FloatNaN | Finite(value: real) | Infinite(negative: bool)

  /** An optional leading sign: whether it is '-', and the text after it. */
  function StripSign(t: string): (bool, string) {
    if t != [] && (t[0] == '-' || t[0] == '+') then (t[0] == '-', t[1..]) else (false, t)
  }

  /** `parseInt(s, 10)`. */
  function ParseInt(s: string): (r: IntParse)
    ensures r.IntNaN? <==> LeadingDigits(StripSign(TrimStart(s)).1) == []
  {
    var (negative, body) := StripSign(TrimStart(s));
    var ds := LeadingDigits(body);
    if ds == [] then IntNaN
    else Int(if negative then 0 - DigitsValue(ds) as int else DigitsValue(ds))
  }

  /** The value of an exponent part `e[+-]digits`, or 0 when none is present. */
  function ExponentOf(s: string): int {
    if s != [] && (s[0] == 'e' || s[0] == 'E') then
      var (negative, body) := StripSign(s[1..]);
      var ds := LeadingDigits(body);
      if ds == [] then 0 else if negative then 0 - DigitsValue(ds) as int else DigitsValue(ds)
    else 0
  }

  function Scale(e: int): (r: real)
    ensures r > 0.0
  {
    if e >= 0 then Pow10(e) as real else 1.0 / Pow10(-e) as real
  }

  /** The value of an integer part, a fraction part and an exponent part, as an exact real. */
  function Magnitude(ip: string, fp: string, rest: string): real
    requires AllDigits(ip) && AllDigits(fp)
  {
    (DigitsValue(ip) as real + DigitsValue(fp) as real / Pow10(|fp|) as real) * Scale(ExponentOf(rest))
  }

  /** `parseFloat` after the white space and the sign: `Infinity`, or digits with an optional fraction and exponent. */
  function UnsignedFloat(body: string): (r: FloatParse)
    ensures r.FloatNaN? ==> LeadingDigits(body) == []
    ensures r.Infinite? ==> !r.negative
  {
    if StartsWith(body, "Infinity") then Infinite(false)
    else
      var ip := LeadingDigits(body);
      var after := body[|ip|..];
      var hasPoint := after != [] && after[0] == '.';
      var fp := if hasPoint then LeadingDigits(after[1..]) else [];
      if ip == [] && fp == [] then FloatNaN
      else
        var rest := if hasPoint then after[1 + |fp|..] else after;
        Finite(Magnitude(ip, fp, rest))
  }

  /**
   * `parseFloat(s)`. Values are exact reals: IEEE rounding and overflow are
   * not modelled.
   */
  function ParseFloat(s: string): (r: FloatParse)
    ensures r.FloatNaN? ==> LeadingDigits(StripSign(TrimStart(s)).1) == []
  {
    var (negative, body) := StripSign(TrimStart(s));
    match UnsignedFloat(body)
    case FloatNaN => FloatNaN
    case Infinite(_) => Infinite(negative)
    case Finite(m) => Finite(if negative then -m else m)
  }

  lemma {:induction false} DigitsValueOfDecimal(n: nat)
    ensures DigitsValue(DecimalString(n)) == n
  {
    if n >= 10 {
      DigitsValueOfDecimal(n / 10);
      var s := DecimalString(n);
      assert s[..|s| - 1] == DecimalString(n / 10);
    }
  }

  lemma {:induction false} LeadingDigitsOfDigits(s: string)
    requires AllDigits(s)
    ensures LeadingDigits(s) == s
    decreases |s|
  {
    if s != [] {
      LeadingDigitsOfDigits(s[1..]);
    }
  }

  lemma TrimStartOfDecimal(n: nat)
    ensures TrimStart(DecimalString(n)) == DecimalString(n)
  {
  }

  /** `parseInt` reads back what `String(n)` writes, for every natural number. */
  lemma ParseIntOfDecimal(n: nat)
    ensures ParseInt(DecimalString(n)) == Int(n)
  {
    var s := DecimalString(n);
    TrimStartOfDecimal(n);
    assert StripSign(s) == (false, s);
    LeadingDigitsOfDigits(s);
    DigitsValueOfDecimal(n);
  }

  /** A whole number with no fraction and no exponent has its own value. */
  lemma MagnitudeOfWhole(ip: string)
    requires AllDigits(ip)
    ensures Magnitude(ip, [], []) == DigitsValue(ip) as real
  {
    assert ExponentOf([]) == 0 && Scale(0) == 1.0;
  }

  /** A run of digits alone has no fraction or exponent to read. */
  lemma UnsignedFloatOfDigits(s: string)
    requires s != [] && AllDigits(s)
    ensures UnsignedFloat(s) == Finite(DigitsValue(s) as real)
  {
    assert !StartsWith(s, "Infinity") by {
      if |s| >= 8 { assert IsDigit(s[0]); }
    }
    LeadingDigitsOfDigits(s);
    assert s[|s|..] == [];
    MagnitudeOfWhole(s);
  }

  /** A string led by a digit has no leading white space. */
  lemma DigitsNotTrimmed(s: string)
    requires s != [] && IsDigit(s[0])
    ensures TrimStart(s) == s
  {
    assert !IsSpace(s[0]);
  }

  /** A string of digits alone has no white space or sign to skip. */
  lemma ParseFloatOfDigits(s: string)
    requires s != [] && AllDigits(s)
    ensures ParseFloat(s) == Finite(DigitsValue(s) as real)
  {
    DigitsNotTrimmed(s);
    assert StripSign(s) == (false, s);
    UnsignedFloatOfDigits(s);
  }

  /** `parseFloat` reads back what `String(n)` writes, for every natural number. */
  lemma ParseFloatOfDecimal(n: nat)
    ensures ParseFloat(DecimalString(n)) == Finite(n as real)
  {
    ParseFloatOfDigits(DecimalString(n));
    DigitsValueOfDecimal(n);
  }

  /** Leading white space never changes what `parseInt` reads. */
  lemma ParseIntSkipsSpace(w: string, s: string)
    requires IsBlank(w)
    ensures ParseInt(w + s) == ParseInt(s)
  {
    TrimStartConcat(w, s);
    ParseIntReadsTrimmed(w + s, s);
  }

  /** Text of white space only has no digits for `parseInt` to read. */
  lemma ParseIntOfBlank(w: string)
    requires IsBlank(w)
    ensures ParseInt(w) == IntNaN
  {
    TrimStartConcat(w, "");
    assert w + "" == w;
  }

  /** `parseInt` sees only what is left after the leading white space. */
  lemma ParseIntReadsTrimmed(a: string, b: string)
    requires TrimStart(a) == TrimStart(b)
    ensures ParseInt(a) == ParseInt(b)
  {
  }

  lemma {:induction false} TrimStartConcat(w: string, s: string)
    requires IsBlank(w)
    ensures TrimStart(w + s) == TrimStart(s)
    decreases |w|
  {
    if w != [] {
      assert (w + s)[1..] == w[1..] + s;
      TrimStartConcat(w[1..], s);
    } else {
      assert w + s == s;
    }
  }
}

=== FILE: orders_list.dfy ===
/**
 * The orders page list (`orders-list.tsx`): a status filter, the "bought"
 * and "sold" tabs, what each row shows for a seller and for a buyer, and the
 * colour of the status badge.
 */
module OrdersList {
  import opened OrdersApi

  /** The filter menu's value: 'all' or one status. */
  datatype StatusFilter = All | Only(status: OrderStatus)

  /** The statuses the filter menu offers, in menu order. */
  const MenuStatuses: seq<OrderStatus> := [Paid, Shipped, Delivered, Completed, Cancelled, Disputed]

  /** The menu lists every status exactly once. */
  lemma MenuCoversEveryStatus(st: OrderStatus)
    ensures st in MenuStatuses
    ensures forall i, j :: 0 <= i < j < |MenuStatuses| ==> MenuStatuses[i] != MenuStatuses[j]
  {
  }

  /** The orders `keep` accepts, in their original order. */
  function Filter(orders: seq<Order>, keep: Order -> bool): (r: seq<Order>)
    ensures |r| <= |orders|
    ensures forall o :: o in r <==> o in orders && keep(o)
  {
    if orders == [] then []
    else (if keep(orders[0]) then [orders[0]] else []) + Filter(orders[1..], keep)
  }

  /** Filtering works order by order, so it keeps the input order. */
  lemma {:induction false} FilterConcat(a: seq<Order>, b: seq<Order>, keep: Order -> bool)
    ensures Filter(a + b, keep) == Filter(a, keep) + Filter(b, keep)
    decreases |a|
  {
    if a == [] {
      assert a + b == b;
    } else {
      assert (a + b)[0] == a[0];
      assert (a + b)[1..] == a[1..] + b;
      FilterConcat(a[1..], b, keep);
    }
  }

  /** Filtering with a test every order passes changes nothing. */
  lemma {:induction false} FilterAll(orders: seq<Order>, keep: Order -> bool)
    requires forall k :: 0 <= k < |orders| ==> keep(orders[k])
    ensures Filter(orders, keep) == orders
    decreases |orders|
  {
    if orders != [] {
      FilterAll(orders[1..], keep);
    }
  }

  /** `filteredOrders`: all of them, or exactly those with the chosen status. */
  function FilterOrders(orders: seq<Order>, filter: StatusFilter): (r: seq<Order>)
    ensures filter.All? ==> r == orders
    ensures filter.Only? ==> forall o :: o in r <==> o in orders && o.status == filter.status
  {
    match filter
    case All => orders
    case Only(st) => Filter(orders, (o: Order) => o.status == st)
  }

  /** Filtering twice by the same status is filtering once. */
  lemma FilterOrdersIdempotent(orders: seq<Order>, filter: StatusFilter)
    ensures FilterOrders(FilterOrders(orders, filter), filter) == FilterOrders(orders, filter)
  {
    if filter.Only? {
      var r := FilterOrders(orders, filter);
      assert forall k :: 0 <= k < |r| ==> r[k] in r;
      FilterAll(r, (o: Order) => o.status == filter.status);
    }
  }

  /** The two tabs: orders bought by the current user, and orders sold by them. */
  datatype Tabs = Tabs(bought: seq<Order>, sold: seq<Order>)

  /** `bought` and `sold` are two independent filters of the filtered orders. */
  function Partition(orders: seq<Order>, filter: StatusFilter, currentUserId: string): (t: Tabs)
    ensures forall o :: o in t.bought <==> o in FilterOrders(orders, filter) && o.buyerId == currentUserId
    ensures forall o :: o in t.sold <==> o in FilterOrders(orders, filter) && o.sellerId == currentUserId
  {
    var shown := FilterOrders(orders, filter);
    Tabs(Filter(shown, (o: Order) => o.buyerId == currentUserId), Filter(shown, (o: Order) => o.sellerId == currentUserId))
  }

  /** An order the user both bought and sold shows up in both tabs; one they are not party to in neither. */
  lemma TabsAreIndependent(orders: seq<Order>, filter: StatusFilter, currentUserId: string, o: Order)
    requires o in FilterOrders(orders, filter)
    ensures o.buyerId == currentUserId && o.sellerId == currentUserId ==>
              o in Partition(orders, filter, currentUserId).bought && o in Partition(orders, filter, currentUserId).sold
    ensures o.buyerId != currentUserId && o.sellerId != currentUserId ==>
              o !in Partition(orders, filter, currentUserId).bought && o !in Partition(orders, filter, currentUserId).sold
  {
  }

  /** The amounts a row shows: the seller sees the net payout, the buyer the total price. */
  datatype RowAmount = SellerRow(quantity: int, netPayout: int) | BuyerRow(quantity: int, totalPrice: int)

  datatype Badge = Green | Red | Blue | Yellow

  /** One row of a tab. */
  datatype Row = Row(href: string, title: string, amount: RowAmount, badge: Badge)

  /** The badge colour for a status. */
  function BadgeColour(status: OrderStatus): (b: Badge)
    ensures b == Green <==> status == Completed
    ensures b == Red <==> status == Cancelled || status == Disputed
    ensures b == Blue <==> status == Shipped || status == Delivered
    ensures b == Yellow <==> status == Paid
  {
    match status
    case Completed => Green
    case Cancelled | Disputed => Red
    case Shipped | Delivered => Blue
    case Paid => Yellow
  }

  /** One row, seen by `currentUserId`: a seller is whoever the order names as seller. */
  function RenderRow(o: Order, currentUserId: string): (row: Row)
    ensures row.href == "/market/orders/" + o.id && row.title == o.listingTitle
    ensures row.amount.SellerRow? <==> o.sellerId == currentUserId
    ensures row.amount.SellerRow? ==> row.amount == SellerRow(o.quantity, o.netPayout)
    ensures row.amount.BuyerRow? ==> row.amount == BuyerRow(o.quantity, o.totalPrice)
    ensures row.badge == BadgeColour(o.status)
  {
    var amount := if o.sellerId == currentUserId then SellerRow(o.quantity, o.netPayout) else BuyerRow(o.quantity, o.totalPrice);
    Row("/market/orders/" + o.id, o.listingTitle, amount, BadgeColour(o.status))
  }

  /** A tab's content: its empty message, or one row per order. */
  datatype TabView = EmptyMessage(key: string) | Rows(rows: seq<Row>)

  function RenderList(list: seq<Order>, emptyKey: string, currentUserId: string): (v: TabView)
    ensures v.EmptyMessage? <==> list == []
    ensures v.EmptyMessage? ==> v.key == "empty." + emptyKey
    ensures v.Rows? ==> |v.rows| == |list| && forall k :: 0 <= k < |list| ==> v.rows[k] == RenderRow(list[k], currentUserId)
  {
    if list == [] then EmptyMessage("empty." + emptyKey)
    else Rows(seq(|list|, k requires 0 <= k < |list| => RenderRow(list[k], currentUserId)))
  }

  /** In the "sold" tab every row is a seller row showing the net payout. */
  lemma SoldTabShowsPayout(orders: seq<Order>, filter: StatusFilter, currentUserId: string)
    ensures var v := RenderList(Partition(orders, filter, currentUserId).sold, "sold", currentUserId);
            v.Rows? ==> forall k :: 0 <= k < |v.rows| ==> v.rows[k].amount.SellerRow?
  {
    var sold := Partition(orders, filter, currentUserId).sold;
    assert forall k :: 0 <= k < |sold| ==> sold[k] in sold;
  }
}

=== FILE: services.dfy ===
/**
 * The current signed-in user, as the services see it. The identity provider is
 * an oracle: a service is handed the user it would have read (or None), and the
 * identity token that user would have produced.
 */
module Session {
  import opened Wrappers
  import opened Http

  datatype User = User(uid: string, idToken: string)

  /**
   * What an authenticated service did: the token and arguments it handed to
   * its resource client (None when it stopped early) and what it returned.
   */
  datatype Guarded<A, T> = Guarded(forwarded: Option<(string, A)>, result: Result<T, Failure>)

  /**
   * The shared preamble of the services: with no user, fail with
   * "Not authenticated" before any client call; otherwise call the client with
   * the user's token.
   */
  function Guard<A, T>(user: Option<User>, args: A, client: string -> Result<T, Failure>): (g: Guarded<A, T>)
    ensures user.None? ==> g == Guarded(None, Failure(NotAuthenticated))
    ensures user.Some? ==> g.forwarded == Some((user.value.idToken, args)) && g.result == client(user.value.idToken)
  {
    match user
    case None => Guarded(None, Failure(NotAuthenticated))
    case Some(u) => Guarded(Some((u.idToken, args)), client(u.idToken))
  }

  /** Only the user's token reaches the client: two users with the same token get the same outcome. */
  lemma GuardSeesOnlyToken<A, T>(u1: User, u2: User, args: A, client: string -> Result<T, Failure>)
    requires u1.idToken == u2.idToken
    ensures Guard(Some(u1), args, client) == Guard(Some(u2), args, client)
  {
  }
}

/** `src/lib/services/orders.ts`. */
module OrderService {
  import opened Wrappers
  import opened Http
  import opened Session
  import opened OrdersApi

  /** Fetches one order for the signed-in user; a 404 passes through as null. */
  function FetchOrder(user: Option<User>, orderId: string, ex: Exchange<Order>): (g: Guarded<string, Option<Order>>)
    ensures user.None? ==> g.forwarded.None? && g.result == Failure(NotAuthenticated)
    ensures user.Some? ==> g.forwarded == Some((user.value.idToken, orderId))
    ensures user.Some? ==> (g.result == Success(None) <==> ex.Responded? && ex.status == Some(404))
    ensures user.Some? && ex.Responded? && ex.status == Some(200) ==> g.result == Success(Some(ex.body))
    ensures user.Some? && ex.NoResponse? ==> g.result == Failure(NetworkError)
    ensures user.Some? && ex.Responded? && ex.status != Some(200) && ex.status != Some(404) ==> g.result == Failure(Rejected(ex.status))
    ensures user.Some? ==> g.result == GetOrder(orderId, user.value.idToken, ex).result
  {
    Guard(user, orderId, (token: string) => GetOrder(orderId, token, ex).result)
  }

  /** Places an order for the signed-in user; only a 201 resolves. */
  function CreateOrderAs(user: Option<User>, params: CreateOrderRequest, ex: Exchange<Order>): (g: Guarded<CreateOrderRequest, Order>)
    ensures user.None? ==> g.forwarded.None? && g.result == Failure(NotAuthenticated)
    ensures user.Some? ==> g.forwarded == Some((user.value.idToken, params))
    ensures user.Some? ==> (g.result.Success? <==> ex.Responded? && ex.status == Some(201))
    ensures g.result.Success? ==> g.result.value == ex.body
    ensures user.Some? ==> g.result == CreateOrder(user.value.idToken, params, ex).result
  {
    Guard(user, params, (token: string) => CreateOrder(token, params, ex).result)
  }

  /**
   * Lists the signed-in user's orders. The client function it names is not
   * part of the orders client, so its result is taken as given.
   */
  function FetchMyOrders(user: Option<User>, clientResult: Result<seq<Order>, Failure>): (g: Guarded<(), seq<Order>>)
    ensures user.None? ==> g.forwarded.None? && g.result == Failure(NotAuthenticated)
    ensures user.Some? ==> g.forwarded == Some((user.value.idToken, ())) && g.result == clientResult
  {
    Guard(user, (), (token: string) => clientResult)
  }
}

/** `src/lib/services/messages.ts`. */
module MessageService {
  import opened Wrappers
  import opened Http
  import opened Session
  import opened MessagesApi

  /** Sends a message as the signed-in user; the payload is forwarded unchanged. */
  function SendMessage(user: Option<User>, params: CreateMessageRequest, ex: Exchange<Message>): (g: Guarded<CreateMessageRequest, Message>)
    ensures user.None? ==> g.forwarded.None? && g.result == Failure(NotAuthenticated)
    ensures user.Some? ==> g.forwarded == Some((user.value.idToken, params))
    ensures user.Some? ==> (g.result.Success? <==> ex.Responded? && ex.status == Some(201))
    ensures g.result.Success? ==> g.result.value == ex.body
    ensures user.Some? ==> g.result == CreateMessage(user.value.idToken, params, ex).result
  {
    Guard(user, params, (token: string) => CreateMessage(token, params, ex).result)
  }

  /** The conversation with one user; a non-array body reads as no messages. */
  function FetchMessagesWithUser(user: Option<User>, userId: string, ex: Exchange<ListBody<Message>>): (g: Guarded<string, seq<Message>>)
    ensures user.None? ==> g.forwarded.None? && g.result == Failure(NotAuthenticated)
    ensures user.Some? ==> g.forwarded == Some((user.value.idToken, userId))
    ensures user.Some? ==> (g.result.Success? <==> ex.Responded? && ex.status == Some(200))
    ensures g.result.Success? && ex.body.NotArray? ==> g.result.value == []
    ensures g.result.Success? && ex.body.Array? ==> g.result.value == ex.body.items
    ensures user.Some? ==> g.result == GetMessagesWithUser(user.value.idToken, userId, ex).result
  {
    Guard(user, userId, (token: string) => GetMessagesWithUser(token, userId, ex).result)
  }
}

/** `src/lib/services/listings.ts`. */
module ListingService {
  import opened Wrappers
  import opened Http
  import opened Session
  import opened ListingsApi
  import NumberParse

  /** The listing-creation payload built by the create-listing form. */
  datatype CreateListingRequest = CreateListingRequest(
    title: string,
    description: Option<string>,
    imageUrls: seq<string>,
    price: NumberParse.FloatParse,
    quantity: Option<NumberParse.IntParse>,
    itemCondition: Option<string>,
    isActive: bool)

  /**
   * Creates a listing as the signed-in user. The client function it names is
   * not part of the listings client, so its result is taken as given.
   */
  function CreateListing(user: Option<User>, params: CreateListingRequest, clientResult: Result<Listing, Failure>): (g: Guarded<CreateListingRequest, Listing>)
    ensures user.None? ==> g.forwarded.None? && g.result == Failure(NotAuthenticated)
    ensures user.Some? ==> g.forwarded == Some((user.value.idToken, params)) && g.result == clientResult
  {
    Guard(user, params, (token: string) => clientResult)
  }
}

/** `src/lib/services/suggestions.ts`. */
module SuggestionService {
  import opened Wrappers
  import opened Http
  import opened Session
  import opened SuggestionsApi

  /** Listing suggestions for the signed-in user; the request is forwarded unchanged. */
  function GenerateSuggestions(user: Option<User>, params: SuggestionRequest, ex: Exchange<SuggestionsBody>): (g: Guarded<SuggestionRequest, seq<string>>)
    ensures user.None? ==> g.forwarded.None? && g.result == Failure(NotAuthenticated)
    ensures user.Some? ==> g.forwarded == Some((user.value.idToken, params))
    ensures user.Some? ==> (g.result.Success? <==> ex.Responded? && ex.status == Some(200))
    ensures g.result.Success? && ex.body.Object? && ex.body.suggestions.Array? ==> g.result.value == ex.body.suggestions.items
    ensures g.result.Success? && (ex.body.NotObject? || ex.body.suggestions.NotArray?) ==> g.result.value == []
    ensures user.Some? ==> g.result == GenerateNewListingSuggestions(user.value.idToken, params, ex).result
  {
    Guard(user, params, (token: string) => GenerateNewListingSuggestions(token, params, ex).result)
  }
}

/** `src/lib/services/translation.ts`: translation is best effort. */
module TranslationService {
  import opened Wrappers
  import opened Http
  import opened TranslationApi

  datatype TranslateResult = TranslateResult(translatedTitle: string, translatedDescription: string)

  /**
   * Translates listing text. Null when the text is already in the target
   * language and null on any failure; otherwise exactly the two translated
   * fields. The request carries the caller's parameters unchanged.
   */
  function TranslateListing(params: TranslateRequest, ex: Exchange<TranslateResponse>): (r: (Request<TranslateRequest>, Option<TranslateResult>))
    ensures r.0.payload == params
    ensures r.1.Some? <==> ex.Responded? && ex.status == Some(200) && ex.body.detectedSourceLanguage != params.targetLanguage
    ensures r.1.Some? ==> r.1.value == TranslateResult(ex.body.translatedTitle, ex.body.translatedDescription)
  {
    var c := TranslateContent(params, ex);
    match c.result
    case Failure(_) => (c.request, None)
    case Success(response) =>
      if response.detectedSourceLanguage == params.targetLanguage then (c.request, None)
      else (c.request, Some(TranslateResult(response.translatedTitle, response.translatedDescription)))
  }

  /**
   * The service adds exactly one thing to the client: a response in the
   * target language is dropped. It sends the client's request, a client
   * failure gives null, and a translation comes from the client's response.
   */
  lemma TranslateListingFiltersClient(params: TranslateRequest, ex: Exchange<TranslateResponse>)
    ensures var c := TranslateContent(params, ex);
            var r := TranslateListing(params, ex);
            && r.0 == c.request
            && (c.result.Failure? ==> r.1.None?)
            && (r.1.Some? <==> c.result.Success? && c.result.value.detectedSourceLanguage != params.targetLanguage)
            && (r.1.Some? ==> r.1.value == TranslateResult(c.result.value.translatedTitle, c.result.value.translatedDescription))
  {
  }
}

=== FILE: storage.dfy ===
/**
 * Image upload to object storage (`src/lib/services/storage.ts`): the guards
 * that run before any upload, the object path, the file-extension rule and
 * the public download URL. The upload itself is an oracle: whether it
 * succeeded is a parameter.
 */
module Storage {
  import opened Wrappers
  import opened Text
  import opened Session

  /** A file picked by the user: its name and its reported MIME type. */
  datatype File = File(name: string, contentType: Option<string>)

  /**
   * `getFileExtension`: the text after the last '.', except that a name with
   * no '.' or of the form ".hidden" has none.
   */
  function FileExtension(filename: string): (ext: string)
    ensures '.' !in ext
    ensures '.' !in filename ==> ext == ""
  {
    var parts := Split(filename, '.');
    if |parts| < 2 || (|parts| == 2 && parts[0] == "") then ""
    else parts[|parts| - 1]
  }

  /** A name such as ".hidden" (one dot, in front) has no extension. */
  lemma HiddenFileHasNoExtension(name: string)
    requires '.' !in name
    ensures FileExtension("." + name) == ""
  {
    var s := "." + name;
    assert s[1..] == name;
    assert Count(name, '.') == 0 by { CountAbsent(name, '.'); }
    assert Split(s, '.') == ["", name] by {
      assert IndexOf(s, '.') == Some(0);
      assert Split(name, '.') == [name];
    }
  }

  /** Unless the name is a hidden file, a name with a dot takes the last piece of its split. */
  lemma ExtensionIsLastPiece(filename: string)
    requires '.' in filename
    requires !(filename[0] == '.' && Count(filename, '.') == 1)
    ensures FileExtension(filename) == Split(filename, '.')[|Split(filename, '.')| - 1]
  {
    var i := IndexOf(filename, '.').value;
    assert Count(filename, '.') >= 1 by {
      CountAtFirst(filename, '.', i);
    }
    assert Split(filename, '.')[0] == filename[..i] by {
      SplitFirst(filename, '.');
    }
  }

  /** Otherwise, with the last '.' at `k`, the extension is everything after it, possibly empty (as for "a."). */
  lemma ExtensionIsAfterLastDot(filename: string, k: nat)
    requires LastIndexOf(filename, '.') == Some(k)
    requires !(filename[0] == '.' && Count(filename, '.') == 1)
    ensures FileExtension(filename) == filename[k + 1..]
  {
    var parts := Split(filename, '.');
    ExtensionIsLastPiece(filename);
    SplitLast(filename, '.', k);
    assert FileExtension(filename) == parts[|parts| - 1];
  }

  /** `users/<uid>/<uuid>.<ext>`: the object lives under its owner's folder and is named by its uuid. */
  function StoragePath(uid: string, uuid: string, ext: string): (path: string)
    ensures StartsWith(path, "users/" + uid + "/")
    ensures path[|"users/" + uid + "/"|..] == uuid + "." + ext
  {
    "users/" + uid + "/" + uuid + "." + ext
  }

  lemma PrefixCancel(p: string, a: string, b: string)
    requires p + a == p + b
    ensures a == b
  {
    assert a == (p + a)[|p|..];
    assert b == (p + b)[|p|..];
  }

  lemma SuffixCancel(a: string, b: string, t: string)
    requires a + t == b + t
    ensures a == b
  {
    assert a == (a + t)[..|a|];
    assert b == (b + t)[..|b|];
  }

  /** For one owner and one extension, distinct uuids give distinct object paths. */
  lemma StoragePathInjective(uid: string, u1: string, u2: string, ext: string)
    requires StoragePath(uid, u1, ext) == StoragePath(uid, u2, ext)
    ensures u1 == u2
  {
    var owner := "users/" + uid + "/";
    assert StoragePath(uid, u1, ext) == owner + (u1 + ("." + ext));
    assert StoragePath(uid, u2, ext) == owner + (u2 + ("." + ext));
    PrefixCancel(owner, u1 + ("." + ext), u2 + ("." + ext));
    SuffixCancel(u1, u2, "." + ext);
  }

  // ----- encodeURIComponent -----

  /** The characters `encodeURIComponent` leaves as they are. */
  predicate Unreserved(c: char) {
    || ('A' <= c <= 'Z') || ('a' <= c <= 'z') || ('0' <= c <= '9')
    || c == '-' || c == '_' || c == '.' || c == '!' || c == '~' || c == '*' || c == '\'' || c == '(' || c == ')'
  }

  predicate IsUpperHex(c: char) {
    ('0' <= c <= '9') || ('A' <= c <= 'F')
  }

  function HexDigit(d: nat): (c: char)
    requires d < 16
    ensures IsUpperHex(c)
  {
    if d < 10 then ('0' as int + d) as char else ('A' as int + d - 10) as char
  }

  /** An octet. */
  type Byte = n: nat | n < 256

  /** The UTF-8 bytes of one code point, six bits at a time below the lead byte. */
  function Utf8(c: char): (bytes: seq<Byte>)
    ensures 1 <= |bytes| <= 4
  {
    var n := c as int;
    var q0 := n / 64;
    var q1 := q0 / 64;
    var q2 := q1 / 64;
    if n < 0x80 then [n]
    else if n < 0x800 then [0xC0 + q0, 0x80 + n % 64]
    else if n < 0x10000 then [0xE0 + q1, 0x80 + q0 % 64, 0x80 + n % 64]
    else [0xF0 + q2, 0x80 + q1 % 64, 0x80 + q0 % 64, 0x80 + n % 64]
  }

  /** The number of bytes a UTF-8 sequence has, read off its lead byte. */
  function LeadLength(b: Byte): nat {
    if b < 0xC0 then 1 else if b < 0xE0 then 2 else if b < 0xF0 then 3 else 4
  }

  /** The code point a UTF-8 sequence of one to four bytes stands for. */
  function Utf8Value(bytes: seq<Byte>): int
    requires 1 <= |bytes| <= 4
  {
    var lead := bytes[0] as int;
    if |bytes| == 1 then lead
    else if |bytes| == 2 then (lead - 0xC0) * 64 + Tail(bytes, 1)
    else if |bytes| == 3 then ((lead - 0xE0) * 64 + Tail(bytes, 1)) * 64 + Tail(bytes, 2)
    else (((lead - 0xF0) * 64 + Tail(bytes, 1)) * 64 + Tail(bytes, 2)) * 64 + Tail(bytes, 3)
  }

  /** The six payload bits of continuation byte `i`. */
  function Tail(bytes: seq<Byte>, i: nat): int
    requires i < |bytes|
  {
    bytes[i] as int - 0x80
  }

  /** The lead byte tells how many bytes the code point takes. */
  lemma Utf8Lead(c: char)
    ensures LeadLength(Utf8(c)[0]) == |Utf8(c)|
  {
  }

  /** Decoding the bytes gives the code point back. */
  lemma Utf8Decodes(c: char)
    ensures Utf8Value(Utf8(c)) == c as int
  {
    var n := c as int;
    var q0 := n / 64;
    var q1 := q0 / 64;
    var q2 := q1 / 64;
    assert n == q0 * 64 + n % 64;
    assert q0 == q1 * 64 + q0 % 64;
    assert q1 == q2 * 64 + q1 % 64;
  }

  /** Distinct characters have distinct UTF-8 bytes. */
  lemma Utf8Injective(c: char, d: char)
    requires Utf8(c) == Utf8(d)
    ensures c == d
  {
    Utf8Decodes(c);
    Utf8Decodes(d);
  }

  /** The value of one upper-case hexadecimal digit. */
  function HexValue(c: char): (d: nat)
    requires IsUpperHex(c)
    ensures d < 16
  {
    if '0' <= c <= '9' then c as int - '0' as int else c as int - 'A' as int + 10
  }

  lemma HexDigitDecodes(d: nat)
    requires d < 16
    ensures HexValue(HexDigit(d)) == d
  {
  }

  /** One byte as `%XX`. */
  function PercentByte(b: Byte): (r: string)
    ensures |r| == 3 && r[0] == '%' && IsUpperHex(r[1]) && IsUpperHex(r[2])
    ensures HexValue(r[1]) * 16 + HexValue(r[2]) == b
  {
    HexDigitDecodes(b / 16);
    HexDigitDecodes(b % 16);
    ['%', HexDigit(b / 16), HexDigit(b % 16)]
  }

  function PercentBytes(bytes: seq<Byte>): (r: string)
    ensures |r| == 3 * |bytes|
    ensures forall i :: 0 <= i < |r| ==> r[i] == '%' || IsUpperHex(r[i])
  {
    if bytes == [] then [] else PercentByte(bytes[0]) + PercentBytes(bytes[1..])
  }

  /** A character of an encoded component: unreserved, or part of a %XX escape. */
  predicate EncodedChar(c: char) {
    Unreserved(c) || c == '%' || IsUpperHex(c)
  }

  /** What one character becomes: itself if unreserved, otherwise one %XX per UTF-8 byte. */
  function EncodeChar(c: char): (r: string)
    ensures r != [] && (r[0] == '%' <==> !Unreserved(c))
    ensures forall i :: 0 <= i < |r| ==> EncodedChar(r[i])
    ensures Unreserved(c) ==> r == [c]
    ensures !Unreserved(c) ==> r == PercentBytes(Utf8(c))
  {
    if Unreserved(c) then [c] else PercentBytes(Utf8(c))
  }

  /** `encodeURIComponent(s)`: unreserved characters pass, every other code point becomes %XX per UTF-8 byte. */
  function EncodeURIComponent(s: string): (r: string)
    ensures forall i :: 0 <= i < |r| ==> EncodedChar(r[i])
    ensures (forall i :: 0 <= i < |s| ==> Unreserved(s[i])) ==> r == s
    ensures |r| >= |s|
    ensures r == [] <==> s == []
  {
    if s == [] then []
    else
      var head := EncodeChar(s[0]);
      var rest := EncodeURIComponent(s[1..]);
      assert forall i :: 0 <= i < |head + rest| ==> EncodedChar((head + rest)[i]) by {
        forall i | 0 <= i < |head + rest| ensures EncodedChar((head + rest)[i]) {
          if i >= |head| { assert (head + rest)[i] == rest[i - |head|]; }
        }
      }
      head + rest
  }

  /** Two escapes that read the same from their start hold the same bytes, and what follows them agrees. */
  lemma {:induction false} PercentBytesPrefix(x: seq<Byte>, y: seq<Byte>, r1: string, r2: string)
    requires |x| == |y| && PercentBytes(x) + r1 == PercentBytes(y) + r2
    ensures x == y && r1 == r2
    decreases |x|
  {
    if x != [] {
      var t := PercentBytes(x) + r1;
      var u := PercentByte(x[0]);
      var v := PercentByte(y[0]);
      assert t == u + (PercentBytes(x[1..]) + r1);
      assert t == v + (PercentBytes(y[1..]) + r2);
      assert t[1] == u[1] == v[1] && t[2] == u[2] == v[2];
      assert t[3..] == PercentBytes(x[1..]) + r1 == PercentBytes(y[1..]) + r2;
      PercentBytesPrefix(x[1..], y[1..], r1, r2);
      assert x == [x[0]] + x[1..] && y == [y[0]] + y[1..];
    } else {
      assert PercentBytes(x) + r1 == r1 && PercentBytes(y) + r2 == r2;
    }
  }

  /** The first escape of an encoded byte sequence holds its first byte. */
  lemma FirstEscape(x: seq<Byte>, r: string)
    requires x != []
    ensures var t := PercentBytes(x) + r;
            IsUpperHex(t[1]) && IsUpperHex(t[2]) && HexValue(t[1]) * 16 + HexValue(t[2]) == x[0]
  {
    var t := PercentBytes(x) + r;
    var u := PercentByte(x[0]);
    assert t == u + (PercentBytes(x[1..]) + r);
    assert t[1] == u[1] && t[2] == u[2];
  }

  /** The encodings of two characters are never one a proper prefix of the other, and equal only for equal characters. */
  lemma EncodeCharPrefixFree(c: char, d: char, r1: string, r2: string)
    requires EncodeChar(c) + r1 == EncodeChar(d) + r2
    ensures c == d && r1 == r2
  {
    var t := EncodeChar(c) + r1;
    assert t[0] == EncodeChar(c)[0] && t[0] == EncodeChar(d)[0];
    if Unreserved(c) {
      assert [c] + r1 == [d] + r2;
      assert t[1..] == r1 && t[1..] == r2;
    } else {
      var x, y := Utf8(c), Utf8(d);
      FirstEscape(x, r1);
      FirstEscape(y, r2);
      Utf8Lead(c);
      Utf8Lead(d);
      PercentBytesPrefix(x, y, r1, r2);
      Utf8Injective(c, d);
    }
  }

  /** Distinct strings have distinct encodings, so the encoding loses nothing. */
  lemma {:induction false} EncodeInjective(a: string, b: string)
    requires EncodeURIComponent(a) == EncodeURIComponent(b)
    ensures a == b
    decreases |a|
  {
    if a != [] {
      assert b != [];
      EncodeCharPrefixFree(a[0], b[0], EncodeURIComponent(a[1..]), EncodeURIComponent(b[1..]));
      EncodeInjective(a[1..], b[1..]);
      assert a == [a[0]] + a[1..] && b == [b[0]] + b[1..];
    }
  }

  /** An encoded component never contains a '/' or a '?', so a path stays one URL segment. */
  lemma EncodedHasNoDelimiters(s: string)
    ensures '/' !in EncodeURIComponent(s) && '?' !in EncodeURIComponent(s) && '#' !in EncodeURIComponent(s)
  {
    var r := EncodeURIComponent(s);
    forall i | 0 <= i < |r| ensures r[i] != '/' && r[i] != '?' && r[i] != '#' {
      assert EncodedChar(r[i]);
    }
  }

  const StoragePrefix: string := "https://firebasestorage.googleapis.com/v0/b/"

  /** `getPublicUrl`: fixed prefix + bucket + "/o/" + encoded path + "?alt=media". */
  function PublicUrl(bucket: string, path: string): (url: string)
    ensures StartsWith(url, StoragePrefix + bucket + "/o/")
    ensures url[|StoragePrefix + bucket + "/o/"|..] == EncodeURIComponent(path) + "?alt=media"
  {
    StoragePrefix + bucket + "/o/" + EncodeURIComponent(path) + "?alt=media"
  }

  /** Within one bucket, distinct object paths have distinct public URLs. */
  lemma PublicUrlInjective(bucket: string, p: string, q: string)
    requires PublicUrl(bucket, p) == PublicUrl(bucket, q)
    ensures p == q
  {
    var front := StoragePrefix + bucket + "/o/";
    assert PublicUrl(bucket, p) == front + (EncodeURIComponent(p) + "?alt=media");
    assert PublicUrl(bucket, q) == front + (EncodeURIComponent(q) + "?alt=media");
    PrefixCancel(front, EncodeURIComponent(p) + "?alt=media", EncodeURIComponent(q) + "?alt=media");
    SuffixCancel(EncodeURIComponent(p), EncodeURIComponent(q), "?alt=media");
    EncodeInjective(p, q);
  }

  /** What `uploadImage` did: the object path it uploaded to, if any, and the URL it returned. */
  datatype UploadOutcome = UploadOutcome(uploadedTo: Option<string>, url: Option<string>)

  /**
   * `uploadImage`: a non-image type, missing storage or a missing user each give
   * null before any upload; otherwise the file goes to `users/<uid>/<uuid>.<ext>`
   * and the public URL is returned if the upload succeeded.
   */
  function UploadImage(file: File, storageAvailable: bool, user: Option<User>, uuid: string, bucket: string, uploadSucceeds: bool): (r: UploadOutcome)
    ensures file.contentType.None? || !StartsWith(file.contentType.value, "image/") ==> r == UploadOutcome(None, None)
    ensures !storageAvailable || user.None? ==> r == UploadOutcome(None, None)
    ensures r.uploadedTo.Some? ==> user.Some? && r.uploadedTo.value == StoragePath(user.value.uid, uuid, FileExtension(file.name))
    ensures r.url.Some? <==> r.uploadedTo.Some? && uploadSucceeds
    ensures r.url.Some? ==> r.url.value == PublicUrl(bucket, r.uploadedTo.value)
    ensures file.contentType.Some? && StartsWith(file.contentType.value, "image/") && storageAvailable && user.Some? ==> r.uploadedTo.Some?
  {
    if file.contentType.None? || !StartsWith(file.contentType.value, "image/") then UploadOutcome(None, None)
    else if !storageAvailable then UploadOutcome(None, None)
    else match user
      case None => UploadOutcome(None, None)
      case Some(u) =>
        var path := StoragePath(u.uid, uuid, FileExtension(file.name));
        UploadOutcome(Some(path), if uploadSucceeds then Some(PublicUrl(bucket, path)) else None)
  }

  /** Two successful uploads of the same image by the same user under distinct uuids return distinct URLs. */
  lemma DistinctUuidsDistinctUrls(file: File, user: User, u1: string, u2: string, bucket: string)
    requires file.contentType.Some? && StartsWith(file.contentType.value, "image/")
    requires u1 != u2
    ensures UploadImage(file, true, Some(user), u1, bucket, true).url.Some?
    ensures UploadImage(file, true, Some(user), u1, bucket, true).url != UploadImage(file, true, Some(user), u2, bucket, true).url
  {
    var ext := FileExtension(file.name);
    var p1, p2 := StoragePath(user.uid, u1, ext), StoragePath(user.uid, u2, ext);
    if PublicUrl(bucket, p1) == PublicUrl(bucket, p2) {
      PublicUrlInjective(bucket, p1, p2);
      StoragePathInjective(user.uid, u1, u2, ext);
    }
  }
}

=== FILE: suggestions.dfy ===
/**
 * The listing-suggestions hook (`use-listing-suggestions.ts`) as a state
 * machine: a fetch either clears the suggestions (description too short) or
 * starts a request under a fresh id that becomes the latest one; a request
 * that settles changes the state only while its id is still the latest.
 * Request ids are abstract (the hook uses `Date.now()`); the debounce timer
 * only decides when a fetch happens and is not modelled.
 */
module Suggestions {
  import opened Wrappers
  import opened Text
  import opened Http
  import opened SuggestionsApi

  const MinDescriptionLength: nat := 10

  /** The hook's inputs. */
  datatype Params = Params(title: string, description: string, condition: string, language: Language)

  /** The hook state: what it shows, and the id of the latest request (`requestIdRef`). */
  datatype State = State(suggestions: seq<string>, loading: bool, error: Option<string>, latest: int)

  const Initial: State := State([], false, None, 0)

  /** `description.trim().length > 0`: there is some text exactly when the description is not blank. */
  function HasInput(description: string): (b: bool)
    ensures b <==> !IsBlank(description)
  {
    CodeUnits(Trim(description)) > 0
  }

  /**
   * `description.trim().length >= MIN_DESCRIPTION_LENGTH`: enough text is in
   * particular some text, and at least five characters once trimmed (ten
   * code units, at most two per character). Ten characters always suffice,
   * and inside the Basic Multilingual Plane exactly ten are needed.
   */
  function HasMinimumInput(description: string): (b: bool)
    ensures b ==> HasInput(description)
    ensures b ==> |Trim(description)| >= 5
    ensures |Trim(description)| >= MinDescriptionLength ==> b
    ensures InBmp(Trim(description)) ==> (b <==> |Trim(description)| >= MinDescriptionLength)
  {
    CodeUnits(Trim(description)) >= MinDescriptionLength
  }

  /**
   * The fetch gate by length: fewer than five trimmed characters never send,
   * ten always do, and for text inside the Basic Multilingual Plane the
   * request goes out exactly from ten trimmed characters on.
   */
  lemma FetchThreshold(s: State, p: Params, id: int)
    ensures |Trim(p.description)| < 5 ==> Fetch(s, p, id).1 == None
    ensures |Trim(p.description)| >= MinDescriptionLength ==> Fetch(s, p, id).1.Some?
    ensures InBmp(Trim(p.description)) ==>
              (Fetch(s, p, id).1.Some? <==> |Trim(p.description)| >= MinDescriptionLength)
  {
  }

  /** Seven plain letters are not enough for a suggestion request. */
  lemma SevenLettersTooShort()
    ensures !HasMinimumInput("abcdefg")
  {
    var t := "abcdefg";
    TrimOfTrimmed(t);
    assert InBmp(t);
  }

  /** Ten plain letters are enough. */
  lemma TenLettersEnough()
    ensures HasMinimumInput("abcdefghij")
  {
    TrimOfTrimmed("abcdefghij");
  }

  /**
   * `fetchSuggestions` up to the request: a short trimmed description clears
   * the suggestions and the error, stops loading and sends nothing (the latest
   * id is left alone); otherwise `id` becomes the latest, loading starts and
   * the request carries the trimmed title and description.
   */
  function Fetch(s: State, p: Params, id: int): (r: (State, Option<SuggestionRequest>))
    ensures r.1.Some? <==> HasMinimumInput(p.description)
    ensures r.1.None? ==> r.0 == s.(suggestions := [], error := None, loading := false)
    ensures r.1.Some? ==>
              && r.0 == s.(latest := id, loading := true)
              && r.1.value == SuggestionRequest(Trim(p.title), Trim(p.description), p.condition, p.language)
  {
    var description := Trim(p.description);
    if CodeUnits(description) < MinDescriptionLength then (s.(suggestions := [], error := None, loading := false), None)
    else (s.(latest := id, loading := true), Some(SuggestionRequest(Trim(p.title), description, p.condition, p.language)))
  }

  /**
   * The request `id` settled with `outcome`. Unless `id` is still the latest
   * nothing changes; otherwise a success replaces the suggestions and clears
   * the error, a failure sets the error "suggestions" and keeps the
   * suggestions, and either way loading ends.
   */
  function Settle(s: State, id: int, outcome: Result<seq<string>, Failure>): (r: State)
    ensures id != s.latest ==> r == s
    ensures r.latest == s.latest
    ensures r.loading != s.loading ==> id == s.latest && !r.loading
    ensures id == s.latest && outcome.Success? ==> r.suggestions == outcome.value && r.error.None? && !r.loading
    ensures id == s.latest && outcome.Failure? ==> r.suggestions == s.suggestions && r.error == Some("suggestions") && !r.loading
  {
    if id != s.latest then s
    else match outcome
      case Success(next) => s.(suggestions := next, error := None, loading := false)
      case Failure(_) => s.(error := Some("suggestions"), loading := false)
  }

  /** What can happen to the hook: a fetch under a fresh id, or a request settling. */
  datatype Event = Started(p: Params, id: int) | Settled(id: int, outcome: Result<seq<string>, Failure>)

  function Step(s: State, e: Event): State {
    match e
    case Started(p, id) => Fetch(s, p, id).0
    case Settled(id, outcome) => Settle(s, id, outcome)
  }

  function Apply(s: State, evs: seq<Event>): State
    decreases |evs|
  {
    if evs == [] then s else Apply(Step(s, evs[0]), evs[1..])
  }

  /** Running two stretches of events is running them one after the other. */
  lemma {:induction false} ApplyConcat(s: State, a: seq<Event>, b: seq<Event>)
    ensures Apply(s, a + b) == Apply(Apply(s, a), b)
    decreases |a|
  {
    if a == [] {
      assert a + b == b;
    } else {
      assert (a + b)[0] == a[0];
      assert (a + b)[1..] == a[1..] + b;
      ApplyConcat(Step(s, a[0]), a[1..], b);
    }
  }

  /**
   * A response whose request is no longer the latest when it arrives has no
   * effect at all: the run is the same as if it never arrived, whatever
   * follows it.
   */
  lemma StaleResponseIgnored(s: State, before: seq<Event>, id: int, outcome: Result<seq<string>, Failure>, after: seq<Event>)
    requires Apply(s, before).latest != id
    ensures Apply(s, before + [Settled(id, outcome)] + after) == Apply(s, before + after)
  {
    ApplyConcat(s, before + [Settled(id, outcome)], after);
    ApplyConcat(s, before, [Settled(id, outcome)]);
    ApplyConcat(s, before, after);
    assert Apply(Apply(s, before), [Settled(id, outcome)]) == Apply(s, before) by {
      assert [Settled(id, outcome)][1..] == [];
    }
  }

  /**
   * Latest wins: after two requests `a` then `b` (distinct ids, both long
   * enough to be sent), the state is the one `b`'s response produces, in
   * whichever order the two responses arrive.
   */
  lemma LatestWins(s: State, pa: Params, a: int, pb: Params, b: int, oa: Result<seq<string>, Failure>, ob: Result<seq<string>, Failure>)
    requires a != b && HasMinimumInput(pa.description) && HasMinimumInput(pb.description)
    ensures var started := Fetch(Fetch(s, pa, a).0, pb, b).0;
            && started.latest == b && started.loading
            && Settle(Settle(started, a, oa), b, ob) == Settle(started, b, ob)
            && Settle(Settle(started, b, ob), a, oa) == Settle(started, b, ob)
  {
  }

  /**
   * A fetch with a short description does not retire the pending request:
   * if it was the latest, its response still lands afterwards and brings its
   * suggestions back although the description is now too short.
   */
  lemma ShortInputKeepsPendingRequest(s: State, long: Params, a: int, short: Params, id: int, found: seq<string>)
    requires HasMinimumInput(long.description) && !HasMinimumInput(short.description)
    ensures var cleared := Fetch(Fetch(s, long, a).0, short, id).0;
            var r := Settle(cleared, a, Success(found));
            cleared.suggestions == [] && r.suggestions == found && !r.loading && r.latest == a
  {
  }
}

=== FILE: text.dfy ===
/**
 * The string primitives of the JavaScript runtime that the front end leans on:
 * `trim`, `startsWith`, `indexOf`, `split` on a one-character separator, and
 * `toUpperCase` (ASCII letters only).
 */
module Text {
  import opened Wrappers

  /** ECMAScript WhiteSpace and LineTerminator code points: what `String.prototype.trim` strips. */
  predicate IsSpace(c: char) {
    || c == '\t' || c == '\n' || c == '\U{000B}' || c == '\U{000C}' || c == '\r'
    || c == ' ' || c == '\U{00A0}' || c == '\U{1680}'
    || ('\U{2000}' <= c <= '\U{200A}')
    || c == '\U{2028}' || c == '\U{2029}' || c == '\U{202F}' || c == '\U{205F}'
    || c == '\U{3000}' || c == '\U{FEFF}'
  }

  /** Every character of `s` is white space (the empty string included). */
  predicate IsBlank(s: string) {
    forall i :: 0 <= i < |s| ==> IsSpace(s[i])
  }

  function TrimStart(s: string): (r: string)
    ensures |r| <= |s| && r == s[|s| - |r|..]
    ensures forall k :: 0 <= k < |s| - |r| ==> IsSpace(s[k])
    ensures r != [] ==> !IsSpace(r[0])
    decreases |s|
  {
    if s != [] && IsSpace(s[0]) then TrimStart(s[1..]) else s
  }

  function TrimEnd(s: string): (r: string)
    ensures |r| <= |s| && r == s[..|r|]
    ensures forall k :: |r| <= k < |s| ==> IsSpace(s[k])
    ensures r != [] ==> !IsSpace(r[|r| - 1])
    decreases |s|
  {
    if s != [] && IsSpace(s[|s| - 1]) then TrimEnd(s[..|s| - 1]) else s
  }

  /** How many white-space characters `s` starts with. */
  function LeadingSpace(s: string): (n: nat)
    ensures n <= |s|
  {
    |s| - |TrimStart(s)|
  }

  /** `s.trim()`: drops leading and trailing white space. */
  function Trim(s: string): (r: string)
    ensures |r| <= |s|
    ensures r == [] <==> IsBlank(s)
    ensures r != [] ==> !IsSpace(r[0]) && !IsSpace(r[|r| - 1])
  {
    var a := TrimStart(s);
    var r := TrimEnd(a);
    assert a != [] ==> a[0] == s[|s| - |a|];
    r
  }

  /**
   * What `trim` leaves is the slice of `s` that starts after its leading
   * white space, and only white space follows it. With the ends of `Trim`'s
   * result, which are not white space, this fixes the result for every string.
   */
  lemma TrimIsMiddle(s: string)
    ensures LeadingSpace(s) + |Trim(s)| <= |s|
    ensures Trim(s) == s[LeadingSpace(s)..LeadingSpace(s) + |Trim(s)|]
    ensures IsBlank(s[..LeadingSpace(s)])
    ensures IsBlank(s[LeadingSpace(s) + |Trim(s)|..])
  {
    var a := TrimStart(s);
    LeadIsBlank(s);
    TrailIsBlank(a);
    MiddleSlice(s, |s| - |a|, a, TrimEnd(a));
  }

  /** The white space `TrimStart` drops. */
  lemma LeadIsBlank(s: string)
    ensures IsBlank(s[..LeadingSpace(s)])
  {
    var i := LeadingSpace(s);
    assert forall k :: 0 <= k < i ==> s[..i][k] == s[k];
  }

  /** The white space `TrimEnd` drops. */
  lemma TrailIsBlank(a: string)
    ensures IsBlank(a[|TrimEnd(a)|..])
  {
    var j := |TrimEnd(a)|;
    assert forall k :: 0 <= k < |a| - j ==> a[j..][k] == a[j + k];
  }

  /** A prefix of a suffix is a middle slice, and what follows it is a suffix. */
  lemma MiddleSlice(s: string, i: nat, a: string, r: string)
    requires i <= |s| && a == s[i..] && |r| <= |a| && r == a[..|r|]
    ensures i + |r| <= |s| && r == s[i..i + |r|] && a[|r|..] == s[i + |r|..]
  {
  }

  /** A string with no white space at either end is its own trim. */
  lemma TrimOfTrimmed(s: string)
    requires s == [] || (!IsSpace(s[0]) && !IsSpace(s[|s| - 1]))
    ensures Trim(s) == s
  {
    TrimStartOfUnpadded(s);
    TrimEndOfUnpadded(s);
  }

  lemma TrimStartOfUnpadded(s: string)
    requires s == [] || !IsSpace(s[0])
    ensures TrimStart(s) == s
  {
  }

  lemma TrimEndOfUnpadded(s: string)
    requires s == [] || !IsSpace(s[|s| - 1])
    ensures TrimEnd(s) == s
  {
  }

  /** What trimming leaves starts and ends with a character other than white space. */
  lemma TrimHasNoPadding(s: string)
    ensures var t := Trim(s); t == [] || (!IsSpace(t[0]) && !IsSpace(t[|t| - 1]))
  {
  }

  /** Trimming is idempotent. */
  lemma TrimIdempotent(s: string)
    ensures Trim(Trim(s)) == Trim(s)
  {
    TrimHasNoPadding(s);
    TrimOfTrimmed(Trim(s));
  }

  /** `s.startsWith(p)`. */
  predicate StartsWith(s: string, p: string) {
    |p| <= |s| && s[..|p|] == p
  }

  /** `s.indexOf(c)`, with -1 rendered as None. */
  function IndexOf(s: string, c: char): (r: Option<nat>)
    ensures r.Some? ==> r.value < |s| && s[r.value] == c && c !in s[..r.value]
    ensures r.None? <==> c !in s
  {
    if s == [] then None
    else if s[0] == c then Some(0)
    else match IndexOf(s[1..], c)
      case None => None
      case Some(i) =>
        assert s[..i + 1] == [s[0]] + s[1..][..i];
        Some(i + 1)
  }

  /** `s.lastIndexOf(c)`, with -1 rendered as None. */
  function LastIndexOf(s: string, c: char): (r: Option<nat>)
    ensures r.Some? ==> r.value < |s| && s[r.value] == c && c !in s[r.value + 1..]
    ensures r.None? <==> c !in s
  {
    if s == [] then None
    else if s[|s| - 1] == c then Some(|s| - 1)
    else
      var r := LastIndexOf(s[..|s| - 1], c);
      assert c in s ==> r.Some? by {
        if c in s {
          var k :| 0 <= k < |s| && s[k] == c;
          if k < |s| - 1 {
            assert s[..|s| - 1][k] == c;
          }
        }
      }
      assert r.Some? ==> s[r.value + 1..] == s[..|s| - 1][r.value + 1..] + [s[|s| - 1]];
      r
  }

  /** The first occurrence is the only one with no earlier occurrence. */
  lemma {:induction false} IndexOfIs(s: string, c: char, j: nat)
    requires j < |s| && s[j] == c && c !in s[..j]
    ensures IndexOf(s, c) == Some(j)
    decreases j
  {
    if j > 0 {
      assert s[0] == s[..j][0];
      assert s[1..][..j - 1] == s[..j][1..];
      IndexOfIs(s[1..], c, j - 1);
    }
  }

  /** The last occurrence is the only one with no later occurrence. */
  lemma {:induction false} LastIndexOfIs(s: string, c: char, k: nat)
    requires k < |s| && s[k] == c && c !in s[k + 1..]
    ensures LastIndexOf(s, c) == Some(k)
    decreases |s| - k
  {
    if k < |s| - 1 {
      assert s[|s| - 1] == s[k + 1..][|s| - 1 - (k + 1)];
      var s' := s[..|s| - 1];
      assert s'[k + 1..] == s[k + 1..][..|s| - 1 - (k + 1)];
      LastIndexOfIs(s', c, k);
    }
  }

  /** Number of occurrences of `c` in `s`. */
  function Count(s: string, c: char): nat {
    if s == [] then 0 else (if s[0] == c then 1 else 0) + Count(s[1..], c)
  }

  lemma {:induction false} CountAbsent(s: string, c: char)
    requires c !in s
    ensures Count(s, c) == 0
    decreases |s|
  {
    if s != [] {
      assert c !in s[1..];
      CountAbsent(s[1..], c);
    }
  }

  lemma {:induction false} CountConcat(a: string, b: string, c: char)
    ensures Count(a + b, c) == Count(a, c) + Count(b, c)
    decreases |a|
  {
    if a != [] {
      assert (a + b)[1..] == a[1..] + b;
      CountConcat(a[1..], b, c);
    } else {
      assert a + b == b;
    }
  }

  /** Splitting at the first occurrence removes exactly one occurrence. */
  lemma CountAtFirst(s: string, c: char, i: nat)
    requires i < |s| && s[i] == c && c !in s[..i]
    ensures Count(s, c) == 1 + Count(s[i + 1..], c)
  {
    assert s == s[..i] + ([c] + s[i + 1..]);
    CountConcat(s[..i], [c] + s[i + 1..], c);
    CountAbsent(s[..i], c);
    assert ([c] + s[i + 1..])[1..] == s[i + 1..];
  }

  /** `s.split(c)` for a one-character separator. */
  function Split(s: string, c: char): (parts: seq<string>)
    ensures |parts| == Count(s, c) + 1
    ensures forall k :: 0 <= k < |parts| ==> c !in parts[k]
    decreases |s|
  {
    match IndexOf(s, c)
    case None =>
      CountAbsent(s, c);
      [s]
    case Some(i) =>
      CountAtFirst(s, c, i);
      [s[..i]] + Split(s[i + 1..], c)
  }

  /** `parts.join(c)`: the inverse of Split. */
  function Join(parts: seq<string>, c: char): string
    requires |parts| >= 1
  {
    if |parts| == 1 then parts[0] else parts[0] + [c] + Join(parts[1..], c)
  }

  /** Splitting at the first separator gives the text before it, then the split of the rest. */
  lemma SplitAtFirst(s: string, c: char, i: nat)
    requires IndexOf(s, c) == Some(i)
    ensures Split(s, c) == [s[..i]] + Split(s[i + 1..], c)
  {
  }

  lemma JoinCons(p: string, ps: seq<string>, c: char)
    requires |ps| >= 1
    ensures Join([p] + ps, c) == p + [c] + Join(ps, c)
  {
    assert ([p] + ps)[1..] == ps;
  }

  /** Joining the pieces of a split gives back the original string. */
  lemma {:induction false} JoinSplit(s: string, c: char)
    ensures Join(Split(s, c), c) == s
    decreases |s|
  {
    match IndexOf(s, c)
    case None =>
    case Some(i) =>
      var rest := s[i + 1..];
      SplitAtFirst(s, c, i);
      JoinSplit(rest, c);
      JoinCons(s[..i], Split(rest, c), c);
      AroundIndex(s, i);
  }

  lemma AroundIndex(s: string, i: nat)
    requires i < |s|
    ensures s == s[..i] + [s[i]] + s[i + 1..]
  {
  }

  /** Splitting a join of separator-free pieces gives back the pieces. */
  lemma {:induction false} SplitJoin(parts: seq<string>, c: char)
    requires |parts| >= 1
    requires forall k :: 0 <= k < |parts| ==> c !in parts[k]
    ensures Split(Join(parts, c), c) == parts
    decreases |parts|
  {
    var s := Join(parts, c);
    if |parts| == 1 {
      assert IndexOf(s, c).None?;
    } else {
      var p := parts[0];
      var rest := Join(parts[1..], c);
      assert s == p + [c] + rest;
      assert s[|p|] == c;
      assert s[..|p|] == p;
      IndexOfIs(s, c, |p|);
      assert s[|p| + 1..] == rest;
      SplitJoin(parts[1..], c);
    }
  }

  /** The first piece of a split is the text before the first separator. */
  lemma SplitFirst(s: string, c: char)
    ensures IndexOf(s, c).None? ==> Split(s, c) == [s]
    ensures IndexOf(s, c).Some? ==> Split(s, c)[0] == s[..IndexOf(s, c).value]
  {
  }

  /** Joining one more piece appends the separator and that piece. */
  lemma {:induction false} JoinSnoc(ps: seq<string>, p: string, c: char)
    requires |ps| >= 1
    ensures Join(ps + [p], c) == Join(ps, c) + [c] + p
    decreases |ps|
  {
    if |ps| == 1 {
      assert (ps + [p])[1..] == [p];
    } else {
      assert (ps + [p])[1..] == ps[1..] + [p];
      JoinSnoc(ps[1..], p, c);
    }
  }

  /** The last piece of a split is the text after the last separator. */
  lemma SplitLast(s: string, c: char, j: nat)
    requires LastIndexOf(s, c) == Some(j)
    ensures Split(s, c)[|Split(s, c)| - 1] == s[j + 1..]
  {
    var parts := Split(s, c);
    var n := |parts|;
    SplitOfSeparated(s, c, j);
    JoinFrontLast(s, c);
    assert c !in parts[n - 1];
    PieceAfterLastSeparator(s, c, j, Join(parts[..n - 1], c), parts[n - 1]);
  }

  /** Whatever precedes it, the piece after the last separator is the text after that separator. */
  lemma PieceAfterLastSeparator(s: string, c: char, j: nat, front: string, last: string)
    requires LastIndexOf(s, c) == Some(j)
    requires s == front + [c] + last && c !in last
    ensures last == s[j + 1..]
  {
    SeparatorBeforeLast(front, last, c);
  }

  /** A string holding the separator splits into at least two pieces. */
  lemma SplitOfSeparated(s: string, c: char, j: nat)
    requires j < |s| && s[j] == c
    ensures |Split(s, c)| >= 2
  {
    CountAtFirst(s, c, IndexOf(s, c).value);
  }

  /** A split of two or more pieces rejoins as its front pieces, a separator and its last piece. */
  lemma JoinFrontLast(s: string, c: char)
    requires |Split(s, c)| >= 2
    ensures var parts := Split(s, c);
            s == Join(parts[..|parts| - 1], c) + [c] + parts[|parts| - 1]
  {
    var parts := Split(s, c);
    var n := |parts|;
    assert parts == parts[..n - 1] + [parts[n - 1]];
    JoinSnoc(parts[..n - 1], parts[n - 1], c);
    JoinSplit(s, c);
  }

  /** In `a + [c] + b` with no `c` in `b`, the last `c` is the one just after `a`. */
  lemma SeparatorBeforeLast(a: string, b: string, c: char)
    requires c !in b
    ensures LastIndexOf(a + [c] + b, c) == Some(|a|)
    ensures (a + [c] + b)[|a| + 1..] == b
  {
    var w := a + [c] + b;
    assert w[|a| + 1..] == b;
    LastIndexOfIs(w, c, |a|);
  }

  /** Every character lies in the Basic Multilingual Plane, so each is one UTF-16 code unit. */
  predicate InBmp(s: string) {
    forall i :: 0 <= i < |s| ==> s[i] as int <= 0xFFFF
  }

  /** `s.length`: UTF-16 code units, two for a character outside the Basic Multilingual Plane. */
  function CodeUnits(s: string): (n: nat)
    ensures |s| <= n <= 2 * |s|
    ensures InBmp(s) ==> n == |s|
    decreases |s|
  {
    if s == [] then 0 else (if s[0] as int > 0xFFFF then 2 else 1) + CodeUnits(s[1..])
  }

  /** One character is two code units outside the Basic Multilingual Plane and one inside. */
  lemma CodeUnitsOfChar(c: char)
    ensures CodeUnits([c]) == if c as int > 0xFFFF then 2 else 1
  {
    assert [c][1..] == [];
  }

  /** `.length` adds up over concatenation; with `CodeUnitsOfChar` this fixes the count of every string. */
  lemma {:induction false} CodeUnitsConcat(a: string, b: string)
    ensures CodeUnits(a + b) == CodeUnits(a) + CodeUnits(b)
    decreases |a|
  {
    if a == [] {
      assert a + b == b;
    } else {
      assert (a + b)[0] == a[0];
      assert (a + b)[1..] == a[1..] + b;
      CodeUnitsConcat(a[1..], b);
    }
  }

  /** `toUpperCase` on one character, for the ASCII letters. */
  function AsciiUpper(c: char): char {
    if 'a' <= c <= 'z' then (c as int - 32) as char else c
  }

  function Upper(s: string): (r: string)
    ensures |r| == |s|
    ensures forall i :: 0 <= i < |s| ==> r[i] == AsciiUpper(s[i])
  {
    seq(|s|, i requires 0 <= i < |s| => AsciiUpper(s[i]))
  }

  /** Upper-casing an upper-cased string changes nothing. */
  lemma UpperIdempotent(s: string)
    ensures Upper(Upper(s)) == Upper(s)
  {
  }

  /** Upper-casing works character by character, so it distributes over concatenation. */
  lemma UpperConcat(a: string, b: string)
    ensures Upper(a + b) == Upper(a) + Upper(b)
  {
  }
}

=== FILE: upload_slots.dfy ===
/**
 * The list of image-upload slots behind the create-listing form
 * (`use-create-listing.ts` and its duplicate in `create-listing-form.tsx`).
 * Picking files appends one loading placeholder per file; the files are then
 * uploaded one at a time, and each result either fills the slot at index
 * `prev.length - files.length + i` or splices that slot out.
 */
module UploadSlots {
  import opened Wrappers

  /** One thumbnail: its id, its URL once uploaded, and whether it is still uploading. */
  datatype Slot = Slot(id: string, url: Option<string>, loading: bool)

  /** What awaiting `uploadImage(file)` gave: a value (a URL or null), or an exception. */
  datatype UploadResult = Returned(url: Option<string>) | Threw

  /** JavaScript truthiness of a `string | null`: present and non-empty. */
  predicate Truthy(url: Option<string>) {
    url.Some? && url.value != ""
  }

  /** A slot whose upload has not finished. */
  function Placeholder(id: string): Slot {
    Slot(id, None, true)
  }

  /** One loading placeholder per picked file, in file order. */
  function Placeholders(ids: seq<string>): (r: seq<Slot>)
    ensures |r| == |ids|
    ensures forall k :: 0 <= k < |r| ==> r[k] == Placeholder(ids[k])
  {
    seq(|ids|, k requires 0 <= k < |ids| => Placeholder(ids[k]))
  }

  /** Slot ids are unique (each embeds a timestamp and a random number). */
  predicate DistinctIds(slots: seq<Slot>) {
    forall p, q :: 0 <= p < q < |slots| ==> slots[p].id != slots[q].id
  }

  // ----- one step of the upload loop, as written -----

  /**
   * `Array.prototype.splice(k, 1)`: a negative start counts back from the end
   * (clamped at 0), and a start at or past the end removes nothing.
   */
  function SpliceOne(s: seq<Slot>, k: int): (r: seq<Slot>)
    ensures 0 <= k < |s| ==> r == s[..k] + s[k + 1..]
    ensures k >= |s| ==> r == s
    ensures k < 0 && 0 <= |s| + k ==> r == s[..|s| + k] + s[|s| + k + 1..]
    ensures k < 0 && |s| + k < 0 && s != [] ==> r == s[1..]
  {
    var start := if k >= 0 then k else if |s| + k >= 0 then |s| + k else 0;
    if start < |s| then s[..start] + s[start + 1..] else s
  }

  /** The index the loop writes for file `i` of an `n`-file batch: `prev.length - files.length + i`. */
  function SlotIndex(cur: seq<Slot>, n: nat, i: nat): int {
    |cur| - n + i
  }

  /**
   * The state update after file `i` of `n` returned `url`: a truthy URL fills
   * the slot at `SlotIndex` and clears its loading flag (keeping its id); a
   * falsy one splices that slot out. A negative index is written as an array
   * property, which leaves the elements as they are.
   */
  function UploadStep(cur: seq<Slot>, n: nat, i: nat, url: Option<string>): (r: seq<Slot>)
    requires i < n
    ensures Truthy(url) ==> |r| == |cur|
    ensures !Truthy(url) && cur != [] ==> |r| == |cur| - 1
    ensures forall s :: s in r && s !in cur ==>
              var k := SlotIndex(cur, n, i); 0 <= k < |cur| && s == cur[k].(url := url, loading := false)
  {
    var k := SlotIndex(cur, n, i);
    if Truthy(url) then
      if k >= 0 then cur[k := cur[k].(url := url, loading := false)] else cur
    else SpliceOne(cur, k)
  }

  /** What one file leaves behind once its upload returned: a filled slot, or nothing. */
  function Outcome(id: string, result: UploadResult): (r: seq<Slot>)
    ensures |r| <= 1
    ensures r != [] <==> result.Returned? && Truthy(result.url)
  {
    if result.Returned? && Truthy(result.url) then [Slot(id, result.url, false)] else []
  }

  /** The slots a batch leaves once every one of its uploads has returned, in file order. */
  function Completed(ids: seq<string>, results: seq<UploadResult>): (r: seq<Slot>)
    requires |results| == |ids|
    ensures |r| <= |ids|
    decreases |ids|
  {
    if ids == [] then []
    else Outcome(ids[0], results[0]) + Completed(ids[1..], results[1..])
  }

  /** Every completed slot is finished and has a URL. */
  lemma {:induction false} CompletedFinished(ids: seq<string>, results: seq<UploadResult>)
    requires |results| == |ids|
    ensures forall s :: s in Completed(ids, results) ==> !s.loading && Truthy(s.url)
    decreases |ids|
  {
    if ids != [] {
      CompletedFinished(ids[1..], results[1..]);
    }
  }

  /** Every file whose upload returned a truthy URL has its filled slot among the completed ones. */
  lemma {:induction false} CompletedKeepsSuccess(ids: seq<string>, results: seq<UploadResult>, j: nat)
    requires |results| == |ids| && j < |ids| && results[j].Returned? && Truthy(results[j].url)
    ensures Slot(ids[j], results[j].url, false) in Completed(ids, results)
    decreases |ids|
  {
    if j > 0 {
      assert ids[1..][j - 1] == ids[j] && results[1..][j - 1] == results[j];
      CompletedKeepsSuccess(ids[1..], results[1..], j - 1);
    }
  }

  /** Every completed slot is the filled slot of a file whose upload returned a truthy URL. */
  lemma {:induction false} CompletedFromSuccess(ids: seq<string>, results: seq<UploadResult>, s: Slot)
    requires |results| == |ids| && s in Completed(ids, results)
    ensures exists j :: 0 <= j < |ids| && ids[j] == s.id && results[j].Returned? && Truthy(results[j].url) && s.url == results[j].url
    decreases |ids|
  {
    if s in Outcome(ids[0], results[0]) {
      assert s.id == ids[0];
    } else {
      var ids', results' := ids[1..], results[1..];
      CompletedFromSuccess(ids', results', s);
      var j :| 0 <= j < |ids'| && ids'[j] == s.id && results'[j].Returned? && Truthy(results'[j].url) && s.url == results'[j].url;
      assert ids[j + 1] == s.id && results[j + 1] == results'[j];
    }
  }

  /** Completing two consecutive groups of files is completing them in turn: slot order follows file order. */
  lemma {:induction false} CompletedConcat(a: seq<string>, ra: seq<UploadResult>, b: seq<string>, rb: seq<UploadResult>)
    requires |ra| == |a| && |rb| == |b|
    ensures Completed(a + b, ra + rb) == Completed(a, ra) + Completed(b, rb)
    decreases |a|
  {
    if a == [] {
      assert a + b == b && ra + rb == rb;
    } else {
      assert (a + b)[0] == a[0] && (ra + rb)[0] == ra[0];
      assert (a + b)[1..] == a[1..] + b && (ra + rb)[1..] == ra[1..] + rb;
      CompletedConcat(a[1..], ra[1..], b, rb);
    }
  }

  /** The pending placeholders of files `i..` of the batch `ids` are the last slots of `cur`. */
  predicate PendingTail(cur: seq<Slot>, ids: seq<string>, i: nat) {
    i <= |ids| && |ids| - i <= |cur| && cur[|cur| - (|ids| - i)..] == Placeholders(ids[i..])
  }

  /**
   * Whenever the batch's unfinished placeholders are still the tail of the
   * list (whatever came before them, and however many earlier slots were
   * removed), the index `prev.length - files.length + i` is that of file `i`'s own placeholder.
   */
  lemma SlotIndexHitsFile(cur: seq<Slot>, ids: seq<string>, i: nat)
    requires i < |ids| && PendingTail(cur, ids, i)
    ensures 0 <= SlotIndex(cur, |ids|, i) < |cur|
    ensures cur[SlotIndex(cur, |ids|, i)] == Placeholder(ids[i])
  {
    var t := |cur| - (|ids| - i);
    assert cur[t] == cur[t..][0] == Placeholders(ids[i..])[0];
  }

  /** A step whose index is in range replaces that slot by the file's outcome. */
  lemma StepReplacesSlot(cur: seq<Slot>, n: nat, i: nat, id: string, result: UploadResult)
    requires i < n && 0 <= SlotIndex(cur, n, i) < |cur| && result.Returned?
    requires cur[SlotIndex(cur, n, i)] == Placeholder(id)
    ensures var k := SlotIndex(cur, n, i);
            UploadStep(cur, n, i, result.url) == cur[..k] + Outcome(id, result) + cur[k + 1..]
  {
    var k := SlotIndex(cur, n, i);
    if Truthy(result.url) {
      var filled := Slot(id, result.url, false);
      assert cur[k].(url := result.url, loading := false) == filled;
      assert cur[k := filled] == cur[..k] + [filled] + cur[k + 1..];
    } else {
      assert Outcome(id, result) == [];
    }
  }

  /** The last `|b|` elements of `a + b` are `b`. */
  lemma TailOfConcat<T>(a: seq<T>, b: seq<T>)
    ensures (a + b)[|a + b| - |b|..] == b
  {
  }

  /** A step on a pending tail replaces file `i`'s placeholder by its outcome and leaves the rest of the batch pending. */
  lemma StepOnPendingTail(cur: seq<Slot>, ids: seq<string>, i: nat, result: UploadResult)
    requires i < |ids| && PendingTail(cur, ids, i) && result.Returned?
    ensures var k := SlotIndex(cur, |ids|, i);
            0 <= k < |cur| &&
            UploadStep(cur, |ids|, i, result.url) == cur[..k] + Outcome(ids[i], result) + cur[k + 1..]
    ensures PendingTail(UploadStep(cur, |ids|, i, result.url), ids, i + 1)
  {
    SlotIndexHitsFile(cur, ids, i);
    var k := SlotIndex(cur, |ids|, i);
    StepReplacesSlot(cur, |ids|, i, ids[i], result);
    var rest := Placeholders(ids[i + 1..]);
    assert cur[k + 1..] == rest by {
      assert cur[k + 1..] == cur[k..][1..];
      assert Placeholders(ids[i..])[1..] == rest;
    }
    TailOfConcat(cur[..k] + Outcome(ids[i], result), rest);
  }

  /** Completing one more file appends its outcome. */
  lemma CompletedSnoc(ids: seq<string>, results: seq<UploadResult>, i: nat)
    requires |results| == |ids| && i < |ids|
    ensures Completed(ids[..i + 1], results[..i + 1]) == Completed(ids[..i], results[..i]) + Outcome(ids[i], results[i])
  {
    assert ids[..i + 1] == ids[..i] + [ids[i]] && results[..i + 1] == results[..i] + [results[i]];
    CompletedConcat(ids[..i], results[..i], [ids[i]], [results[i]]);
    assert Completed([ids[i]], [results[i]]) == Outcome(ids[i], results[i]) by {
      assert [ids[i]][1..] == [] && [results[i]][1..] == [];
    }
  }

  /** The first `|a|` elements of `a + b` are `a`. */
  lemma PrefixOfConcat<T>(a: seq<T>, b: seq<T>)
    ensures (a + b)[..|a|] == a
  {
  }

  /** Past file `i`'s placeholder come the placeholders of the files after it. */
  lemma PlaceholdersAfter(done: seq<Slot>, ids: seq<string>, i: nat)
    requires i < |ids|
    ensures (done + Placeholders(ids[i..]))[|done| + 1..] == Placeholders(ids[i + 1..])
  {
    var pending := Placeholders(ids[i..]);
    assert (done + pending)[|done| + 1..] == pending[1..];
    assert pending[1..] == Placeholders(ids[i + 1..]);
  }

  /** A batch's placeholders appended to any slots form a pending tail. */
  lemma AppendedIsPendingTail(done: seq<Slot>, ids: seq<string>, i: nat)
    requires i <= |ids|
    ensures PendingTail(done + Placeholders(ids[i..]), ids, i)
  {
    TailOfConcat(done, Placeholders(ids[i..]));
  }

  /** The loop invariant advances by one file. */
  lemma StepAdvances(prev: seq<Slot>, ids: seq<string>, results: seq<UploadResult>, i: nat)
    requires |results| == |ids| && i < |ids| && results[i].Returned?
    ensures UploadStep(prev + Completed(ids[..i], results[..i]) + Placeholders(ids[i..]), |ids|, i, results[i].url)
            == prev + Completed(ids[..i + 1], results[..i + 1]) + Placeholders(ids[i + 1..])
  {
    var done := prev + Completed(ids[..i], results[..i]);
    var cur := done + Placeholders(ids[i..]);
    AppendedIsPendingTail(done, ids, i);
    StepOnPendingTail(cur, ids, i, results[i]);
    PrefixOfConcat(done, Placeholders(ids[i..]));
    PlaceholdersAfter(done, ids, i);
    CompletedSnoc(ids, results, i);
  }

  /**
   * `handleImageUpload` for one picked batch, with no other edit in between:
   * append the placeholders, then upload the files in order until one throws
   * (the exception ends the loop). `processed` counts the files whose upload
   * returned; the slots are the earlier ones unchanged, then the completed
   * slots of those files, then the placeholders of the rest.
   */
  method RunUploads(prev: seq<Slot>, ids: seq<string>, results: seq<UploadResult>) returns (slots: seq<Slot>, processed: nat)
    requires |results| == |ids|
    ensures processed <= |ids|
    ensures forall j :: 0 <= j < processed ==> results[j].Returned?
    ensures processed < |ids| ==> results[processed].Threw?
    ensures slots == prev + Completed(ids[..processed], results[..processed]) + Placeholders(ids[processed..])
  {
    slots := prev + Placeholders(ids);
    processed := 0;
    assert ids[..0] == [] && results[..0] == [] && ids[0..] == ids;
    while processed < |ids| && results[processed].Returned?
      invariant processed <= |ids|
      invariant forall j :: 0 <= j < processed ==> results[j].Returned?
      invariant slots == prev + Completed(ids[..processed], results[..processed]) + Placeholders(ids[processed..])
      decreases |ids| - processed
    {
      StepAdvances(prev, ids, results, processed);
      slots := UploadStep(slots, |ids|, processed, results[processed].url);
      processed := processed + 1;
    }
  }

  /** With every upload returning, the batch ends as the completed slots after the untouched earlier ones. */
  lemma AllReturned(prev: seq<Slot>, ids: seq<string>, results: seq<UploadResult>, slots: seq<Slot>, processed: nat)
    requires |results| == |ids| && processed == |ids|
    requires slots == prev + Completed(ids[..processed], results[..processed]) + Placeholders(ids[processed..])
    ensures slots[..|prev|] == prev
    ensures slots[|prev|..] == Completed(ids, results)
    ensures forall s :: s in slots[|prev|..] ==> !s.loading && Truthy(s.url)
  {
    assert ids[..processed] == ids && results[..processed] == results && ids[processed..] == [];
    assert Placeholders([]) == [];
    CompletedFinished(ids, results);
  }

  // ----- removal -----

  /** `prev.filter(slot => slot.id !== id)`. */
  function RemoveImage(slots: seq<Slot>, id: string): (r: seq<Slot>)
    ensures |r| <= |slots|
    ensures forall s :: s in r <==> s in slots && s.id != id
  {
    if slots == [] then []
    else (if slots[0].id == id then [] else [slots[0]]) + RemoveImage(slots[1..], id)
  }

  /** Removal works slot by slot, so the survivors keep their order. */
  lemma {:induction false} RemoveImageConcat(a: seq<Slot>, b: seq<Slot>, id: string)
    ensures RemoveImage(a + b, id) == RemoveImage(a, id) + RemoveImage(b, id)
    decreases |a|
  {
    if a == [] {
      assert a + b == b;
    } else {
      assert (a + b)[0] == a[0];
      assert (a + b)[1..] == a[1..] + b;
      RemoveImageConcat(a[1..], b, id);
    }
  }

  /** Removing an id no slot carries changes nothing. */
  lemma {:induction false} RemoveAbsent(slots: seq<Slot>, id: string)
    requires forall k :: 0 <= k < |slots| ==> slots[k].id != id
    ensures RemoveImage(slots, id) == slots
    decreases |slots|
  {
    if slots != [] {
      RemoveAbsent(slots[1..], id);
    }
  }

  /** The remove control is offered only on a finished slot with a URL. */
  predicate RemoveControlShown(s: Slot) {
    !s.loading && Truthy(s.url)
  }

  /** Removing an id that only occurs before position `t` leaves the slots from `t` on as they are. */
  lemma RemoveBefore(cur: seq<Slot>, t: nat, id: string)
    requires t <= |cur|
    requires forall q :: t <= q < |cur| ==> cur[q].id != id
    ensures RemoveImage(cur, id) == RemoveImage(cur[..t], id) + cur[t..]
  {
    var tail := cur[t..];
    assert forall k :: 0 <= k < |tail| ==> tail[k] == cur[t + k];
    RemoveAbsent(tail, id);
    assert cur == cur[..t] + tail;
    RemoveImageConcat(cur[..t], tail, id);
  }

  /** A sequence is its part before `k`, its element at `k`, and its part after. */
  lemma SplitAround<T>(xs: seq<T>, k: nat)
    requires k < |xs|
    ensures xs == xs[..k] + ([xs[k]] + xs[k + 1..])
  {
  }

  /** Removing the one slot that carries `id` is splicing it out. */
  lemma {:induction false} RemoveUnique(cur: seq<Slot>, k: nat, id: string)
    requires k < |cur| && cur[k].id == id
    requires forall p :: 0 <= p < |cur| && p != k ==> cur[p].id != id
    ensures RemoveImage(cur, id) == cur[..k] + cur[k + 1..]
  {
    var before, after := cur[..k], cur[k + 1..];
    SplitAround(cur, k);
    assert RemoveImage(before, id) == before by {
      assert forall p :: 0 <= p < |before| ==> before[p] == cur[p];
      RemoveAbsent(before, id);
    }
    assert RemoveImage([cur[k]] + after, id) == after by {
      assert forall p :: 0 <= p < |after| ==> after[p] == cur[k + 1 + p];
      RemoveAbsent(after, id);
      RemoveImageConcat([cur[k]], after, id);
      assert [cur[k]][1..] == [];
    }
    RemoveImageConcat(before, [cur[k]] + after, id);
  }

  /**
   * Removing a slot through its remove control while a batch uploads keeps
   * that batch's pending placeholders at the tail, so the index arithmetic
   * stays correct: the control is never offered on a pending placeholder.
   */
  lemma RemoveViaControlKeepsPendingTail(cur: seq<Slot>, ids: seq<string>, i: nat, p: nat)
    requires PendingTail(cur, ids, i) && DistinctIds(cur)
    requires p < |cur| && RemoveControlShown(cur[p])
    ensures PendingTail(RemoveImage(cur, cur[p].id), ids, i)
  {
    var t := |cur| - (|ids| - i);
    assert p < t by {
      assert forall q :: t <= q < |cur| ==> cur[q] == cur[t..][q - t] && cur[q].loading;
    }
    RemoveBefore(cur, t, cur[p].id);
    var r := RemoveImage(cur, cur[p].id);
    assert r[|r| - |cur[t..]|..] == cur[t..];
  }

  // ----- a second batch picked while one uploads -----

  /**
   * As written, a batch that is picked while another still uploads breaks the
   * index: file "a" of a one-file batch, whose placeholder is followed by the
   * placeholder of a later one-file batch "b", writes its URL into "b"'s slot
   * and leaves its own slot loading.
   */
  lemma ConcurrentBatchMisroutes()
    ensures UploadStep([Placeholder("a"), Placeholder("b")], 1, 0, Some("https://img/a"))
            == [Placeholder("a"), Slot("b", Some("https://img/a"), false)]
  {
  }

  /** Fills the slot carrying `id`, keeping its position and id. */
  function FillById(cur: seq<Slot>, id: string, url: Option<string>): (r: seq<Slot>)
    ensures |r| == |cur|
    ensures forall p :: 0 <= p < |r| ==> r[p] == (if cur[p].id == id then cur[p].(url := url, loading := false) else cur[p])
  {
    seq(|cur|, p requires 0 <= p < |cur| => if cur[p].id == id then cur[p].(url := url, loading := false) else cur[p])
  }

  /**
   * The step as evidently intended: locate file `i`'s slot by the id its
   * placeholder was given rather than by position.
   */
  function UploadStepById(cur: seq<Slot>, id: string, url: Option<string>): (r: seq<Slot>)
    ensures forall p :: 0 <= p < |cur| && cur[p].id != id ==> cur[p] in r
    ensures forall s :: s in r && s.id != id ==> s in cur
    ensures Truthy(url) ==> forall s :: s in r && s.id == id ==> s.url == url && !s.loading
    ensures !Truthy(url) ==> forall s :: s in r ==> s.id != id
  {
    if Truthy(url) then FillById(cur, id, url) else RemoveImage(cur, id)
  }

  /** On the sequential path the id-based step does exactly what the index-based one does. */
  lemma ByIdAgreesWithIndex(cur: seq<Slot>, ids: seq<string>, i: nat, url: Option<string>)
    requires i < |ids| && PendingTail(cur, ids, i) && DistinctIds(cur)
    ensures UploadStepById(cur, ids[i], url) == UploadStep(cur, |ids|, i, url)
  {
    SlotIndexHitsFile(cur, ids, i);
    var k := SlotIndex(cur, |ids|, i);
    assert forall p :: 0 <= p < |cur| && p != k ==> cur[p].id != ids[i];
    if Truthy(url) {
      assert FillById(cur, ids[i], url) == cur[k := cur[k].(url := url, loading := false)];
    } else {
      RemoveUnique(cur, k, ids[i]);
    }
  }

  /** The id-based step lands on file "a"'s own slot in the interleaving that misroutes the index-based one. */
  lemma ByIdRoutesConcurrentBatch()
    ensures UploadStepById([Placeholder("a"), Placeholder("b")], "a", Some("https://img/a"))
            == [Slot("a", Some("https://img/a"), false), Placeholder("b")]
  {
    var r := UploadStepById([Placeholder("a"), Placeholder("b")], "a", Some("https://img/a"));
    assert r[0] == Slot("a", Some("https://img/a"), false);
    assert r[1] == Placeholder("b");
  }
}

=== FILE: user_menu.dfy ===
/**
 * The header's user menu (`src/app/market/_components/user-menu.tsx`): which
 * of its three faces it shows, and the initials in the avatar.
 */
module UserMenu {
  import opened Wrappers
  import opened Text

  /** The signed-in user's profile as the menu reads it. */
  datatype DbUser = DbUser(name: string, email: Option<string>, avatarUrl: Option<string>)

  datatype MenuView =
    | Skeleton
    | SignInLink(href: string)
    | Menu(initials: string, displayName: string, email: string)

  /** The first character of every non-empty piece, in order: `map((n) => n[0]).join("")`. */
  function FirstChars(pieces: seq<string>): (r: string)
    ensures |r| <= |pieces|
    decreases |pieces|
  {
    if pieces == [] then ""
    else (if pieces[0] == "" then "" else [pieces[0][0]]) + FirstChars(pieces[1..])
  }

  /**
   * An independent reading of the same thing: the characters that begin a
   * word, where a word begins at a non-space character that is first or
   * follows a space. `atStart` says whether the previous character was a
   * space (or there was none).
   */
  function WordStarts(s: string, atStart: bool): (r: string)
    ensures |r| <= |s|
    ensures ' ' !in r
    decreases |s|
  {
    if s == [] then ""
    else if s[0] == ' ' then WordStarts(s[1..], true)
    else (if atStart then [s[0]] else "") + WordStarts(s[1..], false)
  }

  /** A word with no spaces contributes its first character when it starts one. */
  lemma {:induction false} WordStartsOfWord(w: string, atStart: bool)
    requires ' ' !in w
    ensures WordStarts(w, atStart) == (if atStart && w != [] then [w[0]] else [])
    decreases |w|
  {
    if w != [] {
      WordStartsOfWord(w[1..], false);
    }
  }

  /** Scanning a word and then a space leaves the scan at the start of a new word. */
  lemma {:induction false} WordStartsAcrossSpace(w: string, t: string, atStart: bool)
    requires ' ' !in w
    ensures WordStarts(w + [' '] + t, atStart) == (if atStart && w != [] then [w[0]] else []) + WordStarts(t, true)
    decreases |w|
  {
    var s := w + [' '] + t;
    if w == [] {
      assert s[1..] == t;
    } else {
      assert s[1..] == w[1..] + [' '] + t;
      WordStartsAcrossSpace(w[1..], t, false);
    }
  }

  /** The first character of a word, if it has one. */
  function Head(w: string): (r: string)
    ensures |r| <= 1 && (r == [] <==> w == [])
  {
    if w == [] then [] else [w[0]]
  }

  /** Splitting contributes the first piece's head, then continues after the first space. */
  lemma FirstCharsStep(s: string, i: nat)
    requires IndexOf(s, ' ') == Some(i)
    ensures FirstChars(Split(s, ' ')) == Head(s[..i]) + FirstChars(Split(s[i + 1..], ' '))
  {
    var rest := Split(s[i + 1..], ' ');
    SplitAtFirst(s, ' ', i);
    assert ([s[..i]] + rest)[1..] == rest;
  }

  /** The word scan contributes the first word's head, then restarts after the first space. */
  lemma WordStartsStep(s: string, i: nat)
    requires IndexOf(s, ' ') == Some(i)
    ensures WordStarts(s, true) == Head(s[..i]) + WordStarts(s[i + 1..], true)
  {
    assert s == s[..i] + [' '] + s[i + 1..];
    WordStartsAcrossSpace(s[..i], s[i + 1..], true);
  }

  /** Splitting on " " and keeping each piece's first character picks exactly the word starts. */
  lemma {:induction false} FirstCharsOfSplit(s: string)
    ensures FirstChars(Split(s, ' ')) == WordStarts(s, true)
    decreases |s|
  {
    match IndexOf(s, ' ')
    case None =>
      SplitFirst(s, ' ');
      WordStartsOfWord(s, true);
    case Some(i) =>
      FirstCharsStep(s, i);
      WordStartsStep(s, i);
      FirstCharsOfSplit(s[i + 1..]);
  }

  /** `(displayName || "U").split(" ").map((n) => n[0]).join("").toUpperCase()`. */
  function Initials(name: string): (r: string)
    ensures name == "" ==> r == "U"
    ensures |r| <= Count(if name == "" then "U" else name, ' ') + 1
  {
    Upper(FirstChars(Split(if name == "" then "U" else name, ' ')))
  }

  /** The initials are the upper-cased first letters of the name's words, one per word. */
  lemma InitialsAreWordStarts(name: string)
    requires name != ""
    ensures Initials(name) == Upper(WordStarts(name, true))
    ensures ' ' !in Initials(name)
  {
    FirstCharsOfSplit(name);
    var r := Initials(name);
    forall k | 0 <= k < |r| ensures r[k] != ' ' {
      assert WordStarts(name, true)[k] != ' ';
    }
  }

  /** A name of spaces only has no word, so the avatar shows no initials at all. */
  lemma BlankNameHasNoInitials(n: nat)
    ensures Initials(seq(n + 1, _ => ' ')) == ""
  {
    var name := seq(n + 1, _ => ' ');
    InitialsAreWordStarts(name);
    SpacesHaveNoWordStarts(name, true);
  }

  lemma {:induction false} SpacesHaveNoWordStarts(s: string, atStart: bool)
    requires forall k :: 0 <= k < |s| ==> s[k] == ' '
    ensures WordStarts(s, atStart) == ""
    decreases |s|
  {
    if s != [] {
      SpacesHaveNoWordStarts(s[1..], true);
    }
  }

  /**
   * The menu: a skeleton while the profile loads, whoever is signed in; the
   * sign-in link when there is no profile; otherwise the menu with the
   * initials, the name and the email (an absent or empty email shows as "").
   */
  function View(loading: bool, dbUser: Option<DbUser>): (v: MenuView)
    ensures loading ==> v == Skeleton
    ensures !loading && dbUser.None? ==> v == SignInLink("/auth")
    ensures !loading && dbUser.Some? ==>
              && v.Menu?
              && v.initials == Initials(dbUser.value.name)
              && v.displayName == dbUser.value.name
              && (v.email == "" <==> dbUser.value.email.None? || dbUser.value.email.value == "")
              && (dbUser.value.email.Some? ==> v.email == dbUser.value.email.value)
  {
    if loading then Skeleton
    else match dbUser
      case None => SignInLink("/auth")
      case Some(u) => Menu(Initials(u.name), u.name, u.email.GetOr(""))
  }
}

=== FILE: wrappers.dfy ===
/** Optional values and success/failure results, shared by every module. */
module Wrappers {

  /** A value that may be absent (the source's `null` / `undefined`). */
  datatype Option<+T> = None | Some(value: T) {
    function GetOr(default: T): T {
      match this
      case Some(v) => v
      case None => default
    }
  }

  /** The outcome of an asynchronous operation: it resolves or it rejects. */
  datatype Result<+T, +E> = Success(value: T) | Failure(error: E)
}
